=== FILE: README.md ===
# AI gateway bookkeeping, modelled in Dafny

This project models the bookkeeping core of an AI-model gateway. The gateway runs
several vLLM model servers behind one HTTP front end. Its core is plain state
manipulation, and every part is written here as pure functions over immutable
datatypes. The current time, health-probe outcomes, stop outcomes, random key
material and the contents of MongoDB collections are passed in as parameters.

- **Admission queue** (`CrashProofQueue`, `queued_request.dfy`, `priority_order.dfy`,
  `request_queue.dfy`, `queue_recovery.dfy`, `queue_scenarios.dfy`). Per model there
  is:
  - a waiting list ordered HIGH, then NORMAL, then LOW, first in first out within a class;
  - a processing map;
  - three counters;
  - the durable `queue_state` collection, a map from request id to document that
    every transition upserts.

  Enqueue, dequeue, complete, fail, one timeout sweep and crash recovery are step
  functions. The document form (`to_dict` / `from_dict`) is a partial decoder with a
  proved round trip.
- **Model lifecycle** (`ModelManager`, `manager.dfy`). A `ModelStatus` state
  machine per configured model, the `current_model` field and the OCR model's
  resolution tag.
- **Usage-driven switching** (`PatternAnalyzer`, `AutoSwitcher`,
  `pattern_analyzer.dfy`, `tally.dfy`, `auto_switcher.dfy`).
  - Window counting over the request history.
  - The first-seen argmax, the minimum-count and 60 % share tests.
  - The daily breakdown.
  - The cooldown and idle-queue guards of one switching check.
- **Supporting logic:**
  - `${VAR}` substitution and the validated configuration records (`config.dfy`);
  - the API-key store (`api_keys.dfy`);
  - the retention cleanup, listings and stamping of the store layer (`store.dfy`,
    with the shared filter / newest-first / limit machinery in `listing.dfy`).

Time is whole seconds (`Iso.Time`). A day is 86400 seconds (`Iso.SecondsPerDay`). Both are declared once, in `iso.dfy`.

## Model

| member | source | states |
|---|---|---|
| QueuedRequests.ParsePriority | app/models/queue.py:32-36 | `Priority(s)` succeeds exactly for the three member values, and the value of the member it returns is `s` |
| QueuedRequests.ParseStatus | app/models/queue.py:22-29 | `RequestStatus(s)` succeeds exactly for the six member values, and the value of the member it returns is `s` |
| QueuedRequests.PriorityNameRoundTrip | app/models/queue.py:32-36 | every priority survives its string value |
| QueuedRequests.StatusNameRoundTrip | app/models/queue.py:22-29 | every status survives its string value, including `timeout` for TIMEOUT |
| QueuedRequests.NewRequest | app/models/queue.py:40-55 | a new request is QUEUED, unstarted, with `retry_count` 0, `max_retries` 3 and the given priority and timeout |
| QueuedRequests.IsTimeout | app/models/queue.py:76-81 | a request is timed out exactly when it has a start time and strictly more than `timeout_seconds` have elapsed since |
| QueuedRequests.TimeoutIsStrictAndLasting | app/models/queue.py:76-81 | a started request is not yet timed out at its deadline, is one second later, and stays timed out from then on |
| QueuedRequests.ToDict | app/models/queue.py:58-64 | the document holds every key `from_dict` indexes and nothing else; the status is its string value and `completed_at` is text or null |
| QueuedRequests.FromDict | app/models/queue.py:66-74 | decoding succeeds exactly on a document with every indexed key, no key the constructor rejects and well-formed field values; then the text fields are copied, priority and status are their string values parsed, every timestamp is its text parsed with falsy optional ones read as None, `error` and `result` are the stored text or None when absent or null, and absent counts take the defaults 300, 0 and 3 |
| QueuedRequests.TimeFieldRoundTrip | app/models/queue.py:62-71 | an optional timestamp written as isoformat-or-null reads back unchanged through the truthiness test and `fromisoformat` |
| QueuedRequests.FromDictToDict | app/models/queue.py:58-74 | `from_dict(to_dict(r)) == r` for every request: timestamps, priority and status survive their string forms |
| QueuedRequests.FromDictRejectsMongoId | app/models/queue.py:74 | a document carrying Mongo's `_id` never decodes |
| Iso.ParseFormat | app/models/queue.py:61 | the timestamp text form parses back to the same instant |
| Iso.FormatInjective | app/models/queue.py:61 | distinct instants have distinct text forms |
| PriorityOrder.InsertByPriority | app/models/queue.py:362-375 | the insertion holds exactly the old waiting requests plus the new one, as a multiset |
| PriorityOrder.InsertionIndex | app/models/queue.py:366-372 | the insertion point lies after every request of equal or higher priority and before the first request of strictly lower priority |
| PriorityOrder.InsertByPriorityPlacement | app/models/queue.py:362-375 | the result is the old list with the new request spliced in at the insertion point, the others keeping their order |
| PriorityOrder.InsertByPriorityMembers | app/models/queue.py:362-375 | a request is in the result exactly when it was waiting or is the new one |
| PriorityOrder.InsertByPriorityKeepsOrder | app/models/queue.py:362-375 | a waiting list ordered HIGH, NORMAL, LOW stays ordered after an insertion |
| PriorityOrder.InsertByPriorityFifo | app/models/queue.py:362-375 | the new request lands behind every request of its own or a higher class and ahead of every lower one, so it is first in, first out within its class |
| RequestQueue.Init | app/models/queue.py:96-127 | a fresh queue keeps the model and capacities, starts empty with zero counters on the given collection, and satisfies the queue invariant whenever `max_concurrent` is not negative |
| RequestQueue.Enqueue | app/models/queue.py:157-197 | QueueFull exactly when `len(waiting) >= max_waiting`; otherwise waiting gains exactly one QUEUED request and the store gains its document, and nothing else changes |
| RequestQueue.InsertKeepsWaitingOk | app/models/queue.py:362-375 | inserting a QUEUED request with a fresh id keeps the waiting list ordered, all QUEUED, with distinct ids and none processing |
| RequestQueue.EnqueuePreservesValid | app/models/queue.py:174-193 | a successful enqueue of a fresh id preserves the queue invariant |
| RequestQueue.Dequeue | app/models/queue.py:199-226 | nothing dispatched and nothing changed exactly when processing is full or nothing waits; otherwise the head becomes PROCESSING, started now, moves to processing and is persisted, and processing stays within `max_concurrent` |
| RequestQueue.DequeuePreservesValid | app/models/queue.py:199-226 | dequeue preserves the invariant: no id waits and processes at once, and processing stays within `max_concurrent` |
| RequestQueue.Complete | app/models/queue.py:228-244 | an id not processing changes nothing; otherwise the request leaves processing, is persisted COMPLETED and `total_processed` grows by exactly one |
| RequestQueue.CompletePreservesValid | app/models/queue.py:228-244 | complete preserves the queue invariant |
| RequestQueue.Fail | app/models/queue.py:246-269 | an id not processing changes nothing; otherwise below `max_retries` the request is re-inserted QUEUED with `started_at` cleared, else it is persisted FAILED and `total_failed` grows by one |
| RequestQueue.FailPreservesValid | app/models/queue.py:246-269 | fail preserves the queue invariant, though not the `max_waiting` bound |
| RequestQueue.FailRequeuesBehindItsClass | app/models/queue.py:261 | a retried request is placed after every waiting request of its class or a higher one and before every lower one |
| RequestQueue.FailCanOverfillWaiting | app/models/queue.py:257-261 | a retry into a full waiting list makes it one longer than `max_waiting`, because the re-insert skips the capacity check |
| RequestQueue.TimeoutSweep | app/models/queue.py:345-357 | exactly the timed-out processing requests leave, are persisted TIMEOUT and are counted in `total_timeout`; nothing else changes |
| RequestQueue.UnstartedNeverTimesOut | app/models/queue.py:76-81 | a processing request with no `started_at` survives every sweep |
| RequestQueue.TimeoutSweepLeavesNoneExpired | app/models/queue.py:345-357 | after a sweep, no processing request is timed out at the same instant |
| RequestQueue.TimeoutSweepOfNothingExpired | app/models/queue.py:345-357 | a sweep that finds nothing timed out changes nothing |
| RequestQueue.TimeoutSweepIdempotent | app/models/queue.py:345-357 | a second sweep at the same instant changes nothing |
| RequestQueue.TimeoutSweepPreservesValid | app/models/queue.py:345-357 | the sweep preserves the queue invariant |
| RequestQueue.GetMetrics | app/models/queue.py:289-301 | the metrics report the container sizes and counters; utilization is processing over `max_concurrent`, 0 without capacity, and between 0 and 1 for a valid queue |
| RequestQueue.PersistRoundTrip | app/models/queue.py:377-386 | the upsert stores the request's document under its id, which decodes back to the request, leaves every other key alone, and keeps every stored document decoding back to itself when that held before |
| QueueScenarios.AlwaysFailingRequestIsDispatchedMaxRetriesTimes | app/models/queue.py:246-269 | a request that fails on every dispatch is dispatched `max_retries` times in all; its last failure stores it FAILED with `retry_count == max_retries`, empties the queue and adds one to `total_failed` |
| QueueScenarios.RoundsAloneFrom | app/models/queue.py:252-261 | while retries remain, each fail-and-redispatch round leaves a lone request processing with one more failure and nothing counted failed |
| QueueScenarios.LastFailure | app/models/queue.py:262-266 | the failure on the last allowed attempt removes a lone request and stores it FAILED |
| QueueScenarios.HighThenNormalThenLow | app/models/queue.py:199-219 | LOW, HIGH, NORMAL submissions into an empty queue are dispatched HIGH, NORMAL, LOW |
| QueueRecovery.Reset | app/models/queue.py:318-322 | a PROCESSING record comes back QUEUED with `started_at` cleared and one more retry; any other record is unchanged; id, priority and `created_at` are kept |
| QueueRecovery.OutcomeOf | app/models/queue.py:307-334 | a record is skipped exactly when it is not pending for this model or does not decode; otherwise it keeps id, priority, `created_at`, payload and `max_retries`, gains one retry exactly when it was PROCESSING, is re-admitted as the reset request exactly when that is below `max_retries`, and is otherwise given up as the reset request marked FAILED |
| QueueRecovery.DecodedPendingIsQueuedOrProcessing | app/models/queue.py:308-311 | a pending record that decodes is QUEUED or PROCESSING and belongs to the model |
| QueueRecovery.RecoverOne | app/models/queue.py:314-334 | one record is skipped without change, inserted into waiting by priority as its reset request, or persisted as its reset request marked FAILED, as its outcome says; processing and counters never change |
| QueueRecovery.RecoverWaitingContents | app/models/queue.py:314-327 | after recovery, waiting holds exactly the old waiting requests plus every re-admitted record |
| QueueRecovery.RecoverStore | app/models/queue.py:328-331 | recovery writes to the collection only the given-up records, in cursor order |
| QueueRecovery.RecoverKeepsOrder | app/models/queue.py:326 | recovery keeps the waiting list ordered by priority |
| QueueRecovery.RecoverWaitingAllQueued | app/models/queue.py:319-326 | after recovery every waiting request is QUEUED |
| QueueRecovery.RecoverFromCrashAsWrittenIsNoOp | app/models/queue.py:314-334 | when every fetched document carries `_id`, recovery as written re-admits nothing and writes nothing |
| QueueRecovery.InterruptedRequestIsReadmitted | app/models/queue.py:316-327 | with `_id` stripped before decoding, an interrupted PROCESSING request with retries left is re-admitted QUEUED with one more retry, priority and `created_at` kept; as written it is lost |
| QueueRecovery.RecoverFromCrash | app/models/queue.py:303-336 | with `_id` dropped before decoding, waiting gains exactly the re-admitted records and stays ordered by priority, the collection gains exactly the given-up records, and nothing else changes |
| QueueRecovery.RecoverFromCrashAsWritten | app/models/queue.py:314-334 | as written, a cursor whose every document carries `_id` leaves the queue unchanged |
| QueueRecovery.FetchedOutcome | app/models/queue.py:308-331 | a persisted request fetched back with its `_id` is skipped when not pending for the model, else re-admitted reset below `max_retries` or given up FAILED; as written it is always skipped |
| QueueRecovery.ReadmittedFetched | app/models/queue.py:314-327 | over the fetched documents of persisted requests, the re-admitted requests are exactly the pending ones still below `max_retries` after the reset, in cursor order |
| QueueRecovery.RecoveryRevivesPersistedRequests | app/models/queue.py:303-336 | what the queue persisted comes back: recovery over the stored documents of `rs` adds to waiting exactly those revivable, reset; recovery as written adds nothing |
| Config.ReplaceEnvVars | app/config.py:121-130 | substitution keeps dicts' keys in order, lists' lengths and every non-string scalar; every string leaf `${NAME}` with NAME set becomes `env[NAME]`, and every other string leaf is kept as written |
| Config.SubstitutedLeavesUnique | app/config.py:121-130 | the leaf-by-leaf substitution determines the resulting tree: two trees that both meet it are equal |
| Config.ReplaceEnvVarsIsTheSubstitution | app/config.py:121-130 | any tree that is the input with each string leaf resolved is the result of `_replace_env_vars` |
| Config.ReplaceOfResolved | app/config.py:121-130 | a value with no substitutable reference is its own substitution |
| Config.ReplaceResolves | app/config.py:121-130 | when no variable's value is itself a reference to a set variable, the result holds no substitutable reference |
| Config.ReplaceIdempotent | app/config.py:121-130 | under that condition, substituting twice is substituting once |
| Config.SubstitutionIsSinglePass | app/config.py:127-129 | a substituted value is not re-scanned, an unset variable stays as written, and a reference inside other text is not replaced |
| Config.NewModelConfig | app/config.py:22-30 | a model configuration validates exactly when `max_model_len > 0` and `max_concurrent > 0`, keeping the given fields; `enabled` defaults to true |
| Config.NewQueueConfig | app/config.py:33-39 | validates exactly when `max_waiting` and `timeout` are positive; the defaults are 10, 300, enabled, enabled and 60 |
| Config.NewAutoSwitchConfig | app/config.py:42-47 | validates exactly when window, minimum requests and cooldown are positive; the defaults are enabled, 7 days, 10 requests and 5 minutes |
| Config.DefaultsAreValid | app/config.py:33-47 | the all-default queue and auto-switch configurations validate, with the documented values |
| Lifecycle.ParseResolution | app/models/manager.py:31-37 | `OCRResolution(s)` succeeds exactly for the five mode names, and the value of the member it returns is `s` |
| Lifecycle.ResolutionNameRoundTrip | app/models/manager.py:31-37 | every resolution survives its string value |
| Lifecycle.NewModelInfo | app/models/manager.py:380-394 | a new record is STOPPED with no process and no timestamps; the OCR model takes its configured `resolution_mode` as its tag, failing when that is not a mode name |
| Lifecycle.Init | app/models/manager.py:52-64 | the manager holds one STOPPED record per configured model and no current model |
| Lifecycle.InitOcrTag | app/models/manager.py:392-394 | the OCR model starts tagged with its configured resolution mode |
| Lifecycle.StartModel | app/models/manager.py:68-126 | an unknown name fails and a RUNNING model succeeds, both without change; otherwise the model ends RUNNING and current exactly when the probe succeeds, else ERROR with `current_model` untouched, and a requested resolution becomes the OCR model's tag whether or not the launch succeeds |
| Lifecycle.StopModel | app/models/manager.py:128-202 | an unknown name fails and a STOPPED model succeeds, both without change; otherwise a clean stop ends STOPPED with no process and clears `current_model` only when it named the model, and a raised stop ends ERROR |
| Lifecycle.SwitchModel | app/models/manager.py:204-227 | the switch succeeds exactly when the target is configured and already RUNNING or its launch is healthy, and then the target is RUNNING; a healthy launch of a target not yet running makes it current; a previous current model that had to be stopped ends STOPPED, or ERROR when its stop raised; every other model is untouched |
| Lifecycle.MustStopFirst | app/models/manager.py:223 | the current model is stopped before a switch exactly when one is set, its name is not empty (Python truthiness) and it is not the target |
| Lifecycle.Tagged | app/models/manager.py:330-331 | a launch changes the resolution tag only of the OCR model and only when a resolution is given, and nothing else in the record |
| Lifecycle.SwitchOcrResolution | app/models/manager.py:229-261 | without the OCR model it fails, and when the tag already matches it succeeds, both without change |
| Lifecycle.SwitchOcrResolutionSucceeds | app/models/manager.py:262-277 | a resolution change succeeds exactly when the relaunch is healthy; the tag is the requested one either way, and on success the OCR model runs and is current |
| Lifecycle.InitCurrentRunning | app/models/manager.py:52-64 | initially `current_model` is None, so it names no model that is not RUNNING |
| Lifecycle.StartKeepsCurrentRunning | app/models/manager.py:113-126 | a start keeps `current_model` None or naming a RUNNING model |
| Lifecycle.StopKeepsCurrentRunning | app/models/manager.py:189-197 | a clean stop keeps `current_model` None or naming a RUNNING model |
| Lifecycle.SwitchKeepsCurrentRunning | app/models/manager.py:219-227 | a switch whose stop succeeds keeps `current_model` None or naming a RUNNING model |
| Lifecycle.SwitchOcrResolutionKeepsCurrentRunning | app/models/manager.py:259-277 | a resolution switch whose stop succeeds keeps `current_model` None or naming a RUNNING model |
| Lifecycle.StopFailureBreaksCurrentRunning | app/models/manager.py:199-202 | a stop that raises on the current model leaves `current_model` naming a model in ERROR |
| Lifecycle.SwitchLoadsStoppedTarget | app/models/manager.py:219-227 | with a healthy probe, switching to a model that is not running makes it RUNNING and current |
| Lifecycle.SwitchToRunningTargetLeavesNoneCurrent | app/models/manager.py:219-227 | switching to a model already RUNNING beside the current one reports success but leaves no current model |
| Tally.CountAll | app/monitoring/pattern_analyzer.py:47-59 | the per-key counter holds exactly the keys seen, each with its number of occurrences |
| Tally.OrderIsFirstSeen | app/monitoring/pattern_analyzer.py:47-59 | the counter's key order is the order of first occurrence in the input |
| Tally.TotalIsLength | app/monitoring/pattern_analyzer.py:65 | the counts sum to the number of counted items |
| Tally.TotalZero | app/monitoring/pattern_analyzer.py:65-67 | the total is zero exactly when no key was counted |
| Tally.FirstMax | app/monitoring/pattern_analyzer.py:80 | the chosen position holds a greatest count, and every earlier position holds a strictly smaller one |
| Tally.FirstMaxOfTally | app/monitoring/pattern_analyzer.py:80 | `max(model_counts.items(), key=...)` picks a most frequent key, and on a tie the one first seen in the input |
| Listing.Filter | app/database/mongodb.py:114-120 | the filter keeps exactly the elements that pass the test |
| Listing.FilterMultiplicity | app/database/mongodb.py:114-120 | a passing element keeps all its copies and a failing one keeps none |
| Listing.FilterIdempotent | app/database/mongodb.py:114-120 | filtering twice by the same test is filtering once |
| Listing.SortDescSorted | app/database/mongodb.py:120 | `sort(key, -1)` yields the input reordered with non-increasing keys |
| Listing.NewestIsTopN | app/database/mongodb.py:120-121 | `sort(key, -1).limit(n)` returns at most n of the elements, newest first, all of them when there are at most n, and none it leaves out is newer than one it returns |
| Listing.NewestHead | app/database/mongodb.py:120-121 | a non-empty listing starts with an element of the greatest key |
| Listing.NewestFromInput | app/database/mongodb.py:120-121 | every listed element comes from the input |
| Listing.NewestContract | app/database/mongodb.py:120-121 | `sort(key, -1).limit(n)` returns at most n input elements with non-increasing keys, none left out is newer than one returned, and all are returned when there are at most n |
| Store.CleanupWith | app/database/mongodb.py:69-97 | request history, crash logs and metrics keep exactly the records with a time at or after the cutoff; missing-model records are kept; queue records are only removed, and unfinished ones never |
| Store.Cleanup | app/database/mongodb.py:93-96 | with the time comparison as intended, a queue record is pruned exactly when it is completed, failed or timed out and its completion lies before the cutoff |
| Store.CleanupAsWritten | app/database/mongodb.py:93-96 | as written, a queue record is pruned exactly when it is finished and its stored `completed_at` is a date before the cutoff, so with no date stored nothing is pruned |
| Store.CleanupIdempotent | app/database/mongodb.py:69-97 | for a fixed now, a second cleanup removes nothing |
| Store.ToDictCompletionIsText | app/models/queue.py:63 | the stored `completed_at` is text or null, never a date |
| Store.CleanupAsWrittenKeepsQueueState | app/database/mongodb.py:93-96 | as written, cleanup never removes a queue record when every record is a document the queue wrote, because a text `completed_at` never compares below a date |
| Store.CompletedRecordIsPruned | app/database/mongodb.py:93-96 | a completed queue record older than the cutoff is pruned by the intended cleanup and kept by the cleanup as written |
| Store.GetRequestHistory | app/database/mongodb.py:107-121 | at most `limit` records, each matching the given client and model filters, newest first; a matching record left out is no newer than any returned, and with at most `limit` matches all are returned |
| Store.SavedRequestIsListed | app/database/mongodb.py:103-121 | a saved request newer than all earlier ones heads the history listing filtered by its own client and model |
| Store.GetMissingModelRequests | app/database/mongodb.py:145-148 | at most `limit` missing-model records, newest first; one left out is no newer than any returned, and with at most `limit` records all are returned |
| Store.GetMetrics | app/database/mongodb.py:156-172 | at most `limit` metrics records within whichever bounds are given, inclusive, newest first; one in range left out is no newer than any returned, and with at most `limit` in range all are returned |
| Store.LogCrash | app/database/mongodb.py:124-128 | the crash record is appended with its timestamp set to now, whatever the caller supplied, and nothing else changes |
| Store.LoggedCrashHeadsListing | app/database/mongodb.py:124-133 | right after a crash is logged, the crash listing starts with a record stamped now |
| Store.GetCrashLogs | app/database/mongodb.py:130-133 | at most `limit` crash records, newest `timestamp` first; one left out is no newer than any returned, and with at most `limit` records all are returned |
| Store.SaveMetrics | app/database/mongodb.py:151-154 | the metrics record is appended stamped now, and nothing else changes |
| Store.LogMissingModel | app/database/mongodb.py:136-143 | a record of the model, client and now is appended, and nothing else changes |
| Store.SavedMetricsHeadsListing | app/database/mongodb.py:151-172 | a snapshot saved now, newer than every earlier one and within the bounds asked for, is the first record `get_metrics` returns |
| Store.LoggedMissingModelHeadsListing | app/database/mongodb.py:136-148 | a missing model logged now, newer than every earlier record, is the first record `get_missing_model_requests` returns |
| Store.SaveRequest | app/database/mongodb.py:103-105 | the record is appended to the history, and nothing else changes |
| PatternAnalyzer.Since | app/monitoring/pattern_analyzer.py:41-57 | a record is in the window exactly when its `created_at` is at or after the start, the boundary included |
| PatternAnalyzer.Judge | app/monitoring/pattern_analyzer.py:65-107 | no requests exactly when nothing was counted; a recommendation has at least `min_requests` and its confidence is its share of the total; "insufficient" means every model is below `min_requests` |
| PatternAnalyzer.AnalyzePatterns | app/monitoring/pattern_analyzer.py:34-107 | no requests exactly when the window is empty; otherwise the total is the number of in-window records; `model_counts` lists a model exactly when it was asked for in the window, with the number of such requests; `recent_counts` does the same for the requests both in the window and in the last 24 hours; a recommendation is a counted model with at least `min_requests` whose confidence is its share |
| PatternAnalyzer.WindowTally | app/monitoring/pattern_analyzer.py:52-59 | the window's tally lists a model exactly when an in-window request asked for it, with the number of those requests |
| PatternAnalyzer.RecentTally | app/monitoring/pattern_analyzer.py:50-62 | the last-day tally lists a model exactly when a request both in the window and created in the last 24 hours asked for it, with the number of those requests |
| PatternAnalyzer.AnalyzeStore | app/monitoring/pattern_analyzer.py:41-44 | the analysis over the store counts at most 10000 requests, and while the history holds no more it reports no requests exactly when every record is older than the window |
| PatternAnalyzer.ShouldSwitchModel | app/monitoring/pattern_analyzer.py:109-137 | a named model is the non-empty recommendation, differs from the current one and has confidence at least 0.6; no model is named exactly when one of those fails |
| PatternAnalyzer.NoRequestsIffWindowEmpty | app/monitoring/pattern_analyzer.py:67-72 | the analysis reports no requests exactly when no record lies in the window |
| PatternAnalyzer.AnalysisCountsRequests | app/monitoring/pattern_analyzer.py:50-65 | for one model: the total is the number of in-window records; its count is its in-window occurrences; its 24-hour count is its occurrences both in the window and in the last 24 hours, and never exceeds the window count |
| PatternAnalyzer.OccurrencesMonotone | app/monitoring/pattern_analyzer.py:57-62 | a narrower test counts no more occurrences, so the nested 24-hour count is bounded by the window count |
| PatternAnalyzer.RecommendationIsFirstMostUsed | app/monitoring/pattern_analyzer.py:80-91 | the recommended model occurs in the window at least as often as every other, and on a tie it was seen first |
| PatternAnalyzer.ShouldSwitchExactly | app/monitoring/pattern_analyzer.py:109-137 | `should_switch_model` names `m` exactly when `m` is recommended, non-empty, not current, and `5 * count >= 3 * total` |
| PatternAnalyzer.ConfidenceThreshold | app/monitoring/pattern_analyzer.py:130-134 | the share test `count / total >= 0.6` is exactly `5 * count >= 3 * total` |
| PatternAnalyzer.NoSwitchAwayFromSoleModel | app/monitoring/pattern_analyzer.py:121-128 | when every request used the current model, no switch is advised |
| PatternAnalyzer.GetUsageStats | app/monitoring/pattern_analyzer.py:139-162 | the period is the requested number of days, the breakdown has exactly the distinct dates of the in-window records, and `total_days` is their number |
| PatternAnalyzer.UsageStatsDay | app/monitoring/pattern_analyzer.py:146-161 | a day appears in the breakdown exactly when an in-window record falls on it, and its per-model counts add up to that day's records |
| PatternAnalyzer.UsageStatsDayModel | app/monitoring/pattern_analyzer.py:146-156 | `daily_breakdown[date][model]` is present exactly when an in-period request for that model fell on that date, and holds the number of such requests |
| PatternAnalyzer.DayTally | app/monitoring/pattern_analyzer.py:153-156 | one date's model tally counts each model's requests on that date |
| PatternAnalyzer.UsageStatsAddUp | app/monitoring/pattern_analyzer.py:146-160 | every listed day has a well-formed tally, and the daily counts summed over all days equal the number of requests in the period |
| PatternAnalyzer.DailySumIsSumOver | app/monitoring/pattern_analyzer.py:146-160 | summing the day totals equals summing any count map that agrees with them day by day |
| PatternAnalyzer.DayListed | app/monitoring/pattern_analyzer.py:146-156 | a date is in the breakdown exactly when some in-window record falls on it |
| PatternAnalyzer.DayTotal | app/monitoring/pattern_analyzer.py:153-156 | a listed day's per-model counts add up to the number of its records |
| PatternAnalyzer.DayCount | app/monitoring/pattern_analyzer.py:153-156 | the records falling on a date are as many as the occurrences of that date |
| AutoSwitcher.Start | app/monitoring/auto_switcher.py:45-53 | starting sets `running` exactly when auto-switching is enabled, and a disabled switcher is left as it was |
| AutoSwitcher.Stop | app/monitoring/auto_switcher.py:55-64 | stopping clears `running` and nothing else |
| AutoSwitcher.RunningAfterCommands | app/monitoring/auto_switcher.py:45-64 | after any sequence of `start` and `stop` calls on a new switcher it is running exactly when auto-switching is enabled and the last call was `start`, so a disabled switcher never runs; configuration and `last_switch` are untouched |
| AutoSwitcher.InCooldown | app/monitoring/auto_switcher.py:84-90 | never in cooldown before a first switch; in cooldown from the last switch until `switch_cooldown_minutes` later, that instant excluded |
| AutoSwitcher.CheckAndSwitch | app/monitoring/auto_switcher.py:81-116 | no switch in cooldown, without advice, or with any queue processing; a switch is attempted exactly otherwise, to the advised model, and `last_switch` becomes now only when it succeeds |
| AutoSwitcher.QueuesIdle | app/monitoring/auto_switcher.py:118-124 | the queues are idle exactly when none is processing, waiting requests notwithstanding, and vacuously with no queues |
| AutoSwitcher.AttemptedSwitchIsWarranted | app/monitoring/auto_switcher.py:93-110 | an attempted target is the analyzer's recommendation over the newest 10000 history records, not current, and holds at least 60 % of the window |
| AutoSwitcher.CooldownAfterSwitch | app/monitoring/auto_switcher.py:84-90 | after a successful switch, every check within the cooldown does nothing |
| AutoSwitcher.HealthyLaunchLoadsAdvice | app/monitoring/auto_switcher.py:110-113 | when the advised model is configured but not running and its launch is healthy, it ends RUNNING and current, and the cooldown starts |
| AutoSwitcher.SwitchToRunningModelLeavesNoneCurrent | app/monitoring/auto_switcher.py:110-113 | advice to a model that already runs beside the current one counts as a success yet leaves no current model |
| ApiKeys.GenerateKey | app/auth/api_keys.py:38-42 | every generated key is `agw_` followed by the random part |
| ApiKeys.HashKeyInjective | app/auth/api_keys.py:44-46 | distinct keys have distinct stored hashes |
| ApiKeys.NormalizeIdempotent | app/auth/api_keys.py:79 | lower-casing and trimming an email twice is doing it once |
| ApiKeys.Normalize | app/auth/api_keys.py:79 | a normalised email has no upper-case letter, starts and ends with no whitespace in the sense of `str.isspace`, and is made of characters of the lower-cased input |
| ApiKeys.ExpiryOf | app/auth/api_keys.py:72-74 | no expiry exactly when `expires_days` is None or 0, else now plus that many days |
| ApiKeys.Find | app/auth/api_keys.py:120 | the lookup finds the first record with the hash, or reports that none has it |
| ApiKeys.CreateApiKey | app/auth/api_keys.py:48-102 | creation fails only on a duplicate hash; otherwise it appends one active record with the normalised email, zero usage, rate limit 60, created now and the computed expiry, and returns the plaintext `agw_` key |
| ApiKeys.ValidateApiKey | app/auth/api_keys.py:104-153 | an empty or unprefixed key, or an unknown hash, is refused with no change; a key validates exactly when its record is active and not past its expiry |
| ApiKeys.InactiveKeyChangesNothing | app/auth/api_keys.py:125-127 | a key whose record is inactive is refused and nothing changes |
| ApiKeys.ValidationCountsOneUse | app/auth/api_keys.py:139-153 | a successful validation stamps `last_used_at`, adds exactly one to that record's usage, returns the new count and leaves every other record unchanged |
| ApiKeys.ExpiredKeyStaysRefused | app/auth/api_keys.py:129-137 | a key past its expiry is refused and deactivated, so every later validation refuses it too |
| ApiKeys.CreatedKeyValidates | app/auth/api_keys.py:48-153 | a key just created, with no negative expiry, validates at once for the normalised email with rate limit 60 and usage 1 |
| ApiKeys.UsableKeyValidates | app/auth/api_keys.py:114-153 | a prefixed key whose record is active and not past its expiry validates, reporting that record's owner, name, rate limit and incremented usage |
| ApiKeys.Revoked | app/auth/api_keys.py:162-165 | a record is deactivated and stamped revoked now exactly when it is active and owned by the normalised email |
| ApiKeys.RevokeAll | app/auth/api_keys.py:162-165 | the owner's active records become inactive stamped revoked now, otherwise unchanged; every other record is untouched; afterwards none is revocable |
| ApiKeys.RevokeApiKey | app/auth/api_keys.py:155-166 | revoking deactivates exactly the owner's active records and returns their number |
| ApiKeys.RevokeTwiceCountsZero | app/auth/api_keys.py:155-166 | after a revoke no record of the owner is revocable, so a second revoke changes nothing and returns 0 |
| ApiKeys.DeleteApiKey | app/auth/api_keys.py:168-178 | deleting removes exactly the owner's records and returns their number |
| ApiKeys.ListApiKeys | app/auth/api_keys.py:180-213 | at most `limit` stored records, active ones only when asked, newest first; a listed-kind record left out is no newer than any returned, and with at most `limit` of them all are returned |
| ApiKeys.LastUsed | app/auth/api_keys.py:232 | the latest `last_used_at` that is set among the records, or None when none is |
| ApiKeys.GetKeyStats | app/auth/api_keys.py:215-233 | no stats without owned records; otherwise the key count is at most 100, the active count is at most the key count, the usage is the sum of the counts and the last use is the latest |
| ApiKeys.ValidationRaisesTotalUsage | app/auth/api_keys.py:139-153 | a successful validation raises the store's summed usage by exactly one |
| ApiKeys.DeletedOwnerHasNoStats | app/auth/api_keys.py:168-233 | after the owner's keys are deleted, their stats are None |

## Left out

- **I/O and scheduling.**
  - MongoDB calls, the asyncio loops and sleeps, the switching lock and task cancellation are left out.
  - Subprocess launch, terminate and kill, `pkill`, the HTTP health probes and the vLLM command text are left out.
  - The probe outcome, the stop outcome (clean or raised), the current time and the random key part are parameters.
  - Each sweep, check or recovery is one atomic step; interleavings are not modelled.
- **One instant per operation.** Each operation reads the clock once. The source calls `utcnow()` several times inside some operations, for example `created_at` and `expires_at` in `create_api_key`.
- **`get_status`** of the queue, `get_model_status` / `get_all_status` of the manager and `get_status` of the switcher are read-only reports. They are left out.
- **The graceful wait of `stop_model`** is left out. It polls `_get_active_requests`, which always returns 0.
- **Floating point.**
  - Utilization and confidence are exact reals, and the usage percentages are not modelled.
  - `gpu_memory_utilization` bounds are not modelled.
- **Hashing and isoformat.**
  - SHA-256 is replaced by an injective tagging of the key.
  - isoformat is replaced by a decimal rendering of whole seconds with a proved round trip. Sub-second precision is not modelled.
- **Email normalisation** strips whitespace as `str.isspace` defines it, but lower-cases ASCII letters only. Python's Unicode case mapping is not modelled.
- **Payload and result** of a queued request are opaque strings.
- **Non-string `model_name` values** in the request history are not modelled.
- **The `created_at` text parse** in the analyzer is not modelled: history records carry their time directly.
- **`limit(0)`** is modelled as returning nothing. Mongo reads a zero limit as "no limit".
- **The listing's projection** in `list_api_keys` is left out: the records are returned whole.
- **Out of scope:** `load_config` file reading and YAML, `get_config` caching, the FastAPI application, the terminal UI, the key-management CLI, the OCR test client, JWT handling and the dual authentication dependency.
- RequestQueue.EnqueuePreservesValid: assumes the new id is not live. The source draws it from `uuid4`, which this model does not represent.
- QueuedRequests.FromDict: requires the text fields to be strings and the counts to be integers. The untyped dataclass accepts any value there, for example `client_id: 7` or `timeout_seconds: "300"`; the model's `Request` has typed fields, so such documents decode to None.
- PatternAnalyzer.GetUsageStats: takes the fetched history as given; the 10000-record cap of the read is modelled in PatternAnalyzer.AnalyzeStore only.
- QueueRecovery.RecoverFromCrash: the order in which the cursor yields documents is a parameter; Mongo does not promise one.
- ApiKeys.GetKeyStats: bounds `active_keys` by `total_keys` rather than restating the count of active records.
- ApiKeys.CreatedKeyValidates: requires a non-negative `expires_days`. A negative one makes the key expire before it is created.

## Findings

| source | as written | input that shows it | evidently intended | confidence | as-written member | corrected member |
|---|---|---|---|---|---|---|
| app/models/queue.py:314-334 | recovery passes each fetched document, which still carries Mongo's `_id`, to `cls(**data)`; the constructor rejects the keyword, the exception is caught and the record is skipped | any QUEUED or PROCESSING record of the model in `queue_state` | drop `_id` before decoding, so pending requests are re-admitted after a crash | not executed | QueueRecovery.RecoverFromCrashAsWrittenIsNoOp | QueueRecovery.InterruptedRequestIsReadmitted |
| app/database/mongodb.py:93-96 | the queue-state cleanup compares `completed_at`, which `to_dict` stores as isoformat text, with a date; Mongo never orders a string below a date, so no queue record is ever pruned | a COMPLETED record whose `completed_at` lies 20 days before now, with 15 days' retention | compare the completion time itself, so finished records past retention are pruned | not executed | Store.CleanupAsWrittenKeepsQueueState | Store.CompletedRecordIsPruned |

=== FILE: api_keys.dfy ===
/**
  The API-key store of app/auth/api_keys.py (`APIKeyManager`) over the `api_keys`
  collection, held as a sequence of records in insertion order. The random part of
  a new key and the current time are parameters; SHA-256 is stood in for by an
  injective tagging of the key, which is all the store relies on.
 */
module ApiKeys {
  import opened Wrappers
  import opened Listing
  import opened Iso

  const KeyPrefix: string := "agw_"
  const DefaultRateLimit: int := 60
  /** `get_key_stats` reads at most this many records. */
  const StatsLimit: nat := 100

  /** A stored key: its hash, owner and usage, never the key itself. */
  datatype KeyRecord = KeyRecord(
    keyHash: string,
    email: string,
    name: string,
    description: string,
    active: bool,
    createdAt: Time,
    expiresAt: Option<Time>,
    lastUsedAt: Option<Time>,
    usageCount: nat,
    rateLimit: int,
    revokedAt: Option<Time>)

  // ---------------------------------------------------------------------
  // Keys and hashes
  // ---------------------------------------------------------------------

  /** `_generate_key`: `agw_` followed by the random part. */
  function GenerateKey(randomPart: string): (k: string)
    ensures |k| == |KeyPrefix| + |randomPart| && k[..|KeyPrefix|] == KeyPrefix && k[|KeyPrefix|..] == randomPart
  {
    KeyPrefix + randomPart
  }

  /** `_hash_key`, stood in for by an injective function of the key. */
  function HashKey(key: string): string {
    "sha256:" + key
  }

  /** Different keys have different hashes. */
  lemma HashKeyInjective(a: string, b: string)
    ensures HashKey(a) == HashKey(b) ==> a == b
  {
    if HashKey(a) == HashKey(b) {
      assert a == HashKey(a)[7..] == HashKey(b)[7..] == b;
    }
  }

  predicate StartsWith(s: string, prefix: string) {
    |prefix| <= |s| && s[..|prefix|] == prefix
  }

  // ---------------------------------------------------------------------
  // Email normalisation: `email.lower().strip()`
  // ---------------------------------------------------------------------

  function LowerChar(c: char): char {
    if 'A' <= c <= 'Z' then (c as int + 32) as char else c
  }

  function Lower(s: string): (r: string)
    ensures |r| == |s| && forall i :: 0 <= i < |s| ==> r[i] == LowerChar(s[i])
  {
    seq(|s|, i requires 0 <= i < |s| => LowerChar(s[i]))
  }

  /** Python's `str.isspace`: the characters `strip()` removes. */
  predicate IsSpace(c: char) {
    || '\U{0009}' <= c <= '\U{000D}' || '\U{001C}' <= c <= '\U{0020}'
    || c == '\U{0085}' || c == '\U{00A0}' || c == '\U{1680}' || '\U{2000}' <= c <= '\U{200A}'
    || c == '\U{2028}' || c == '\U{2029}' || c == '\U{202F}' || c == '\U{205F}' || c == '\U{3000}'
  }

  function TrimStart(s: string): (r: string)
    ensures |r| <= |s| && r == s[|s| - |r|..]
    ensures r == [] || !IsSpace(r[0])
    ensures forall i :: 0 <= i < |s| - |r| ==> IsSpace(s[i])
  {
    if s != [] && IsSpace(s[0]) then TrimStart(s[1..]) else s
  }

  function TrimEnd(s: string): (r: string)
    ensures |r| <= |s| && r == s[..|r|]
    ensures r == [] || !IsSpace(r[|r| - 1])
    ensures forall i :: |r| <= i < |s| ==> IsSpace(s[i])
  {
    if s != [] && IsSpace(s[|s| - 1]) then TrimEnd(s[..|s| - 1]) else s
  }

  /** The stored form of an email: lower-cased, without leading or trailing whitespace. */
  function Normalize(email: string): (n: string)
    ensures forall i :: 0 <= i < |n| ==> LowerChar(n[i]) == n[i]
    ensures n == [] || (!IsSpace(n[0]) && !IsSpace(n[|n| - 1]))
    ensures forall i :: 0 <= i < |n| ==> n[i] in Lower(email)
  {
    TrimmedLower(email);
    TrimEnd(TrimStart(Lower(email)))
  }

  lemma LowerCharIdempotent(c: char)
    ensures LowerChar(LowerChar(c)) == LowerChar(c)
  {}

  /** Trimming a lower-cased string keeps a contiguous piece of it, whose ends are not whitespace. */
  lemma TrimmedLower(email: string)
    ensures var l := Lower(email); var n := TrimEnd(TrimStart(l));
      && (forall i :: 0 <= i < |n| ==> LowerChar(n[i]) == n[i])
      && (n == [] || (!IsSpace(n[0]) && !IsSpace(n[|n| - 1])))
      && (forall i :: 0 <= i < |n| ==> n[i] in l)
  {
    var l := Lower(email);
    var t := TrimStart(l);
    var n := TrimEnd(t);
    forall i | 0 <= i < |n|
      ensures LowerChar(n[i]) == n[i] && n[i] in l
    {
      TrimmedLowerChar(email, i);
    }
    assert n == [] || n[0] == t[0];
  }

  /** One character of the trimmed lower-cased string: already lower case, and taken from it. */
  lemma TrimmedLowerChar(email: string, i: int)
    requires 0 <= i < |TrimEnd(TrimStart(Lower(email)))|
    ensures var l := Lower(email); var n := TrimEnd(TrimStart(l));
      LowerChar(n[i]) == n[i] && n[i] in l
  {
    var l := Lower(email);
    var t := TrimStart(l);
    var n := TrimEnd(t);
    var j := |l| - |t| + i;
    assert n[i] == t[i] == l[j];
    LowerCharIdempotent(email[j]);
  }

  lemma LowerOfLower(s: string)
    requires forall i :: 0 <= i < |s| ==> LowerChar(s[i]) == s[i]
    ensures Lower(s) == s
  {}

  /** Normalising a normalised email changes nothing. */
  lemma NormalizeIdempotent(email: string)
    ensures Normalize(Normalize(email)) == Normalize(email)
  {
    var n := Normalize(email);
    assert Lower(n) == n by {
      LowerOfLower(n);
    }
    TrimmedIsFixed(n);
  }

  /** Trimming a string that neither starts nor ends with white space changes nothing. */
  lemma TrimmedIsFixed(s: string)
    requires s == [] || (!IsSpace(s[0]) && !IsSpace(s[|s| - 1]))
    ensures TrimEnd(TrimStart(s)) == s
  {
    assert TrimStart(s) == s;
  }

  // ---------------------------------------------------------------------
  // create_api_key
  // ---------------------------------------------------------------------

  /** What `create_api_key` hands back once: the plain key and its metadata, with the email as given. */
  datatype Created = Created(apiKey: string, email: string, name: string, createdAt: Time, expiresAt: Option<Time>)

  /** `if expires_days:`: no expiry for `None` or 0. */
  function ExpiryOf(expiresDays: Option<int>, now: Time): (e: Option<Time>)
    ensures e.None? <==> expiresDays.None? || expiresDays.value == 0
    ensures e.Some? ==> e.value == now + expiresDays.value * SecondsPerDay
  {
    if expiresDays.Some? && expiresDays.value != 0 then Some(now + expiresDays.value * SecondsPerDay) else None
  }

  /** The position of the record with hash `h`, the first in insertion order. */
  function Find(ks: seq<KeyRecord>, h: string): (i: Option<nat>)
    ensures i.None? <==> forall j :: 0 <= j < |ks| ==> ks[j].keyHash != h
    ensures i.Some? ==> i.value < |ks| && ks[i.value].keyHash == h && forall j :: 0 <= j < i.value ==> ks[j].keyHash != h
    decreases |ks|
  {
    if ks == [] then None
    else if ks[0].keyHash == h then Some(0)
    else match Find(ks[1..], h)
      case None => None
      case Some(i) => Some(i + 1)
  }

  /**
    `create_api_key`: a new active record for a fresh key, with usage 0 and the
    default rate limit. The unique index on the hash refuses a key already stored.
   */
  function CreateApiKey(ks: seq<KeyRecord>, email: string, name: string, description: string,
                        expiresDays: Option<int>, randomPart: string, now: Time): (r: Result<(seq<KeyRecord>, Created), string>)
    ensures r.Failure? <==> Find(ks, HashKey(GenerateKey(randomPart))).Some?
    ensures r.Success? ==>
      var ks', c := r.value.0, r.value.1;
      && |ks'| == |ks| + 1 && ks' == ks + [ks'[|ks|]]
      && var rec := ks'[|ks|];
      && rec.keyHash == HashKey(c.apiKey) && StartsWith(c.apiKey, KeyPrefix)
      && rec.email == Normalize(email) && c.email == email
      && rec.active && rec.usageCount == 0 && rec.rateLimit == DefaultRateLimit
      && rec.lastUsedAt.None? && rec.createdAt == now
      && rec.expiresAt == c.expiresAt == ExpiryOf(expiresDays, now)
  {
    var key := GenerateKey(randomPart);
    var h := HashKey(key);
    if Find(ks, h).Some? then Failure("duplicate key_hash")
    else
      var expires := ExpiryOf(expiresDays, now);
      var rec := KeyRecord(h, Normalize(email), name, description, true, now, expires, None, 0, DefaultRateLimit, None);
      Success((ks + [rec], Created(key, email, name, now, expires)))
  }

  // ---------------------------------------------------------------------
  // validate_api_key
  // ---------------------------------------------------------------------

  /** What a valid key tells the caller about its client. */
  datatype ClientInfo = ClientInfo(email: string, name: string, rateLimit: int, usageCount: nat)

  /**
    `validate_api_key`: an empty or unprefixed key is refused before any lookup; an
    unknown or inactive key is refused without a change; a key past its expiry is
    refused and deactivated; otherwise the key's use is recorded and its client
    returned with the new usage count.
   */
  function ValidateApiKey(ks: seq<KeyRecord>, apiKey: string, now: Time): (r: (seq<KeyRecord>, Option<ClientInfo>))
    ensures |r.0| == |ks|
    ensures !StartsWith(apiKey, KeyPrefix) ==> r == (ks, None)
    ensures Find(ks, HashKey(apiKey)).None? ==> r == (ks, None)
    ensures r.1.Some? <==>
      && StartsWith(apiKey, KeyPrefix) && Find(ks, HashKey(apiKey)).Some?
      && var k := ks[Find(ks, HashKey(apiKey)).value];
      k.active && (k.expiresAt.None? || now <= k.expiresAt.value)
  {
    if apiKey == "" || !StartsWith(apiKey, KeyPrefix) then (ks, None)
    else
      match Find(ks, HashKey(apiKey))
      case None => (ks, None)
      case Some(i) =>
        var k := ks[i];
        if !k.active then (ks, None)
        else if k.expiresAt.Some? && now > k.expiresAt.value then (ks[i := k.(active := false)], None)
        else
          var used := k.(lastUsedAt := Some(now), usageCount := k.usageCount + 1);
          (ks[i := used], Some(ClientInfo(k.email, k.name, k.rateLimit, k.usageCount + 1)))
  }

  /** A refused key leaves the store unchanged unless it was refused for its expiry. */
  lemma InactiveKeyChangesNothing(ks: seq<KeyRecord>, apiKey: string, now: Time)
    requires var i := Find(ks, HashKey(apiKey)); i.Some? && !ks[i.value].active
    ensures ValidateApiKey(ks, apiKey, now) == (ks, None)
  {}

  /**
    A successful validation adds exactly one use to that key, records the time, and
    returns the new count; every other record is unchanged.
   */
  lemma ValidationCountsOneUse(ks: seq<KeyRecord>, apiKey: string, now: Time)
    requires ValidateApiKey(ks, apiKey, now).1.Some?
    ensures var r := ValidateApiKey(ks, apiKey, now); var i := Find(ks, HashKey(apiKey)).value;
      && r.0 == ks[i := ks[i].(lastUsedAt := Some(now), usageCount := ks[i].usageCount + 1)]
      && r.1 == Some(ClientInfo(ks[i].email, ks[i].name, ks[i].rateLimit, ks[i].usageCount + 1))
  {
    assert apiKey != "";
  }

  /** A key found past its expiry is deactivated, so it is refused from then on, whatever the time. */
  lemma ExpiredKeyStaysRefused(ks: seq<KeyRecord>, apiKey: string, now: Time, later: Time)
    requires StartsWith(apiKey, KeyPrefix)
    requires var i := Find(ks, HashKey(apiKey));
      i.Some? && ks[i.value].active && ks[i.value].expiresAt.Some? && now > ks[i.value].expiresAt.value
    ensures var (ks', info) := ValidateApiKey(ks, apiKey, now);
      && info.None?
      && !ks'[Find(ks, HashKey(apiKey)).value].active
      && ValidateApiKey(ks', apiKey, later) == (ks', None)
  {
    var i := Find(ks, HashKey(apiKey)).value;
    var ks' := ValidateApiKey(ks, apiKey, now).0;
    assert ks' == ks[i := ks[i].(active := false)];
    assert Find(ks', HashKey(apiKey)) == Some(i) by {
      assert forall j :: 0 <= j < |ks'| ==> ks'[j].keyHash == ks[j].keyHash;
    }
  }

  /** A key that `create_api_key` issued validates at once, unless it expired already. */
  lemma CreatedKeyValidates(ks: seq<KeyRecord>, email: string, name: string, description: string,
                            expiresDays: Option<int>, randomPart: string, now: Time)
    requires CreateApiKey(ks, email, name, description, expiresDays, randomPart, now).Success?
    requires expiresDays.None? || expiresDays.value >= 0
    ensures var r := CreateApiKey(ks, email, name, description, expiresDays, randomPart, now).value;
      ValidateApiKey(r.0, r.1.apiKey, now).1 == Some(ClientInfo(Normalize(email), name, DefaultRateLimit, 1))
  {
    var key := GenerateKey(randomPart);
    var expires := ExpiryOf(expiresDays, now);
    var rec := KeyRecord(HashKey(key), Normalize(email), name, description, true, now, expires, None, 0, DefaultRateLimit, None);
    assert CreateApiKey(ks, email, name, description, expiresDays, randomPart, now)
        == Success((ks + [rec], Created(key, email, name, now, expires)));
    AppendedKeyValidates(ks, rec, key, now);
  }

  /** A prefixed key appended, active and unexpired, to a store that lacked its hash validates. */
  lemma AppendedKeyValidates(ks: seq<KeyRecord>, rec: KeyRecord, key: string, now: Time)
    requires Find(ks, HashKey(key)).None? && rec.keyHash == HashKey(key) && StartsWith(key, KeyPrefix)
    requires rec.active && (rec.expiresAt.None? || now <= rec.expiresAt.value)
    ensures ValidateApiKey(ks + [rec], key, now).1 == Some(ClientInfo(rec.email, rec.name, rec.rateLimit, rec.usageCount + 1))
  {
    FindAppended(ks, rec, HashKey(key));
    assert (ks + [rec])[|ks|] == rec;
    UsableKeyValidates(ks + [rec], key, now, |ks|);
  }

  /** A prefixed key whose record is active and unexpired validates, with one more use. */
  lemma UsableKeyValidates(ks: seq<KeyRecord>, apiKey: string, now: Time, i: nat)
    requires StartsWith(apiKey, KeyPrefix) && Find(ks, HashKey(apiKey)) == Some(i)
    requires ks[i].active && (ks[i].expiresAt.None? || now <= ks[i].expiresAt.value)
    ensures ValidateApiKey(ks, apiKey, now).1 == Some(ClientInfo(ks[i].email, ks[i].name, ks[i].rateLimit, ks[i].usageCount + 1))
  {
    assert apiKey != "";
    var k := ks[i];
    assert ValidateApiKey(ks, apiKey, now).1 == Some(ClientInfo(k.email, k.name, k.rateLimit, k.usageCount + 1));
  }

  /** A hash absent from the store is found at the record appended with it. */
  lemma FindAppended(ks: seq<KeyRecord>, rec: KeyRecord, h: string)
    requires Find(ks, h).None? && rec.keyHash == h
    ensures Find(ks + [rec], h) == Some(|ks|)
  {
    var ks' := ks + [rec];
    assert ks'[|ks|].keyHash == h;
    assert forall j :: 0 <= j < |ks| ==> ks'[j] == ks[j] && ks'[j].keyHash != h;
  }

  // ---------------------------------------------------------------------
  // revoke_api_key / delete_api_key
  // ---------------------------------------------------------------------

  predicate OwnedBy(k: KeyRecord, email: string) {
    k.email == Normalize(email)
  }

  /** The records `revoke_api_key` updates: active ones of the owner. */
  predicate Revocable(k: KeyRecord, email: string) {
    OwnedBy(k, email) && k.active
  }

  function OwnerTest(email: string): KeyRecord -> bool {
    (k: KeyRecord) => OwnedBy(k, email)
  }

  function OtherOwnerTest(email: string): KeyRecord -> bool {
    (k: KeyRecord) => !OwnedBy(k, email)
  }

  function RevocableTest(email: string): KeyRecord -> bool {
    (k: KeyRecord) => Revocable(k, email)
  }

  /** A record as `revoke_api_key` leaves it: deactivated and stamped when revocable, else as it was. */
  function Revoked(k: KeyRecord, email: string, now: Time): (k': KeyRecord)
    ensures Revocable(k, email) ==> k' == k.(active := false, revokedAt := Some(now))
    ensures !Revocable(k, email) ==> k' == k
  {
    if Revocable(k, email) then k.(active := false, revokedAt := Some(now)) else k
  }

  /** `revoke_api_key`: deactivates the owner's active keys, stamping them, and counts them. */
  function RevokeApiKey(ks: seq<KeyRecord>, email: string, now: Time): (r: (seq<KeyRecord>, nat))
    ensures |r.0| == |ks|
    ensures forall i :: 0 <= i < |ks| ==> r.0[i] == Revoked(ks[i], email, now)
    ensures r.1 == |Filter(ks, RevocableTest(email))|
  {
    (RevokeAll(ks, email, now), |Filter(ks, RevocableTest(email))|)
  }

  /**
    The `update_many` of `revoke_api_key`: the owner's active records become inactive
    and stamped now, every other record stays as it was, and the owner is left with
    no active record.
   */
  function RevokeAll(ks: seq<KeyRecord>, email: string, now: Time): (rs: seq<KeyRecord>)
    ensures |rs| == |ks| && forall i :: 0 <= i < |ks| ==> rs[i] == Revoked(ks[i], email, now)
    ensures forall i :: 0 <= i < |ks| && Revocable(ks[i], email) ==>
      !rs[i].active && rs[i].revokedAt == Some(now) && rs[i].(active := true, revokedAt := ks[i].revokedAt) == ks[i]
    ensures forall i :: 0 <= i < |ks| && !Revocable(ks[i], email) ==> rs[i] == ks[i]
    ensures forall i :: 0 <= i < |rs| ==> !Revocable(rs[i], email)
  {
    seq(|ks|, i requires 0 <= i < |ks| => Revoked(ks[i], email, now))
  }

  /** After a revocation the owner has no active key, so revoking again changes nothing and counts 0. */
  lemma RevokeTwiceCountsZero(ks: seq<KeyRecord>, email: string, now: Time, later: Time)
    ensures var ks' := RevokeApiKey(ks, email, now).0;
      && (forall i :: 0 <= i < |ks'| ==> !Revocable(ks'[i], email))
      && RevokeApiKey(ks', email, later) == (ks', 0)
  {
    var ks' := RevokeApiKey(ks, email, now).0;
    FilterNone(ks', RevocableTest(email));
    assert RevokeApiKey(ks', email, later).0 == ks';
  }

  /** `delete_api_key`: removes every key of the owner and counts them. */
  function DeleteApiKey(ks: seq<KeyRecord>, email: string): (r: (seq<KeyRecord>, nat))
    ensures forall k :: k in r.0 <==> k in ks && !OwnedBy(k, email)
    ensures r.1 == |Filter(ks, OwnerTest(email))|
    ensures |r.0| + r.1 == |ks|
  {
    var kept := Filter(ks, OtherOwnerTest(email));
    FilterSplit(ks, OwnerTest(email), OtherOwnerTest(email));
    (kept, |ks| - |kept|)
  }

  // ---------------------------------------------------------------------
  // list_api_keys / get_key_stats
  // ---------------------------------------------------------------------

  function ListedTest(activeOnly: bool): KeyRecord -> bool {
    (k: KeyRecord) => !activeOnly || k.active
  }

  function CreatedAt(k: KeyRecord): int {
    k.createdAt
  }

  /**
    `list_api_keys`: at most `limit` keys, the active ones only when asked, newest
    `created_at` first; a listed-kind key left out is no newer than any returned, and
    with at most `limit` of them all are returned.
   */
  function ListApiKeys(ks: seq<KeyRecord>, activeOnly: bool, limit: nat): (r: seq<KeyRecord>)
    ensures |r| <= limit
    ensures forall i :: 0 <= i < |r| ==> r[i] in ks && (activeOnly ==> r[i].active)
    ensures forall i, j :: 0 <= i < j < |r| ==> r[i].createdAt >= r[j].createdAt
    ensures forall x, y :: x in ks && (activeOnly ==> x.active) && x !in r && y in r ==> x.createdAt <= y.createdAt
    ensures |Filter(ks, ListedTest(activeOnly))| <= limit ==> forall x :: x in ks && (activeOnly ==> x.active) ==> x in r
  {
    var m := Filter(ks, ListedTest(activeOnly));
    ListedMembers(ks, activeOnly);
    NewestContract(m, CreatedAt, limit);
    Newest(m, CreatedAt, limit)
  }

  /** The records the listing filter keeps are the stored ones, active ones only when asked. */
  lemma ListedMembers(ks: seq<KeyRecord>, activeOnly: bool)
    ensures forall x :: x in Filter(ks, ListedTest(activeOnly)) <==> x in ks && (activeOnly ==> x.active)
  {
    forall x
      ensures x in Filter(ks, ListedTest(activeOnly)) <==> x in ks && (activeOnly ==> x.active)
    {
      assert ListedTest(activeOnly)(x) == (activeOnly ==> x.active);
    }
  }

  datatype KeyStats = KeyStats(email: string, totalKeys: nat, activeKeys: nat, totalUsage: nat, lastUsed: Option<Time>)

  function TotalUsage(ks: seq<KeyRecord>): nat
    decreases |ks|
  {
    if ks == [] then 0 else TotalUsage(ks[..|ks| - 1]) + ks[|ks| - 1].usageCount
  }

  /** The latest `last_used_at` that is set, if any is. */
  function LastUsed(ks: seq<KeyRecord>): (t: Option<Time>)
    ensures t.None? <==> forall i :: 0 <= i < |ks| ==> ks[i].lastUsedAt.None?
    ensures t.Some? ==> exists i :: 0 <= i < |ks| && ks[i].lastUsedAt == t
    ensures t.Some? ==> forall i :: 0 <= i < |ks| && ks[i].lastUsedAt.Some? ==> ks[i].lastUsedAt.value <= t.value
    decreases |ks|
  {
    if ks == [] then None
    else
      var init := ks[..|ks| - 1];
      var rest := LastUsed(init);
      var u := ks[|ks| - 1].lastUsedAt;
      assert forall i :: 0 <= i < |init| ==> ks[i] == init[i];
      if u.None? then rest
      else if rest.None? || rest.value < u.value then u
      else rest
  }

  /**
    `get_key_stats`: over the owner's first hundred records, none when there are
    none, else how many there are, how many are active, their summed usage and their
    latest use.
   */
  function GetKeyStats(ks: seq<KeyRecord>, email: string): (s: Option<KeyStats>)
    ensures var owned := Take(Filter(ks, OwnerTest(email)), StatsLimit);
      && (s.None? <==> owned == [])
      && (s.Some? ==>
            && s.value.email == email
            && s.value.totalKeys == |owned| <= StatsLimit
            && s.value.activeKeys <= s.value.totalKeys
            && s.value.totalUsage == TotalUsage(owned)
            && s.value.lastUsed == LastUsed(owned))
  {
    var owned := Take(Filter(ks, OwnerTest(email)), StatsLimit);
    if owned == [] then None
    else
      var active := Filter(owned, (k: KeyRecord) => k.active);
      Some(KeyStats(email, |owned|, |active|, TotalUsage(owned), LastUsed(owned)))
  }

  /** One more use of one key raises the summed usage by one. */
  lemma {:induction false} TotalUsageBump(ks: seq<KeyRecord>, i: nat, k: KeyRecord)
    requires i < |ks| && k.usageCount == ks[i].usageCount + 1
    ensures TotalUsage(ks[i := k]) == TotalUsage(ks) + 1
    decreases |ks|
  {
    var last := |ks| - 1;
    if i < last {
      TotalUsageBump(ks[..last], i, k);
      assert ks[i := k][..last] == ks[..last][i := k];
    } else {
      assert ks[i := k][..last] == ks[..last];
    }
  }

  /** Each successful validation adds one to the usage summed over the whole store. */
  lemma ValidationRaisesTotalUsage(ks: seq<KeyRecord>, apiKey: string, now: Time)
    requires ValidateApiKey(ks, apiKey, now).1.Some?
    ensures TotalUsage(ValidateApiKey(ks, apiKey, now).0) == TotalUsage(ks) + 1
  {
    ValidationCountsOneUse(ks, apiKey, now);
    var i := Find(ks, HashKey(apiKey)).value;
    TotalUsageBump(ks, i, ks[i].(lastUsedAt := Some(now), usageCount := ks[i].usageCount + 1));
  }

  /** Once an owner's keys are deleted there are no statistics for that owner. */
  lemma DeletedOwnerHasNoStats(ks: seq<KeyRecord>, email: string)
    ensures GetKeyStats(DeleteApiKey(ks, email).0, email) == None
  {
    var kept := DeleteApiKey(ks, email).0;
    assert forall i :: 0 <= i < |kept| ==> !OwnedBy(kept[i], email) by {
      assert forall i :: 0 <= i < |kept| ==> kept[i] in kept;
    }
    FilterNone(kept, OwnerTest(email));
  }
}

=== FILE: auto_switcher.dfy ===
/**
  The auto-switching service of app/monitoring/auto_switcher.py: on each check it
  respects a cooldown after the last successful switch, asks the pattern analysis
  whether to switch, waits for every queue to be idle, and switches the manager.
  The periodic timer is not modelled; each check is one call with the current time,
  the database whose request history the analysis reads, and the outcomes of stopping and launching as inputs.
 */
module AutoSwitcher {
  import opened Wrappers
  import opened Config
  import opened Lifecycle
  import opened RequestQueue
  import Store
  import opened PatternAnalyzer
  import opened Iso

  datatype Switcher = Switcher(config: AutoSwitchConfig, running: bool, lastSwitch: Option<Time>)

  /** A new switcher: not running, never switched. */
  function New(config: AutoSwitchConfig): Switcher {
    Switcher(config, false, None)
  }

  /** `start`: a disabled switcher stays idle. */
  function Start(s: Switcher): (s': Switcher)
    ensures s'.running <==> s.config.enabled || s.running
    ensures s'.(running := s.running) == s
  {
    if !s.config.enabled then s else s.(running := true)
  }

  /** `stop`. */
  function Stop(s: Switcher): (s': Switcher)
    ensures !s'.running && s'.(running := s.running) == s
  {
    s.(running := false)
  }

  /** A call of `start` or `stop` on the service. */
  datatype Command = StartCmd | StopCmd

  /** The switcher after the calls in `cmds`, in order. */
  function Apply(s: Switcher, cmds: seq<Command>): Switcher
    decreases |cmds|
  {
    if cmds == [] then s
    else
      var before := Apply(s, cmds[..|cmds| - 1]);
      match cmds[|cmds| - 1]
      case StartCmd => Start(before)
      case StopCmd => Stop(before)
  }

  /**
    Over any sequence of `start` and `stop` calls on a new switcher, it is running
    exactly when auto-switching is enabled and the last call was `start`; so a
    disabled switcher never runs. Configuration and `last_switch` are untouched.
   */
  lemma {:induction false} RunningAfterCommands(config: AutoSwitchConfig, cmds: seq<Command>)
    ensures Apply(New(config), cmds).running <==> config.enabled && cmds != [] && cmds[|cmds| - 1] == StartCmd
    ensures Apply(New(config), cmds).(running := false) == New(config)
    decreases |cmds|
  {
    if cmds != [] {
      RunningAfterCommands(config, cmds[..|cmds| - 1]);
    }
  }

  /**
    `_are_queues_idle`: every queue's metrics report no request being processed. So
    the queues are idle exactly when none holds a request being processed, however
    many wait, and vacuously when there are none.
   */
  function QueuesIdle(queues: map<string, Queue>): (b: bool)
    ensures b <==> forall k :: k in queues ==> queues[k].processing == map[]
  {
    assert forall k :: k in queues ==> (GetMetrics(queues[k]).processing == 0 <==> queues[k].processing == map[]) by {
      forall k | k in queues
        ensures GetMetrics(queues[k]).processing == 0 <==> queues[k].processing == map[]
      {
        IdleQueue(queues[k]);
      }
    }
    forall k :: k in queues ==> GetMetrics(queues[k]).processing == 0
  }

  /** A queue reports no request being processed exactly when it holds none. */
  lemma IdleQueue(q: Queue)
    ensures GetMetrics(q).processing == 0 <==> q.processing == map[]
  {
    if q.processing != map[] {
      var id :| id in q.processing;
      assert id in q.processing.Keys;
    }
  }

  /**
    Less than the cooldown has passed since the last successful switch: never before
    a first switch, from the switch on for `cooldown_minutes` minutes, and not after.
   */
  function InCooldown(s: Switcher, now: Time): (b: bool)
    ensures s.lastSwitch.None? ==> !b
    ensures s.lastSwitch.Some? && s.lastSwitch.value <= now < s.lastSwitch.value + s.config.cooldownMinutes * 60 ==> b
    ensures s.lastSwitch.Some? && now >= s.lastSwitch.value + s.config.cooldownMinutes * 60 ==> !b
  {
    s.lastSwitch.Some? && now - s.lastSwitch.value < s.config.cooldownMinutes * 60
  }

  /** The switcher and manager after a check, and the model a switch was attempted to, if any. */
  datatype Check = Check(switcher: Switcher, manager: Manager, attempted: Option<string>)

  /** The model the analysis advises switching to. */
  function Advice(s: Switcher, m: Manager, db: Store.Database, now: Time): Option<string> {
    ShouldSwitchModel(AnalyzeStore(db, now, s.config.windowDays, s.config.minRequests), m.current)
  }

  /**
    `_check_and_switch`: nothing happens in the cooldown, without advice, or while a
    queue is processing. Otherwise the manager switches to the advised model, and
    only a successful switch restarts the cooldown.
   */
  function CheckAndSwitch(s: Switcher, m: Manager, queues: map<string, Queue>, db: Store.Database,
                          now: Time, halt: Halt, launch: Launch): (c: Check)
    ensures InCooldown(s, now) ==> c == Check(s, m, None)
    ensures !InCooldown(s, now) && Advice(s, m, db, now).None? ==> c == Check(s, m, None)
    ensures !QueuesIdle(queues) ==> c == Check(s, m, None)
    ensures c.attempted.Some? <==> !InCooldown(s, now) && Advice(s, m, db, now).Some? && QueuesIdle(queues)
    ensures c.attempted.Some? ==>
      var o := SwitchModel(m, c.attempted.value, None, now, halt, launch);
      && c.attempted == Advice(s, m, db, now)
      && c.manager == o.manager
      && c.switcher == s.(lastSwitch := if o.ok then Some(now) else s.lastSwitch)
  {
    if InCooldown(s, now) then Check(s, m, None)
    else
      var advice := Advice(s, m, db, now);
      if advice.None? then Check(s, m, None)
      else if !QueuesIdle(queues) then Check(s, m, None)
      else
        var o := SwitchModel(m, advice.value, None, now, halt, launch);
        Check(if o.ok then s.(lastSwitch := Some(now)) else s, o.manager, advice)
  }

  /**
    A switch is attempted only to a model with at least three fifths of the window's
    requests, other than the loaded one.
   */
  lemma AttemptedSwitchIsWarranted(s: Switcher, m: Manager, queues: map<string, Queue>, db: Store.Database,
                                   now: Time, halt: Halt, launch: Launch)
    requires CheckAndSwitch(s, m, queues, db, now, halt, launch).attempted.Some?
    ensures var target := CheckAndSwitch(s, m, queues, db, now, halt, launch).attempted.value;
      var a := AnalyzeStore(db, now, s.config.windowDays, s.config.minRequests);
      && a.Analysis? && a.verdict.Recommend? && a.verdict.model == target
      && target != "" && m.current != Some(target)
      && 5 * a.counts.counts[target] >= 3 * a.total
  {
    var target := CheckAndSwitch(s, m, queues, db, now, halt, launch).attempted.value;
    ShouldSwitchExactly(Store.GetRequestHistory(db, None, None, HistoryLimit), now,
                        s.config.windowDays, s.config.minRequests, m.current, target);
  }

  /**
    After a successful switch, a check within the cooldown leaves everything as it
    is, whatever the analysis would say.
   */
  lemma CooldownAfterSwitch(s: Switcher, m: Manager, queues: map<string, Queue>, db: Store.Database,
                            now: Time, halt: Halt, launch: Launch,
                            queues': map<string, Queue>, db': Store.Database, later: Time, halt': Halt, launch': Launch)
    requires s.config.cooldownMinutes > 0
    requires var c := CheckAndSwitch(s, m, queues, db, now, halt, launch);
      c.attempted.Some? && c.switcher.lastSwitch == Some(now)
    requires now <= later < now + s.config.cooldownMinutes * 60
    ensures var c := CheckAndSwitch(s, m, queues, db, now, halt, launch);
      CheckAndSwitch(c.switcher, c.manager, queues', db', later, halt', launch') == Check(c.switcher, c.manager, None)
  {}

  /**
    When the advised model is configured but not running, a healthy launch loads
    it: it is running and current, and the cooldown starts now.
   */
  lemma HealthyLaunchLoadsAdvice(s: Switcher, m: Manager, queues: map<string, Queue>, db: Store.Database,
                                 now: Time, halt: Halt)
    requires var c := CheckAndSwitch(s, m, queues, db, now, halt, Launched(true));
      c.attempted.Some? && c.attempted.value in m.models && m.models[c.attempted.value].status != Running
    ensures var c := CheckAndSwitch(s, m, queues, db, now, halt, Launched(true));
      && c.attempted.value in c.manager.models
      && c.manager.current == c.attempted
      && c.manager.models[c.attempted.value].status == Running
      && c.switcher.lastSwitch == Some(now)
  {
    var c := CheckAndSwitch(s, m, queues, db, now, halt, Launched(true));
    SwitchLoadsStoppedTarget(m, c.attempted.value, None, now, halt);
  }

  /**
    Advice to a model that already runs beside the current one succeeds without
    making it current: the current model is stopped and nothing is current after.
   */
  lemma SwitchToRunningModelLeavesNoneCurrent(s: Switcher, m: Manager, queues: map<string, Queue>,
                                              db: Store.Database, now: Time, launch: Launch)
    requires CurrentRunning(m) && m.current.Some? && m.current.value != ""
    requires var c := CheckAndSwitch(s, m, queues, db, now, HaltOk, launch);
      c.attempted.Some? && c.attempted.value in m.models && m.models[c.attempted.value].status == Running
    ensures var c := CheckAndSwitch(s, m, queues, db, now, HaltOk, launch);
      c.switcher.lastSwitch == Some(now) && c.manager.current == None
  {
    var c := CheckAndSwitch(s, m, queues, db, now, HaltOk, launch);
    AttemptedSwitchIsWarranted(s, m, queues, db, now, HaltOk, launch);
    SwitchToRunningTargetLeavesNoneCurrent(m, c.attempted.value, None, now, launch);
  }
}

=== FILE: config.dfy ===
/**
  Configuration (app/config.py): `${NAME}` substitution over the parsed YAML tree,
  and the validated configuration records with their defaults and bounds.
 */
module Config {
  import opened Wrappers

  // ---------------------------------------------------------------------
  // The parsed YAML tree and `_replace_env_vars`
  // ---------------------------------------------------------------------

  /** A mapping keeps its keys in insertion order. */
  datatype Value =
    | VDict(entries: seq<Entry>)
    | VList(items: seq<Value>)
    | VStr(s: string)
    | VNum(n: int)
    | VBool(b: bool)
    | VNull

  datatype Entry = Entry(key: string, value: Value)

  /** A whole-value reference: starts with `${` and ends with `}`. */
  predicate IsReference(s: string) {
    |s| >= 3 && s[..2] == "${" && s[|s| - 1] == '}'
  }

  /** The name between `${` and `}`. */
  function ReferenceName(s: string): string
    requires IsReference(s)
  {
    s[2..|s| - 1]
  }

  /**
    A string value: a reference to a set variable becomes that variable's value;
    anything else, an unset reference included, is kept.
   */
  function SubstituteString(s: string, env: map<string, string>): (r: string)
    ensures IsReference(s) && ReferenceName(s) in env ==> r == env[ReferenceName(s)]
    ensures !(IsReference(s) && ReferenceName(s) in env) ==> r == s
  {
    if IsReference(s) && ReferenceName(s) in env then env[ReferenceName(s)] else s
  }

  /**
    Two trees of the same shape: mappings with the same keys in the same order,
    lists of the same length, element by element; strings with strings; every
    other scalar equal.
   */
  predicate SameShape(a: Value, b: Value)
    decreases a
  {
    match a
    case VDict(es) =>
      b.VDict? && |b.entries| == |es|
      && forall i :: 0 <= i < |es| ==> es[i].key == b.entries[i].key && SameShape(es[i].value, b.entries[i].value)
    case VList(xs) =>
      b.VList? && |b.items| == |xs|
      && forall i :: 0 <= i < |xs| ==> SameShape(xs[i], b.items[i])
    case VStr(_) => b.VStr?
    case _ => b == a
  }

  /**
    `b` is `a` with each string leaf resolved: a reference to a set variable became
    that variable's value, and every other string stayed as written. Keys, their
    order, list lengths and the other scalars are as in `a`.
   */
  predicate SubstitutedLeaves(a: Value, b: Value, env: map<string, string>)
    decreases a
  {
    match a
    case VDict(es) =>
      b.VDict? && |b.entries| == |es|
      && forall i :: 0 <= i < |es| ==>
        es[i].key == b.entries[i].key && SubstitutedLeaves(es[i].value, b.entries[i].value, env)
    case VList(xs) =>
      b.VList? && |b.items| == |xs|
      && forall i :: 0 <= i < |xs| ==> SubstitutedLeaves(xs[i], b.items[i], env)
    case VStr(s) =>
      && b.VStr?
      && (IsReference(s) && ReferenceName(s) in env ==> b.s == env[ReferenceName(s)])
      && (!(IsReference(s) && ReferenceName(s) in env) ==> b.s == s)
    case _ => b == a
  }

  /**
    `_replace_env_vars`: recursive over mappings and lists, substituting whole string
    values. The tree keeps its shape: the same keys in the same order, the same list
    lengths, strings where there were strings and every other scalar as it was; and
    each string leaf that names a set variable, `${NAME}`, becomes `env[NAME]`.
   */
  function ReplaceEnvVars(v: Value, env: map<string, string>): (r: Value)
    ensures SameShape(v, r)
    ensures SubstitutedLeaves(v, r, env)
    ensures v.VStr? && IsReference(v.s) && ReferenceName(v.s) in env ==> r == VStr(env[ReferenceName(v.s)])
    ensures v.VStr? && !(IsReference(v.s) && ReferenceName(v.s) in env) ==> r == v
    decreases v
  {
    match v
    case VDict(es) => VDict(seq(|es|, i requires 0 <= i < |es| =>
                              Entry(es[i].key, ReplaceEnvVars(es[i].value, env))))
    case VList(xs) => VList(seq(|xs|, i requires 0 <= i < |xs| => ReplaceEnvVars(xs[i], env)))
    case VStr(s) => VStr(SubstituteString(s, env))
    case _ => v
  }

  /** The leaf-by-leaf substitution determines the resulting tree: no other tree meets it. */
  lemma {:induction false} SubstitutedLeavesUnique(a: Value, b: Value, c: Value, env: map<string, string>)
    requires SubstitutedLeaves(a, b, env) && SubstitutedLeaves(a, c, env)
    ensures b == c
    decreases a
  {
    match a
    case VDict(es) =>
      forall i | 0 <= i < |es|
        ensures b.entries[i] == c.entries[i]
      {
        SubstitutedLeavesUnique(es[i].value, b.entries[i].value, c.entries[i].value, env);
      }
      assert b.entries == c.entries;
    case VList(xs) =>
      forall i | 0 <= i < |xs|
        ensures b.items[i] == c.items[i]
      {
        SubstitutedLeavesUnique(xs[i], b.items[i], c.items[i], env);
      }
      assert b.items == c.items;
    case VStr(_) =>
    case _ =>
  }

  /** So `_replace_env_vars` is the only substitution of the tree's string leaves. */
  lemma ReplaceEnvVarsIsTheSubstitution(v: Value, r: Value, env: map<string, string>)
    requires SubstitutedLeaves(v, r, env)
    ensures r == ReplaceEnvVars(v, env)
  {
    SubstitutedLeavesUnique(v, r, ReplaceEnvVars(v, env), env);
  }

  /** No string of the tree, at any depth, is a reference to a set variable. */
  predicate Resolved(v: Value, env: map<string, string>)
    decreases v
  {
    match v
    case VDict(es) => forall i :: 0 <= i < |es| ==> Resolved(es[i].value, env)
    case VList(xs) => forall i :: 0 <= i < |xs| ==> Resolved(xs[i], env)
    case VStr(s) => !(IsReference(s) && ReferenceName(s) in env)
    case _ => true
  }

  /** The environment's values are not themselves references to set variables. */
  predicate EnvSettled(env: map<string, string>) {
    forall k :: k in env ==> !(IsReference(env[k]) && ReferenceName(env[k]) in env)
  }

  /** A resolved tree is left as it is. */
  lemma {:induction false} ReplaceOfResolved(v: Value, env: map<string, string>)
    requires Resolved(v, env)
    ensures ReplaceEnvVars(v, env) == v
    decreases v
  {
    match v
    case VDict(es) =>
      forall i | 0 <= i < |es|
        ensures ReplaceEnvVars(es[i].value, env) == es[i].value
      {
        ReplaceOfResolved(es[i].value, env);
      }
      assert ReplaceEnvVars(v, env).entries == es;
    case VList(xs) =>
      forall i | 0 <= i < |xs|
        ensures ReplaceEnvVars(xs[i], env) == xs[i]
      {
        ReplaceOfResolved(xs[i], env);
      }
      assert ReplaceEnvVars(v, env).items == xs;
    case _ =>
  }

  /** When the environment is settled, one substitution pass resolves the whole tree. */
  lemma {:induction false} ReplaceResolves(v: Value, env: map<string, string>)
    requires EnvSettled(env)
    ensures Resolved(ReplaceEnvVars(v, env), env)
    decreases v
  {
    match v
    case VDict(es) =>
      forall i | 0 <= i < |es|
        ensures Resolved(ReplaceEnvVars(v, env).entries[i].value, env)
      {
        ReplaceResolves(es[i].value, env);
      }
    case VList(xs) =>
      forall i | 0 <= i < |xs|
        ensures Resolved(ReplaceEnvVars(v, env).items[i], env)
      {
        ReplaceResolves(xs[i], env);
      }
    case _ =>
  }

  /** So with a settled environment, substitution is idempotent. */
  lemma ReplaceIdempotent(v: Value, env: map<string, string>)
    requires EnvSettled(env)
    ensures ReplaceEnvVars(ReplaceEnvVars(v, env), env) == ReplaceEnvVars(v, env)
  {
    ReplaceResolves(v, env);
    ReplaceOfResolved(ReplaceEnvVars(v, env), env);
  }

  /** A single pass: a substituted value that is itself a reference is not expanded again. */
  lemma SubstitutionIsSinglePass()
    ensures ReplaceEnvVars(VStr("${A}"), map["A" := "${B}", "B" := "x"]) == VStr("${B}")
    ensures ReplaceEnvVars(VStr("${UNSET}"), map[]) == VStr("${UNSET}")
    ensures ReplaceEnvVars(VStr("pre${A}"), map["A" := "x"]) == VStr("pre${A}")
  {
    assert ReferenceName("${A}") == "A";
    assert "pre${A}"[..2] == "pr";
  }

  // ---------------------------------------------------------------------
  // Validated configuration records
  // ---------------------------------------------------------------------

  /** `ModelConfig`; `gpu_memory` is a float and is not part of this model. */
  datatype ModelConfig = ModelConfig(
    name: string, port: int, maxModelLen: int, maxConcurrent: int,
    enabled: bool, resolutionMode: Option<string>)

  /** Construction of a `ModelConfig`: `max_model_len` and `max_concurrent` must be positive. */
  function NewModelConfig(name: string, port: int, maxModelLen: int, maxConcurrent: int,
                          enabled: Option<bool>, resolutionMode: Option<string>): (r: Result<ModelConfig, string>)
    ensures r.Success? <==> maxModelLen > 0 && maxConcurrent > 0
    ensures r.Success? ==> r.value.maxModelLen > 0 && r.value.maxConcurrent > 0
    ensures r.Success? ==>
      && r.value.name == name && r.value.port == port
      && r.value.maxModelLen == maxModelLen && r.value.maxConcurrent == maxConcurrent
      && r.value.resolutionMode == resolutionMode
    ensures r.Success? ==> r.value.enabled == (enabled != Some(false))
  {
    if maxModelLen <= 0 then Failure("max_model_len must be greater than 0")
    else if maxConcurrent <= 0 then Failure("max_concurrent must be greater than 0")
    else Success(ModelConfig(name, port, maxModelLen, maxConcurrent,
                             if enabled.Some? then enabled.value else true, resolutionMode))
  }

  const DefaultMaxWaiting: int := 10
  const DefaultTimeout: int := 300
  const DefaultRecoveryCheckInterval: int := 60

  datatype QueueConfig = QueueConfig(
    maxWaiting: int, timeout: int, priorityEnabled: bool, persistenceEnabled: bool,
    recoveryCheckInterval: int)

  /** A field given or its default. */
  function Or<T>(given: Option<T>, default: T): T {
    if given.Some? then given.value else default
  }

  /** Construction of a `QueueConfig`: `max_waiting` and `timeout` default to 10 and 300 and must be positive. */
  function NewQueueConfig(maxWaiting: Option<int>, timeout: Option<int>, priorityEnabled: Option<bool>,
                          persistenceEnabled: Option<bool>, recoveryCheckInterval: Option<int>)
    : (r: Result<QueueConfig, string>)
    ensures r.Success? <==> Or(maxWaiting, 10) > 0 && Or(timeout, 300) > 0
    ensures r.Success? ==> r.value.maxWaiting > 0 && r.value.timeout > 0
    ensures r.Success? && maxWaiting.None? ==> r.value.maxWaiting == 10
    ensures r.Success? && timeout.None? ==> r.value.timeout == 300
    ensures r.Success? && maxWaiting.Some? ==> r.value.maxWaiting == maxWaiting.value
    ensures r.Success? && timeout.Some? ==> r.value.timeout == timeout.value
    ensures r.Success? && recoveryCheckInterval.None? ==> r.value.recoveryCheckInterval == 60
    ensures r.Success? ==> r.value.priorityEnabled == (priorityEnabled != Some(false))
    ensures r.Success? ==> r.value.persistenceEnabled == (persistenceEnabled != Some(false))
  {
    var w := Or(maxWaiting, DefaultMaxWaiting);
    var t := Or(timeout, DefaultTimeout);
    if w <= 0 then Failure("max_waiting must be greater than 0")
    else if t <= 0 then Failure("timeout must be greater than 0")
    else Success(QueueConfig(w, t, Or(priorityEnabled, true), Or(persistenceEnabled, true),
                             Or(recoveryCheckInterval, DefaultRecoveryCheckInterval)))
  }

  const DefaultWindowDays: int := 7
  const DefaultMinRequests: int := 10
  const DefaultCooldownMinutes: int := 5

  datatype AutoSwitchConfig = AutoSwitchConfig(
    enabled: bool, windowDays: int, minRequests: int, cooldownMinutes: int)

  /** Construction of an `AutoSwitchConfig`: window 7 days, 10 requests and 5 minutes by default, each positive. */
  function NewAutoSwitchConfig(enabled: Option<bool>, windowDays: Option<int>, minRequests: Option<int>,
                               cooldownMinutes: Option<int>): (r: Result<AutoSwitchConfig, string>)
    ensures r.Success? <==> Or(windowDays, 7) > 0 && Or(minRequests, 10) > 0 && Or(cooldownMinutes, 5) > 0
    ensures r.Success? ==> r.value.windowDays > 0 && r.value.minRequests > 0 && r.value.cooldownMinutes > 0
    ensures r.Success? && windowDays.None? ==> r.value.windowDays == 7
    ensures r.Success? && minRequests.None? ==> r.value.minRequests == 10
    ensures r.Success? && cooldownMinutes.None? ==> r.value.cooldownMinutes == 5
    ensures r.Success? && windowDays.Some? ==> r.value.windowDays == windowDays.value
    ensures r.Success? && minRequests.Some? ==> r.value.minRequests == minRequests.value
    ensures r.Success? && cooldownMinutes.Some? ==> r.value.cooldownMinutes == cooldownMinutes.value
    ensures r.Success? ==> r.value.enabled == (enabled != Some(false))
  {
    var w := Or(windowDays, DefaultWindowDays);
    var m := Or(minRequests, DefaultMinRequests);
    var c := Or(cooldownMinutes, DefaultCooldownMinutes);
    if w <= 0 then Failure("pattern_window_days must be greater than 0")
    else if m <= 0 then Failure("min_requests_for_switch must be greater than 0")
    else if c <= 0 then Failure("switch_cooldown_minutes must be greater than 0")
    else Success(AutoSwitchConfig(Or(enabled, true), w, m, c))
  }

  /** `MongoDBConfig.history_retention_days`. */
  const DefaultHistoryRetentionDays: int := 15

  /** The defaults themselves satisfy the bounds. */
  lemma DefaultsAreValid()
    ensures NewQueueConfig(None, None, None, None, None) == Success(QueueConfig(10, 300, true, true, 60))
    ensures NewAutoSwitchConfig(None, None, None, None) == Success(AutoSwitchConfig(true, 7, 10, 5))
  {}
}

=== FILE: iso.dfy ===
/**
  Timestamps are integer seconds. `datetime.isoformat()` / `datetime.fromisoformat()`
  are modelled by a decimal rendering of the seconds value and its parser: what the
  queue's persistence relies on is only that parsing undoes rendering.
 */
module Iso {
  import opened Wrappers

  type Time = int

  /** Seconds in a day: `timedelta(days=1)`. */
  const SecondsPerDay: int := 86400

  predicate IsDigit(c: char) {
    '0' <= c <= '9'
  }

  function DigitChar(d: nat): (c: char)
    requires d < 10
    ensures IsDigit(c)
  {
    (48 + d) as char
  }

  function DigitValue(c: char): (d: nat)
    requires IsDigit(c)
    ensures d < 10
  {
    c as int - 48
  }

  /** Decimal digits of `n`, most significant first. */
  function Digits(n: nat): (s: string)
    ensures |s| > 0
    ensures forall i :: 0 <= i < |s| ==> IsDigit(s[i])
    decreases n
  {
    if n < 10 then [DigitChar(n)] else Digits(n / 10) + [DigitChar(n % 10)]
  }

  /** Reads a non-empty string of decimal digits; anything else is rejected. */
  function ParseDigits(s: string): Option<nat>
    decreases |s|
  {
    if |s| == 0 || !IsDigit(s[|s| - 1]) then None
    else if |s| == 1 then Some(DigitValue(s[0]))
    else
      match ParseDigits(s[..|s| - 1])
      case None => None
      case Some(p) => Some(10 * p + DigitValue(s[|s| - 1]))
  }

  /** Rendering of a timestamp (the stand-in for `isoformat()`). */
  function Format(t: Time): string {
    if t < 0 then "-" + Digits(-t) else Digits(t)
  }

  /** Parsing of a timestamp (the stand-in for `fromisoformat()`); partial. */
  function Parse(s: string): Option<Time> {
    var negative := |s| > 0 && s[0] == '-';
    match ParseDigits(if negative then s[1..] else s)
    case None => None
    case Some(p) =>
      var v: int := p;
      Some(if negative then -v else v)
  }

  lemma {:induction false} ParseDigitsOfDigits(n: nat)
    ensures ParseDigits(Digits(n)) == Some(n)
    decreases n
  {
    if n >= 10 {
      var s := Digits(n);
      assert s[..|s| - 1] == Digits(n / 10);
      ParseDigitsOfDigits(n / 10);
    }
  }

  /** Parsing undoes rendering: timestamps survive the trip through their text form. */
  lemma ParseFormat(t: Time)
    ensures Parse(Format(t)) == Some(t)
  {
    if t < 0 {
      var s := Format(t);
      assert s[0] == '-' && s[1..] == Digits(-t);
      ParseDigitsOfDigits(-t);
    } else {
      var s := Format(t);
      assert s == Digits(t) && IsDigit(s[0]);
      ParseDigitsOfDigits(t);
    }
  }

  /** Distinct timestamps render to distinct text. */
  lemma FormatInjective(t: Time, u: Time)
    requires Format(t) == Format(u)
    ensures t == u
  {
    ParseFormat(t);
    ParseFormat(u);
  }
}

=== FILE: listing.dfy ===
/**
  Sequence queries shared by the store and the analyzer: a filter, the
  newest-first `sort(key, -1)` and the `limit(n)` of a Mongo cursor.
 */
module Listing {

  /** The elements of `xs` that satisfy `p`, in their order. */
  function Filter<T(!new)>(xs: seq<T>, p: T -> bool): (r: seq<T>)
    ensures forall x :: x in r <==> x in xs && p(x)
    ensures forall i :: 0 <= i < |r| ==> p(r[i])
    ensures |r| <= |xs|
    decreases |xs|
  {
    if xs == [] then []
    else
      var init := Filter(xs[..|xs| - 1], p);
      var last := xs[|xs| - 1];
      assert xs == xs[..|xs| - 1] + [last];
      if p(last) then init + [last] else init
  }

  /** An element is dropped only by `p`: as many copies survive as `xs` holds, or none. */
  lemma {:induction false} FilterMultiplicity<T(!new)>(xs: seq<T>, p: T -> bool, x: T)
    ensures multiset(Filter(xs, p))[x] == if p(x) then multiset(xs)[x] else 0
    decreases |xs|
  {
    if xs != [] {
      var init := xs[..|xs| - 1];
      FilterMultiplicity(init, p, x);
      assert xs == init + [xs[|xs| - 1]];
    }
  }

  /** Filtering twice by the same test filters once. */
  lemma FilterIdempotent<T(!new)>(xs: seq<T>, p: T -> bool)
    ensures Filter(Filter(xs, p), p) == Filter(xs, p)
  {
    FilterOfSatisfying(Filter(xs, p), p);
  }

  /** A sequence whose every element satisfies `p` is its own filter. */
  lemma {:induction false} FilterOfSatisfying<T(!new)>(xs: seq<T>, p: T -> bool)
    requires forall i :: 0 <= i < |xs| ==> p(xs[i])
    ensures Filter(xs, p) == xs
    decreases |xs|
  {
    if xs != [] {
      var init := xs[..|xs| - 1];
      FilterOfSatisfying(init, p);
      assert xs == init + [xs[|xs| - 1]];
    }
  }

  /** Nothing survives a test that no element passes. */
  lemma {:induction false} FilterNone<T(!new)>(xs: seq<T>, p: T -> bool)
    requires forall i :: 0 <= i < |xs| ==> !p(xs[i])
    ensures Filter(xs, p) == []
    decreases |xs|
  {
    if xs != [] {
      FilterNone(xs[..|xs| - 1], p);
    }
  }

  /** A test and its negation split a sequence: the two filters together are as long as it. */
  lemma {:induction false} FilterSplit<T(!new)>(xs: seq<T>, p: T -> bool, q: T -> bool)
    requires forall x :: q(x) == !p(x)
    ensures |Filter(xs, p)| + |Filter(xs, q)| == |xs|
    decreases |xs|
  {
    if xs != [] {
      FilterSplit(xs[..|xs| - 1], p, q);
    }
  }

  // ---------------------------------------------------------------------
  // Newest first
  // ---------------------------------------------------------------------

  /** Non-increasing by `key`: newest first when the key is a timestamp. */
  predicate SortedDesc<T>(xs: seq<T>, key: T -> int) {
    forall i, j :: 0 <= i < j < |xs| ==> key(xs[i]) >= key(xs[j])
  }

  /** Inserts `x` ahead of the first element with a smaller key. */
  function InsertDesc<T(!new)>(xs: seq<T>, x: T, key: T -> int): (r: seq<T>)
    ensures multiset(r) == multiset(xs) + multiset{x}
    ensures |r| == |xs| + 1
    ensures forall y :: y in r <==> y in xs || y == x
    decreases |xs|
  {
    if xs == [] then [x]
    else if key(x) >= key(xs[0]) then [x] + xs
    else
      assert xs == [xs[0]] + xs[1..];
      [xs[0]] + InsertDesc(xs[1..], x, key)
  }

  /** No element of `xs` has a key above `b`. */
  predicate AtMost<T>(xs: seq<T>, b: int, key: T -> int) {
    forall i :: 0 <= i < |xs| ==> key(xs[i]) <= b
  }

  /** Every key of a sorted sequence is at most its first. */
  lemma SortedTail<T>(xs: seq<T>, key: T -> int)
    requires xs != [] && SortedDesc(xs, key)
    ensures SortedDesc(xs[1..], key) && AtMost(xs, key(xs[0]), key) && AtMost(xs[1..], key(xs[0]), key)
  {
    assert forall i :: 0 <= i < |xs| - 1 ==> xs[1..][i] == xs[i + 1];
  }

  /** A head no smaller than any key of a sorted tail keeps it sorted. */
  lemma SortedCons<T>(h: T, t: seq<T>, key: T -> int)
    requires SortedDesc(t, key) && AtMost(t, key(h), key)
    ensures SortedDesc([h] + t, key)
  {
    var r := [h] + t;
    forall i, j | 0 <= i < j < |r|
      ensures key(r[i]) >= key(r[j])
    {
      assert r[j] == t[j - 1];
      if i > 0 {
        assert r[i] == t[i - 1];
      }
    }
  }

  /** Inserting a key no larger than a bound keeps every key within it. */
  lemma {:induction false} InsertDescAtMost<T(!new)>(xs: seq<T>, x: T, key: T -> int, b: int)
    requires AtMost(xs, b, key) && key(x) <= b
    ensures AtMost(InsertDesc(xs, x, key), b, key)
    decreases |xs|
  {
    if xs != [] && key(x) < key(xs[0]) {
      assert AtMost(xs[1..], b, key) by {
        assert forall i :: 0 <= i < |xs| - 1 ==> xs[1..][i] == xs[i + 1];
      }
      InsertDescAtMost(xs[1..], x, key, b);
      var rest := InsertDesc(xs[1..], x, key);
      var r := [xs[0]] + rest;
      assert forall i :: 1 <= i < |r| ==> r[i] == rest[i - 1];
    }
  }

  lemma {:induction false} InsertDescSorted<T(!new)>(xs: seq<T>, x: T, key: T -> int)
    requires SortedDesc(xs, key)
    ensures SortedDesc(InsertDesc(xs, x, key), key)
    decreases |xs|
  {
    if xs == [] {
      assert InsertDesc(xs, x, key) == [x];
    } else if key(x) >= key(xs[0]) {
      SortedTail(xs, key);
      SortedCons(x, xs, key);
    } else {
      SortedTail(xs, key);
      InsertDescSorted(xs[1..], x, key);
      InsertDescAtMost(xs[1..], x, key, key(xs[0]));
      SortedCons(xs[0], InsertDesc(xs[1..], x, key), key);
    }
  }

  /** `sort(key, -1)`: a permutation of `xs`, newest first. Ties keep no particular order. */
  function SortDesc<T(!new)>(xs: seq<T>, key: T -> int): (r: seq<T>)
    ensures multiset(r) == multiset(xs)
    ensures |r| == |xs|
    decreases |xs|
  {
    if xs == [] then []
    else
      assert xs == xs[..|xs| - 1] + [xs[|xs| - 1]];
      InsertDesc(SortDesc(xs[..|xs| - 1], key), xs[|xs| - 1], key)
  }

  lemma {:induction false} SortDescSorted<T(!new)>(xs: seq<T>, key: T -> int)
    ensures SortedDesc(SortDesc(xs, key), key)
    decreases |xs|
  {
    if xs != [] {
      SortDescSorted(xs[..|xs| - 1], key);
      InsertDescSorted(SortDesc(xs[..|xs| - 1], key), xs[|xs| - 1], key);
    }
  }

  /** `limit(n)`: the first `n` elements, or all of them when there are fewer. */
  function Take<T>(xs: seq<T>, n: nat): (r: seq<T>)
    ensures |r| == if |xs| < n then |xs| else n
    ensures forall i :: 0 <= i < |r| ==> r[i] == xs[i]
  {
    if |xs| <= n then xs else xs[..n]
  }

  /** `find(...).sort(key, -1).limit(n)` over the matching elements `xs`. */
  function Newest<T(!new)>(xs: seq<T>, key: T -> int, limit: nat): seq<T> {
    Take(SortDesc(xs, key), limit)
  }

  /**
    The listing returns at most `limit` of the elements, newest first; when it
    leaves any out, none it leaves out is newer than one it returns; and when
    there are at most `limit` it returns them all.
   */
  lemma NewestIsTopN<T(!new)>(xs: seq<T>, key: T -> int, limit: nat)
    ensures var r := Newest(xs, key, limit);
      && |r| <= limit
      && SortedDesc(r, key)
      && multiset(r) <= multiset(xs)
      && (|xs| <= limit ==> multiset(r) == multiset(xs))
      && (forall x, y :: x in multiset(xs) - multiset(r) && y in r ==> key(x) <= key(y))
  {
    var s := SortDesc(xs, key);
    var r := Newest(xs, key, limit);
    var n := |r|;
    assert r == s[..n];
    assert SortedDesc(r, key) by {
      SortDescSorted(xs, key);
    }
    assert multiset(r) <= multiset(xs) && multiset(xs) - multiset(r) == multiset(s[n..]) by {
      MultisetSplit(s, n);
    }
    assert forall x, y :: x in multiset(xs) - multiset(r) && y in r ==> key(x) <= key(y) by {
      SortDescSorted(xs, key);
      DroppedAreNoNewer(s, n, key);
    }
  }

  /** A prefix and its suffix together hold the whole multiset. */
  lemma MultisetSplit<T>(s: seq<T>, n: nat)
    requires n <= |s|
    ensures multiset(s) == multiset(s[..n]) + multiset(s[n..])
    ensures multiset(s) - multiset(s[..n]) == multiset(s[n..])
  {
    assert s == s[..n] + s[n..];
  }

  /** In a sorted sequence, nothing after position `n` is newer than anything before it. */
  lemma DroppedAreNoNewer<T>(s: seq<T>, n: nat, key: T -> int)
    requires n <= |s| && SortedDesc(s, key)
    ensures forall x, y :: x in s[n..] && y in s[..n] ==> key(x) <= key(y)
  {
    forall x, y | x in s[n..] && y in s[..n]
      ensures key(x) <= key(y)
    {
      var j :| 0 <= j < |s| - n && s[n..][j] == x;
      var i :| 0 <= i < n && s[..n][i] == y;
      assert s[i] == y && s[n + j] == x;
    }
  }

  /** A non-empty listing starts with an element of the input whose key is the greatest. */
  lemma NewestHead<T(!new)>(xs: seq<T>, key: T -> int, limit: nat, x: T)
    requires limit >= 1 && x in xs
    requires forall y :: y in xs ==> key(y) <= key(x)
    ensures var r := Newest(xs, key, limit);
      |r| >= 1 && r[0] in xs && key(r[0]) == key(x)
  {
    var s := SortDesc(xs, key);
    assert x in multiset(s);
    var j :| 0 <= j < |s| && s[j] == x;
    assert key(s[0]) >= key(x) by {
      SortDescSorted(xs, key);
    }
    assert s[0] in multiset(xs);
  }

  /** Every element a listing returns comes from its input. */
  lemma NewestFromInput<T(!new)>(xs: seq<T>, key: T -> int, limit: nat)
    ensures var r := Newest(xs, key, limit);
      forall i :: 0 <= i < |r| ==> r[i] in xs
  {
    var r := Newest(xs, key, limit);
    var s := SortDesc(xs, key);
    forall i | 0 <= i < |r|
      ensures r[i] in xs
    {
      assert r[i] == s[i] && s[i] in multiset(s);
    }
  }

  /**
    The listing in membership terms: at most `limit` elements of the input, newest
    first; an input element left out is no newer than any returned; and with at most
    `limit` elements every one is returned.
   */
  lemma NewestContract<T(!new)>(xs: seq<T>, key: T -> int, limit: nat)
    ensures var r := Newest(xs, key, limit);
      && |r| <= limit
      && (forall i :: 0 <= i < |r| ==> r[i] in xs)
      && (forall i, j :: 0 <= i < j < |r| ==> key(r[i]) >= key(r[j]))
      && (forall x, y :: x in xs && x !in r && y in r ==> key(x) <= key(y))
      && (|xs| <= limit ==> forall x :: x in xs ==> x in r)
  {
    var r := Newest(xs, key, limit);
    NewestIsTopN(xs, key, limit);
    NewestFromInput(xs, key, limit);
    forall x, y | x in xs && x !in r && y in r
      ensures key(x) <= key(y)
    {
      assert x in multiset(xs) && x !in multiset(r);
      assert x in multiset(xs) - multiset(r);
    }
    if |xs| <= limit {
      forall x | x in xs
        ensures x in r
      {
        assert x in multiset(xs);
      }
    }
  }
}

=== FILE: manager.dfy ===
/**
  The model lifecycle manager (`ModelManager` in app/models/manager.py): a status
  state machine per configured model, the name of the model last started, and the
  resolution tag of the OCR model. Spawning the server process, the health probe
  and stopping the process are not modelled; their outcomes are inputs.
 */
module Lifecycle {
  import opened Wrappers
  import opened Config
  import opened Iso

  datatype ModelStatus = Stopped | Starting | Running | Stopping | Error

  datatype OcrResolution = Tiny | Small | Base | Large | Gundam

  function ResolutionName(r: OcrResolution): string {
    match r
    case Tiny => "tiny"
    case Small => "small"
    case Base => "base"
    case Large => "large"
    case Gundam => "gundam"
  }

  /** `OCRResolution(s)`: the member whose value is `s`, or the ValueError it raises. */
  function ParseResolution(s: string): (r: Option<OcrResolution>)
    ensures r.Some? <==> s in {"tiny", "small", "base", "large", "gundam"}
    ensures r.Some? ==> ResolutionName(r.value) == s
  {
    if s == "tiny" then Some(Tiny)
    else if s == "small" then Some(Small)
    else if s == "base" then Some(Base)
    else if s == "large" then Some(Large)
    else if s == "gundam" then Some(Gundam)
    else None
  }

  lemma ResolutionNameRoundTrip(r: OcrResolution)
    ensures ParseResolution(ResolutionName(r)) == Some(r)
  {}

  /** The one model with a resolution tag. */
  const OcrModel: string := "deepseek"

  /** `ModelInfo`; `process` is reduced to whether there is one. */
  datatype ModelInfo = ModelInfo(
    name: string,
    config: ModelConfig,
    status: ModelStatus,
    hasProcess: bool,
    startedAt: Option<Time>,
    stoppedAt: Option<Time>,
    currentResolution: Option<OcrResolution>)

  /** `config.resolution_mode` when it is set and not empty. */
  predicate HasResolutionMode(c: ModelConfig) {
    c.resolutionMode.Some? && c.resolutionMode.value != ""
  }

  /**
    `ModelInfo(name, config, STOPPED)`: no process, no timestamps; the OCR model's
    tag is its configured resolution mode when one is set, and an unknown mode is
    the ValueError the constructor raises.
   */
  function NewModelInfo(name: string, config: ModelConfig): (r: Result<ModelInfo, string>)
    ensures r.Failure? <==> name == OcrModel && HasResolutionMode(config)
                            && ParseResolution(config.resolutionMode.value).None?
    ensures r.Success? ==>
      && r.value.name == name && r.value.config == config && r.value.status == Stopped
      && !r.value.hasProcess && r.value.startedAt == None && r.value.stoppedAt == None
    ensures r.Success? && name == OcrModel && HasResolutionMode(config) ==>
      r.value.currentResolution.Some? && ResolutionName(r.value.currentResolution.value) == config.resolutionMode.value
    ensures r.Success? && !(name == OcrModel && HasResolutionMode(config)) ==> r.value.currentResolution == None
  {
    if name == OcrModel && HasResolutionMode(config) then
      match ParseResolution(config.resolutionMode.value)
      case None => Failure("invalid resolution_mode " + config.resolutionMode.value)
      case Some(res) => Success(ModelInfo(name, config, Stopped, false, None, None, Some(res)))
    else Success(ModelInfo(name, config, Stopped, false, None, None, None))
  }

  datatype Manager = Manager(models: map<string, ModelInfo>, current: Option<string>)

  /** The OCR model's configuration is the only one whose construction can fail. */
  predicate ConfigsOk(configs: map<string, ModelConfig>) {
    OcrModel in configs ==> NewModelInfo(OcrModel, configs[OcrModel]).Success?
  }

  /** `ModelManager.__init__`: one STOPPED entry per configured model and no current model. */
  function Init(configs: map<string, ModelConfig>): (r: Result<Manager, string>)
    ensures r.Success? <==> ConfigsOk(configs)
    ensures r.Success? ==> r.value.models.Keys == configs.Keys && r.value.current == None
    ensures r.Success? ==> forall n :: n in r.value.models ==>
      && r.value.models[n].status == Stopped
      && r.value.models[n].name == n
      && r.value.models[n].config == configs[n]
      && r.value.models[n] == NewModelInfo(n, configs[n]).value
  {
    if !ConfigsOk(configs) then Failure("invalid resolution_mode")
    else
      Success(Manager(map n | n in configs :: NewModelInfo(n, configs[n]).value, None))
  }

  /**
    Every model is STOPPED after construction, and the OCR model carries its
    configured resolution mode as its tag.
   */
  lemma InitOcrTag(configs: map<string, ModelConfig>)
    requires ConfigsOk(configs) && OcrModel in configs && HasResolutionMode(configs[OcrModel])
    ensures var m := Init(configs).value;
      && m.models[OcrModel].currentResolution.Some?
      && ResolutionName(m.models[OcrModel].currentResolution.value) == configs[OcrModel].resolutionMode.value
  {}

  // ---------------------------------------------------------------------
  // start_model
  // ---------------------------------------------------------------------

  /** What launching the server did: raised, or started and answered the health probe or not. */
  datatype Launch = LaunchRaised | Launched(healthy: bool)

  datatype Outcome = Outcome(manager: Manager, ok: bool)

  /** `_build_vllm_command`'s one effect: the OCR model is tagged with a requested resolution. */
  function Tagged(info: ModelInfo, name: string, resolution: Option<OcrResolution>): (t: ModelInfo)
    ensures t.(currentResolution := info.currentResolution) == info
    ensures t.currentResolution == if name == OcrModel && resolution.Some? then resolution else info.currentResolution
  {
    if name == OcrModel && resolution.Some? then info.(currentResolution := resolution) else info
  }

  /**
    `start_model`: an unknown model fails and a RUNNING one succeeds, both without a
    change. Otherwise (STARTING included) the model is launched: it ends RUNNING and
    becomes the current model when the launch is healthy, and ERROR otherwise. The
    OCR model's tag is set before the launch, so also when it fails.
   */
  function StartModel(m: Manager, name: string, resolution: Option<OcrResolution>, now: Time,
                      launch: Launch): (o: Outcome)
    ensures name !in m.models ==> o == Outcome(m, false)
    ensures name in m.models && m.models[name].status == Running ==> o == Outcome(m, true)
    ensures name in m.models && m.models[name].status != Running ==>
      var info := m.models[name];
      && o.manager.models.Keys == m.models.Keys
      && (forall n :: n in m.models && n != name ==> o.manager.models[n] == m.models[n])
      && (o.ok <==> launch == Launched(true))
      && o.manager.models[name].status == (if o.ok then Running else Error)
      && o.manager.current == (if o.ok then Some(name) else m.current)
      && o.manager.models[name].currentResolution
           == (if name == OcrModel && resolution.Some? then resolution else info.currentResolution)
      && (launch.Launched? ==> o.manager.models[name].hasProcess && o.manager.models[name].startedAt == Some(now))
      && (launch == LaunchRaised ==> o.manager.models[name].startedAt == info.startedAt)
  {
    if name !in m.models then Outcome(m, false)
    else
      var info := m.models[name];
      if info.status == Running then Outcome(m, true)
      else
        var tagged := Tagged(info.(status := Starting), name, resolution);
        match launch
        case LaunchRaised =>
          Outcome(m.(models := m.models[name := tagged.(status := Error)]), false)
        case Launched(healthy) =>
          var spawned := tagged.(hasProcess := true, startedAt := Some(now));
          if healthy then
            Outcome(Manager(m.models[name := spawned.(status := Running)], Some(name)), true)
          else
            Outcome(m.(models := m.models[name := spawned.(status := Error)]), false)
  }

  // ---------------------------------------------------------------------
  // stop_model
  // ---------------------------------------------------------------------

  /** What stopping the process did: completed, or raised. */
  datatype Halt = HaltOk | HaltRaised

  /**
    `stop_model`: an unknown model fails and a STOPPED one succeeds, both without a
    change. Otherwise the model ends STOPPED without a process, and stops being the
    current model if it was; if stopping raises it ends ERROR instead, and the
    current model is left as it was.
   */
  function StopModel(m: Manager, name: string, now: Time, halt: Halt): (o: Outcome)
    ensures name !in m.models ==> o == Outcome(m, false)
    ensures name in m.models && m.models[name].status == Stopped ==> o == Outcome(m, true)
    ensures name in m.models && m.models[name].status != Stopped ==>
      && o.manager.models.Keys == m.models.Keys
      && (forall n :: n in m.models && n != name ==> o.manager.models[n] == m.models[n])
      && (o.ok <==> halt == HaltOk)
      && (o.ok ==>
            && o.manager.models[name].status == Stopped
            && !o.manager.models[name].hasProcess
            && o.manager.models[name].stoppedAt == Some(now)
            && o.manager.current == (if m.current == Some(name) then None else m.current))
      && (!o.ok ==> o.manager.models[name].status == Error && o.manager.current == m.current)
      && o.manager.models[name].currentResolution == m.models[name].currentResolution
  {
    if name !in m.models then Outcome(m, false)
    else
      var info := m.models[name];
      if info.status == Stopped then Outcome(m, true)
      else
        var stopping := info.(status := Stopping);
        match halt
        case HaltRaised =>
          Outcome(m.(models := m.models[name := stopping.(status := Error)]), false)
        case HaltOk =>
          var stopped := stopping.(status := Stopped, hasProcess := false, stoppedAt := Some(now));
          var current := if m.current == Some(name) then None else m.current;
          Outcome(Manager(m.models[name := stopped], current), true)
  }

  // ---------------------------------------------------------------------
  // switch_model / switch_ocr_resolution
  // ---------------------------------------------------------------------

  /** `if self.current_model and self.current_model != target`. */
  function MustStopFirst(m: Manager, target: string): (b: bool)
    ensures b ==> m.current.Some? && m.current.value != target
    ensures m.current.None? || m.current == Some(target) ==> !b
    ensures m.current.Some? && m.current.value != "" && m.current.value != target ==> b
    ensures m.current == Some("") ==> !b
  {
    m.current.Some? && m.current.value != "" && m.current.value != target
  }

  /**
    `switch_model`: stops the current model first when there is one other than the
    target, ignoring how that went, then answers what starting the target answers.
   */
  function SwitchModel(m: Manager, target: string, resolution: Option<OcrResolution>, now: Time,
                       halt: Halt, launch: Launch): (o: Outcome)
    ensures o.ok <==> target in m.models && (m.models[target].status == Running || launch == Launched(true))
    ensures o.ok ==> target in o.manager.models && o.manager.models[target].status == Running
    ensures o.manager.models.Keys == m.models.Keys
    ensures launch == Launched(true) && target in m.models && m.models[target].status != Running ==>
      o.manager.current == Some(target)
    ensures MustStopFirst(m, target) && m.current.value in m.models ==>
      var prev := m.models[m.current.value].status;
      o.manager.models[m.current.value].status
        == (if prev != Stopped && halt == HaltRaised then Error else Stopped)
    ensures forall n :: n in m.models && n != target && !(MustStopFirst(m, target) && n == m.current.value) ==>
      o.manager.models[n] == m.models[n]
  {
    var m1 := if MustStopFirst(m, target) then StopModel(m, m.current.value, now, halt).manager else m;
    StartModel(m1, target, resolution, now, launch)
  }

  /**
    `switch_ocr_resolution`: fails without the OCR model, succeeds without a change
    when the tag already matches; otherwise stops a RUNNING OCR model, starts it with
    the requested resolution and, on success, tags it.
   */
  function SwitchOcrResolution(m: Manager, resolution: OcrResolution, now: Time,
                               halt: Halt, launch: Launch): (o: Outcome)
    ensures OcrModel !in m.models ==> o == Outcome(m, false)
    ensures OcrModel in m.models && m.models[OcrModel].currentResolution == Some(resolution) ==>
      o == Outcome(m, true)
  {
    if OcrModel !in m.models then Outcome(m, false)
    else if m.models[OcrModel].currentResolution == Some(resolution) then Outcome(m, true)
    else
      var m1 := if m.models[OcrModel].status == Running then StopModel(m, OcrModel, now, halt).manager else m;
      var started := StartModel(m1, OcrModel, Some(resolution), now, launch);
      if started.ok then
        var ocr := started.manager.models[OcrModel];
        Outcome(started.manager.(models := started.manager.models[OcrModel := ocr.(currentResolution := Some(resolution))]), true)
      else started
  }

  /**
    A resolution switch succeeds exactly when the relaunch is healthy; the OCR model
    then runs, is the current model and carries the requested tag.
   */
  lemma SwitchOcrResolutionSucceeds(m: Manager, resolution: OcrResolution, now: Time, halt: Halt, launch: Launch)
    requires OcrModel in m.models && m.models[OcrModel].currentResolution != Some(resolution)
    ensures var o := SwitchOcrResolution(m, resolution, now, halt, launch);
      && (o.ok <==> launch == Launched(true))
      && o.manager.models[OcrModel].currentResolution == Some(resolution)
      && (o.ok ==> o.manager.models[OcrModel].status == Running && o.manager.current == Some(OcrModel))
      && (!o.ok ==> o.manager.models[OcrModel].status == Error)
  {
    var m1 := if m.models[OcrModel].status == Running then StopModel(m, OcrModel, now, halt).manager else m;
    assert OcrModel in m1.models && m1.models[OcrModel].status != Running;
  }

  // ---------------------------------------------------------------------
  // The current model
  // ---------------------------------------------------------------------

  /** `current_model` is unset or names a RUNNING model. */
  predicate CurrentRunning(m: Manager) {
    m.current.Some? ==> m.current.value in m.models && m.models[m.current.value].status == Running
  }

  lemma InitCurrentRunning(configs: map<string, ModelConfig>)
    requires ConfigsOk(configs)
    ensures CurrentRunning(Init(configs).value)
  {}

  lemma StartKeepsCurrentRunning(m: Manager, name: string, resolution: Option<OcrResolution>, now: Time,
                                 launch: Launch)
    requires CurrentRunning(m)
    ensures CurrentRunning(StartModel(m, name, resolution, now, launch).manager)
  {}

  lemma StopKeepsCurrentRunning(m: Manager, name: string, now: Time)
    requires CurrentRunning(m)
    ensures CurrentRunning(StopModel(m, name, now, HaltOk).manager)
  {}

  lemma SwitchKeepsCurrentRunning(m: Manager, target: string, resolution: Option<OcrResolution>, now: Time,
                                  launch: Launch)
    requires CurrentRunning(m)
    ensures CurrentRunning(SwitchModel(m, target, resolution, now, HaltOk, launch).manager)
  {
    if MustStopFirst(m, target) {
      StopKeepsCurrentRunning(m, m.current.value, now);
      StartKeepsCurrentRunning(StopModel(m, m.current.value, now, HaltOk).manager, target, resolution, now, launch);
    }
  }

  lemma SwitchOcrResolutionKeepsCurrentRunning(m: Manager, resolution: OcrResolution, now: Time, launch: Launch)
    requires CurrentRunning(m)
    ensures CurrentRunning(SwitchOcrResolution(m, resolution, now, HaltOk, launch).manager)
  {
    if OcrModel in m.models && m.models[OcrModel].currentResolution != Some(resolution) {
      var m1 := if m.models[OcrModel].status == Running then StopModel(m, OcrModel, now, HaltOk).manager else m;
      if m.models[OcrModel].status == Running {
        StopKeepsCurrentRunning(m, OcrModel, now);
      }
      StartKeepsCurrentRunning(m1, OcrModel, Some(resolution), now, launch);
    }
  }

  /** When stopping the current model raises, `current_model` names a model in ERROR. */
  lemma StopFailureBreaksCurrentRunning(m: Manager, name: string, now: Time)
    requires m.current == Some(name) && name in m.models && m.models[name].status == Running
    ensures !CurrentRunning(StopModel(m, name, now, HaltRaised).manager)
  {}

  /** Switching to a configured model that is not running loads it when the launch is healthy. */
  lemma SwitchLoadsStoppedTarget(m: Manager, target: string, resolution: Option<OcrResolution>, now: Time, halt: Halt)
    requires target in m.models && m.models[target].status != Running
    ensures var o := SwitchModel(m, target, resolution, now, halt, Launched(true));
      o.ok && o.manager.current == Some(target) && target in o.manager.models
      && o.manager.models[target].status == Running
  {
    if MustStopFirst(m, target) {
      var m1 := StopModel(m, m.current.value, now, halt).manager;
      assert target in m1.models && m1.models[target] == m.models[target];
    }
  }

  /**
    Switching to a model that already runs beside the current one succeeds without
    making it current: the current model is stopped and nothing is current after.
   */
  lemma SwitchToRunningTargetLeavesNoneCurrent(m: Manager, target: string, resolution: Option<OcrResolution>,
                                               now: Time, launch: Launch)
    requires CurrentRunning(m) && MustStopFirst(m, target)
    requires target in m.models && m.models[target].status == Running
    ensures var o := SwitchModel(m, target, resolution, now, HaltOk, launch);
      o.ok && o.manager.current == None
  {
    var m1 := StopModel(m, m.current.value, now, HaltOk).manager;
    assert m1.models[target] == m.models[target];
  }
}

=== FILE: pattern_analyzer.dfy ===
/**
  The usage-pattern analysis of app/monitoring/pattern_analyzer.py: per-model
  request counts over a window of days, the model to keep loaded, whether to switch
  to it, and the per-day breakdown. The request history is the list the store
  returns; the current time is a parameter.
 */
module PatternAnalyzer {
  import opened Wrappers
  import opened Tally
  import opened Listing
  import opened Store
  import opened Iso

  /** The newest requests the analysis reads from the history. */
  const HistoryLimit: nat := 10000
  /** The share of the window a recommendation needs before a switch, as a fraction. */
  const SwitchConfidence: real := 0.6

  /** The model names of `rs`, in order. */
  function Models(rs: seq<HistoryRecord>): (ms: seq<string>)
    ensures |ms| == |rs|
    ensures forall i :: 0 <= i < |rs| ==> ms[i] == rs[i].model
  {
    seq(|rs|, i requires 0 <= i < |rs| => rs[i].model)
  }

  /** The requests of `rs` created at or after `since`. */
  function Since(rs: seq<HistoryRecord>, since: Time): (w: seq<HistoryRecord>)
    ensures forall r :: r in w <==> r in rs && r.createdAt >= since
  {
    Filter(rs, CreatedSince(since))
  }

  /** How many requests of `rs` satisfy `p` and ask for `m`: the reference count. */
  function Occurrences(rs: seq<HistoryRecord>, p: HistoryRecord -> bool, m: string): nat
    decreases |rs|
  {
    if rs == [] then 0
    else Occurrences(rs[..|rs| - 1], p, m) + (if p(rs[|rs| - 1]) && rs[|rs| - 1].model == m then 1 else 0)
  }

  // ---------------------------------------------------------------------
  // analyze_patterns
  // ---------------------------------------------------------------------

  datatype Verdict =
    | Insufficient
    | Recommend(model: string, confidence: real)

  /**
    The analysis: the number of requests in the window, the per-model counts over
    the window and over the last day of it, and the verdict. `NoRequests` is the
    answer for an empty window.
   */
  datatype Analysis =
    | NoRequests
    | Analysis(total: nat, counts: Counter<string>, recent: Counter<string>, verdict: Verdict)

  /** The requests of the last `windowDays` days. */
  function Window(rs: seq<HistoryRecord>, now: Time, windowDays: int): seq<HistoryRecord> {
    Since(rs, now - windowDays * SecondsPerDay)
  }

  /**
    The verdict over the window's tally: the model with the most requests, the
    first counted on a tie, is recommended when it has at least `minRequests`,
    with its share of the window as confidence; an empty tally has no requests.
   */
  function Judge(counts: Counter<string>, recent: Counter<string>, minRequests: int): (a: Analysis)
    requires Wf(counts)
    ensures a.NoRequests? <==> counts.order == []
    ensures a.Analysis? ==> a.total == Total(counts) > 0 && a.counts == counts && a.recent == recent
    ensures a.Analysis? && a.verdict.Recommend? ==>
      var m := a.verdict.model;
      && m in counts.counts
      && counts.counts[m] >= minRequests
      && a.verdict.confidence == counts.counts[m] as real / a.total as real
    ensures a.Analysis? && a.verdict.Insufficient? ==> forall m :: m in counts.counts ==> counts.counts[m] < minRequests
  {
    TotalZero(counts);
    if Total(counts) == 0 then NoRequests
    else
      var i := FirstMax(counts.order, counts.counts);
      var best := counts.order[i];
      assert forall m :: m in counts.counts ==> counts.counts[m] <= counts.counts[best] by {
        assert forall j :: 0 <= j < |counts.order| ==> counts.counts[counts.order[j]] <= counts.counts[best];
      }
      if counts.counts[best] < minRequests then
        Analysis(Total(counts), counts, recent, Insufficient)
      else
        Analysis(Total(counts), counts, recent, Recommend(best, counts.counts[best] as real / Total(counts) as real))
  }

  /**
    `analyze_patterns` over the fetched history `rs`: requests created in the last
    `windowDays` days are counted per model, and those of the last 24 hours again
    separately, and the window's tally is judged.
   */
  function AnalyzePatterns(rs: seq<HistoryRecord>, now: Time, windowDays: int, minRequests: int): (a: Analysis)
    ensures a.NoRequests? <==> Window(rs, now, windowDays) == []
    ensures a.Analysis? ==> a.total == |Window(rs, now, windowDays)|
    ensures a.Analysis? && a.verdict.Recommend? ==>
      var m := a.verdict.model;
      && m in a.counts.counts && a.counts.counts[m] >= minRequests
      && a.verdict.confidence == a.counts.counts[m] as real / a.total as real
    ensures a.Analysis? ==> forall m ::
      && (m in a.counts.counts <==> Occurrences(rs, InWindow(now, windowDays), m) > 0)
      && (m in a.counts.counts ==> a.counts.counts[m] == Occurrences(rs, InWindow(now, windowDays), m))
    ensures a.Analysis? ==> forall m ::
      && (m in a.recent.counts <==> Occurrences(rs, InLastDay(now, windowDays), m) > 0)
      && (m in a.recent.counts ==> a.recent.counts[m] == Occurrences(rs, InLastDay(now, windowDays), m))
  {
    var window := Window(rs, now, windowDays);
    var counts := CountAll(Models(window));
    TotalIsLength(Models(window));
    TotalZero(counts);
    WindowTally(rs, now, windowDays);
    RecentTally(rs, now, windowDays);
    Judge(counts, CountAll(Models(Since(window, now - SecondsPerDay))), minRequests)
  }

  /** The window's tally counts, per model, the requests of the window. */
  lemma WindowTally(rs: seq<HistoryRecord>, now: Time, windowDays: int)
    ensures var c := CountAll(Models(Window(rs, now, windowDays)));
      forall m ::
        && (m in c.counts <==> Occurrences(rs, InWindow(now, windowDays), m) > 0)
        && (m in c.counts ==> c.counts[m] == Occurrences(rs, InWindow(now, windowDays), m))
  {
    var w := InWindow(now, windowDays);
    var window := Window(rs, now, windowDays);
    assert window == Filter(rs, w);
    forall m: string ensures multiset(Models(window))[m] == Occurrences(rs, w, m) {
      ModelCount(rs, w, m);
    }
  }

  /** The tally of the window's last 24 hours counts, per model, the requests both in the window and in that day. */
  lemma RecentTally(rs: seq<HistoryRecord>, now: Time, windowDays: int)
    ensures var c := CountAll(Models(Since(Window(rs, now, windowDays), now - SecondsPerDay)));
      forall m ::
        && (m in c.counts <==> Occurrences(rs, InLastDay(now, windowDays), m) > 0)
        && (m in c.counts ==> c.counts[m] == Occurrences(rs, InLastDay(now, windowDays), m))
  {
    var w := InWindow(now, windowDays);
    var rp := CreatedSince(now - SecondsPerDay);
    var window := Window(rs, now, windowDays);
    assert window == Filter(rs, w);
    var recent := Filter(window, rp);
    forall m: string ensures multiset(Models(recent))[m] == Occurrences(rs, InLastDay(now, windowDays), m) {
      ModelCount(window, rp, m);
      OccurrencesOfFilter(rs, w, rp, InLastDay(now, windowDays), m);
    }
  }

  /** The analysis finds no requests exactly when none of the fetched history falls in the window. */
  lemma NoRequestsIffWindowEmpty(rs: seq<HistoryRecord>, now: Time, windowDays: int, minRequests: int)
    ensures AnalyzePatterns(rs, now, windowDays, minRequests).NoRequests?
            <==> forall i :: 0 <= i < |rs| ==> rs[i].createdAt < now - windowDays * SecondsPerDay
  {
    var window := Window(rs, now, windowDays);
    var c := CountAll(Models(window));
    if window != [] {
      assert Models(window)[0] in c.counts;
      var r := window[0];
      assert r in rs;
    } else {
      assert forall i :: 0 <= i < |rs| ==> rs[i] !in window;
    }
  }

  /**
    `analyze_patterns` as it reads the store: over the newest `HistoryLimit` records
    of the history. It never counts more than that many requests, and while the
    history holds no more, it finds requests exactly when one lies in the window.
   */
  function AnalyzeStore(db: Database, now: Time, windowDays: int, minRequests: int): (a: Analysis)
    ensures a.Analysis? ==> a.total <= HistoryLimit
    ensures |db.history| <= HistoryLimit ==>
      (a.NoRequests? <==> forall r :: r in db.history ==> r.createdAt < now - windowDays * SecondsPerDay)
  {
    var rs := GetRequestHistory(db, None, None, HistoryLimit);
    assert |Window(rs, now, windowDays)| <= |rs|;
    UnfilteredHistoryComplete(db);
    AnalyzePatterns(rs, now, windowDays, minRequests)
  }

  /** With no filter and at most `HistoryLimit` records, the history listing holds them all. */
  lemma UnfilteredHistoryComplete(db: Database)
    ensures |db.history| <= HistoryLimit ==>
      forall r :: r in db.history ==> r in GetRequestHistory(db, None, None, HistoryLimit)
  {
    assert |Filter(db.history, HistoryTest(None, None))| <= |db.history|;
  }

  /** The model counts of a filtered list agree with the reference count. */
  lemma {:induction false} ModelCount(rs: seq<HistoryRecord>, p: HistoryRecord -> bool, m: string)
    ensures multiset(Models(Filter(rs, p)))[m] == Occurrences(rs, p, m)
    decreases |rs|
  {
    if rs != [] {
      var init := rs[..|rs| - 1];
      var last := rs[|rs| - 1];
      ModelCount(init, p, m);
      var f := Filter(init, p);
      if p(last) {
        assert Models(f + [last]) == Models(f) + [last.model];
      }
    }
  }

  /** Counting the `q` part of the `p` part counts the part satisfying both. */
  lemma {:induction false} OccurrencesOfFilter(rs: seq<HistoryRecord>, p: HistoryRecord -> bool, q: HistoryRecord -> bool,
                                               pq: HistoryRecord -> bool, m: string)
    requires forall r :: pq(r) == (p(r) && q(r))
    ensures Occurrences(Filter(rs, p), q, m) == Occurrences(rs, pq, m)
    decreases |rs|
  {
    if rs != [] {
      OccurrencesOfFilter(rs[..|rs| - 1], p, q, pq, m);
    }
  }

  /** A weaker test counts at least as many. */
  lemma {:induction false} OccurrencesMonotone(rs: seq<HistoryRecord>, p: HistoryRecord -> bool, q: HistoryRecord -> bool, m: string)
    requires forall r :: p(r) ==> q(r)
    ensures Occurrences(rs, p, m) <= Occurrences(rs, q, m)
    decreases |rs|
  {
    if rs != [] {
      OccurrencesMonotone(rs[..|rs| - 1], p, q, m);
    }
  }

  /** In the window? */
  function InWindow(now: Time, windowDays: int): HistoryRecord -> bool {
    CreatedSince(now - windowDays * SecondsPerDay)
  }

  /** In the window and created in the 24 hours before `now`: what the last-day tally counts. */
  function InLastDay(now: Time, windowDays: int): HistoryRecord -> bool {
    (r: HistoryRecord) => InWindow(now, windowDays)(r) && CreatedSince(now - SecondsPerDay)(r)
  }

  /**
    The counts of an analysis are exact: a model is counted iff it was asked for in
    the window, its count is the number of such requests, the same holds for the
    last-day count over the requests of the window's last 24 hours, which therefore
    never exceeds the window count, and the total is the size of the window.
   */
  lemma AnalysisCountsRequests(rs: seq<HistoryRecord>, now: Time, windowDays: int, minRequests: int, m: string)
    requires AnalyzePatterns(rs, now, windowDays, minRequests).Analysis?
    ensures var a := AnalyzePatterns(rs, now, windowDays, minRequests);
      && a.total == |Window(rs, now, windowDays)|
      && (m in a.counts.counts <==> Occurrences(rs, InWindow(now, windowDays), m) > 0)
      && (m in a.counts.counts ==> a.counts.counts[m] == Occurrences(rs, InWindow(now, windowDays), m))
      && (m in a.recent.counts <==> Occurrences(rs, InLastDay(now, windowDays), m) > 0)
      && (m in a.recent.counts ==> a.recent.counts[m] == Occurrences(rs, InLastDay(now, windowDays), m))
      && (m in a.recent.counts ==> m in a.counts.counts && a.recent.counts[m] <= a.counts.counts[m])
  {
    var a := AnalyzePatterns(rs, now, windowDays, minRequests);
    var w := InWindow(now, windowDays);
    var window := Window(rs, now, windowDays);
    assert window == Filter(rs, w);
    var rp := CreatedSince(now - SecondsPerDay);
    var both := InLastDay(now, windowDays);
    var recent := Filter(window, rp);
    TotalIsLength(Models(window));
    ModelCount(rs, w, m);
    ModelCount(window, rp, m);
    OccurrencesOfFilter(rs, w, rp, both, m);
    OccurrencesMonotone(rs, both, w, m);
    assert a.recent == CountAll(Models(recent));
    assert m in a.counts.counts <==> m in Models(window);
    assert m in a.recent.counts <==> m in Models(recent);
  }

  /** The model `Judge` recommends is the first maximum of the tally. */
  lemma JudgePicksFirstMax(counts: Counter<string>, recent: Counter<string>, minRequests: int)
    requires Wf(counts)
    requires Judge(counts, recent, minRequests).Analysis? && Judge(counts, recent, minRequests).verdict.Recommend?
    ensures |counts.order| > 0
    ensures Judge(counts, recent, minRequests).verdict.model == counts.order[FirstMax(counts.order, counts.counts)]
  {}

  /** `Judge` over the tally of `ms`: its recommendation is the first most frequent name in `ms`. */
  lemma JudgeFirstMostUsed(ms: seq<string>, recent: Counter<string>, minRequests: int)
    requires Judge(CountAll(ms), recent, minRequests).Analysis? && Judge(CountAll(ms), recent, minRequests).verdict.Recommend?
    ensures var c := CountAll(ms); var m := Judge(c, recent, minRequests).verdict.model;
      && m in ms
      && forall m' :: m' in c.counts ==>
           (c.counts[m'] <= c.counts[m] && (c.counts[m'] == c.counts[m] && m' != m ==> FirstIndex(ms, m) < FirstIndex(ms, m')))
  {
    var c := CountAll(ms);
    FirstMaxOfTally(ms);
    var k := c.order[FirstMax(c.order, c.counts)];
    assert k in ms by {
      assert k in c.counts;
    }
    assert Judge(c, recent, minRequests).verdict.model == k by {
      JudgePicksFirstMax(c, recent, minRequests);
    }
  }

  /**
    The recommended model has the most requests in the window, and every other
    model with as many was first asked for later in the fetched history.
   */
  lemma RecommendationIsFirstMostUsed(rs: seq<HistoryRecord>, now: Time, windowDays: int, minRequests: int)
    requires var a := AnalyzePatterns(rs, now, windowDays, minRequests); a.Analysis? && a.verdict.Recommend?
    ensures var a := AnalyzePatterns(rs, now, windowDays, minRequests);
      var ms := Models(Window(rs, now, windowDays));
      var m := a.verdict.model;
      && m in ms
      && forall m' :: m' in a.counts.counts ==>
           (a.counts.counts[m'] <= a.counts.counts[m]
           && (a.counts.counts[m'] == a.counts.counts[m] && m' != m ==> FirstIndex(ms, m) < FirstIndex(ms, m')))
  {
    var window := Window(rs, now, windowDays);
    JudgeFirstMostUsed(Models(window), CountAll(Models(Since(window, now - SecondsPerDay))), minRequests);
  }

  // ---------------------------------------------------------------------
  // should_switch_model
  // ---------------------------------------------------------------------

  /**
    `should_switch_model`: the recommended model, unless there is none (or it is
    empty), it is the loaded one, or its confidence is below 0.6.
   */
  function ShouldSwitchModel(a: Analysis, current: Option<string>): (r: Option<string>)
    ensures r.Some? ==>
      && a.Analysis? && a.verdict.Recommend? && r.value == a.verdict.model
      && r.value != "" && current != r && a.verdict.confidence >= SwitchConfidence
    ensures r.None? ==>
      || a.NoRequests? || a.verdict.Insufficient? || a.verdict.model == ""
      || current == Some(a.verdict.model) || a.verdict.confidence < SwitchConfidence
  {
    if a.NoRequests? || a.verdict.Insufficient? || a.verdict.model == "" then None
    else if current == Some(a.verdict.model) then None
    else if a.verdict.confidence < SwitchConfidence then None
    else Some(a.verdict.model)
  }

  /**
    A switch is advised to `m` exactly when `m` is recommended, is not the loaded
    model, and has at least three fifths of the window's requests.
   */
  lemma ShouldSwitchExactly(rs: seq<HistoryRecord>, now: Time, windowDays: int, minRequests: int, current: Option<string>, m: string)
    ensures var a := AnalyzePatterns(rs, now, windowDays, minRequests);
      ShouldSwitchModel(a, current) == Some(m)
      <==> (&& a.Analysis? && a.verdict.Recommend? && a.verdict.model == m
            && m != "" && current != Some(m)
            && 5 * a.counts.counts[m] >= 3 * a.total)
  {
    ShouldSwitchIff(AnalyzePatterns(rs, now, windowDays, minRequests), current, m);
  }

  /** The switch rule on any analysis whose recommendation carries its share of the total. */
  lemma ShouldSwitchIff(a: Analysis, current: Option<string>, m: string)
    requires a.Analysis? && a.verdict.Recommend? ==>
      && a.total > 0 && a.verdict.model in a.counts.counts
      && a.verdict.confidence == a.counts.counts[a.verdict.model] as real / a.total as real
    ensures ShouldSwitchModel(a, current) == Some(m)
      <==> (&& a.Analysis? && a.verdict.Recommend? && a.verdict.model == m
            && m != "" && current != Some(m)
            && 5 * a.counts.counts[m] >= 3 * a.total)
  {
    if a.Analysis? && a.verdict.Recommend? {
      ConfidenceThreshold(a.counts.counts[a.verdict.model], a.total);
    }
  }

  /** `c / total >= 0.6` in exact arithmetic is `5 c >= 3 total`. */
  lemma ConfidenceThreshold(c: nat, total: nat)
    requires total > 0
    ensures c as real / total as real >= SwitchConfidence <==> 5 * c >= 3 * total
  {
    var t := total as real;
    var q := c as real / t;
    DivTimes(c as real, t);
    ScaleBy(q, SwitchConfidence, t);
    assert q < SwitchConfidence <==> c as real < 0.6 * t;
    assert c as real < 0.6 * t <==> 5 * c < 3 * total;
  }

  lemma DivTimes(x: real, t: real)
    requires t != 0.0
    ensures x / t * t == x
  {}

  /** Multiplying by a positive number keeps a strict order. */
  lemma ScaleBy(a: real, b: real, t: real)
    requires t > 0.0
    ensures a < b <==> a * t < b * t
  {
    if a < b {
      PositiveProduct(b - a, t);
      assert b * t - a * t == (b - a) * t;
    } else if b < a {
      PositiveProduct(a - b, t);
      assert a * t - b * t == (a - b) * t;
    }
  }

  lemma PositiveProduct(x: real, y: real)
    requires x > 0.0 && y > 0.0
    ensures x * y > 0.0
  {}

  /** A tally of one repeated name counts only that name. */
  lemma SoleNameTally(ms: seq<string>, m: string)
    requires forall j :: 0 <= j < |ms| ==> ms[j] == m
    ensures forall k :: k in CountAll(ms).counts ==> k == m
  {}

  /** With a single model in use, the loaded model is never replaced. */
  lemma NoSwitchAwayFromSoleModel(rs: seq<HistoryRecord>, now: Time, windowDays: int, minRequests: int, m: string)
    requires forall i :: 0 <= i < |rs| ==> rs[i].model == m
    ensures ShouldSwitchModel(AnalyzePatterns(rs, now, windowDays, minRequests), Some(m)) == None
  {
    var window := Window(rs, now, windowDays);
    var ms := Models(window);
    assert forall j :: 0 <= j < |window| ==> window[j] in rs;
    SoleNameTally(ms, m);
  }

  // ---------------------------------------------------------------------
  // get_usage_stats
  // ---------------------------------------------------------------------

  /** `created_at.date()`: the day number of a timestamp, counted from the epoch. */
  function Day(t: Time): int {
    t / SecondsPerDay
  }

  /** The test for records created on day `d`. */
  function OnDay(d: int): HistoryRecord -> bool {
    (r: HistoryRecord) => Day(r.createdAt) == d
  }

  function Days(rs: seq<HistoryRecord>): (ds: seq<int>)
    ensures |ds| == |rs|
    ensures forall i :: 0 <= i < |rs| ==> ds[i] == Day(rs[i].createdAt)
  {
    seq(|rs|, i requires 0 <= i < |rs| => Day(rs[i].createdAt))
  }

  /** The days on which the requests of `rs` fall. */
  function DistinctDays(rs: seq<HistoryRecord>): set<int> {
    set d | d in Days(rs)
  }

  /** The period, the days with requests in first-seen order, each day's per-model counts, and the number of days. */
  datatype UsageStats = UsageStats(periodDays: int, days: seq<int>, daily: map<int, Counter<string>>, totalDays: nat)

  /** `get_usage_stats`: per day, how many requests each model received in the last `days` days. */
  function GetUsageStats(rs: seq<HistoryRecord>, now: Time, days: int): (u: UsageStats)
    ensures u.periodDays == days
    ensures forall d :: d in u.daily <==> d in u.days
    ensures u.totalDays == |u.days| == |DistinctDays(Since(rs, now - days * SecondsPerDay))|
  {
    var window := Since(rs, now - days * SecondsPerDay);
    var order := CountAll(Days(window)).order;
    DistinctCardinality(order);
    assert (set x | x in order) == DistinctDays(window);
    UsageStats(days, order,
               map d | d in order :: CountAll(Models(Filter(window, OnDay(d)))),
               |order|)
  }

  /**
    A day is in the breakdown exactly when a request of the period falls on it,
    and its per-model counts add up to the requests of that day.
   */
  lemma UsageStatsDay(rs: seq<HistoryRecord>, now: Time, days: int, d: int)
    ensures var u := GetUsageStats(rs, now, days);
      var window := Since(rs, now - days * SecondsPerDay);
      && (d in u.daily <==> exists r :: r in window && Day(r.createdAt) == d)
      && (d in u.daily ==> Wf(u.daily[d]) && Total(u.daily[d]) == multiset(Days(window))[d])
  {
    var window := Since(rs, now - days * SecondsPerDay);
    var u := GetUsageStats(rs, now, days);
    assert d in u.daily <==> d in Days(window);
    DayListed(window, d);
    if d in u.daily {
      assert u.daily[d] == CountAll(Models(Filter(window, OnDay(d))));
      DayTotal(window, d);
    }
  }

  /**
    The per-model counts of a day are exact: a model is listed under day `d` iff a
    request of the period asked for it on that day, with the number of such requests.
   */
  lemma UsageStatsDayModel(rs: seq<HistoryRecord>, now: Time, days: int, d: int, m: string)
    ensures var u := GetUsageStats(rs, now, days);
      var window := Since(rs, now - days * SecondsPerDay);
      d in u.daily ==>
        && (m in u.daily[d].counts <==> Occurrences(window, OnDay(d), m) > 0)
        && (m in u.daily[d].counts ==> u.daily[d].counts[m] == Occurrences(window, OnDay(d), m))
  {
    var window := Since(rs, now - days * SecondsPerDay);
    var u := GetUsageStats(rs, now, days);
    if d in u.daily {
      assert u.daily[d] == CountAll(Models(Filter(window, OnDay(d))));
      DayTally(window, d, m);
    }
  }

  /** The tally of one day's models counts each model's requests on that day. */
  lemma DayTally(window: seq<HistoryRecord>, d: int, m: string)
    ensures var c := CountAll(Models(Filter(window, OnDay(d))));
      && (m in c.counts <==> Occurrences(window, OnDay(d), m) > 0)
      && (m in c.counts ==> c.counts[m] == Occurrences(window, OnDay(d), m))
  {
    ModelCount(window, OnDay(d), m);
  }

  /** The requests of a breakdown, summed day by day over `days`. */
  function DailySum(days: seq<int>, daily: map<int, Counter<string>>): nat
    requires forall d :: d in days ==> d in daily && Wf(daily[d])
    decreases |days|
  {
    if days == [] then 0
    else
      var init := days[..|days| - 1];
      var last := days[|days| - 1];
      assert last in days && forall d :: d in init ==> d in days;
      DailySum(init, daily) + Total(daily[last])
  }

  /** The daily counts of the breakdown add up to the number of requests in the period. */
  lemma UsageStatsAddUp(rs: seq<HistoryRecord>, now: Time, days: int)
    ensures var u := GetUsageStats(rs, now, days);
      && (forall d :: d in u.days ==> d in u.daily && Wf(u.daily[d]))
      && DailySum(u.days, u.daily) == |Since(rs, now - days * SecondsPerDay)|
  {
    var window := Since(rs, now - days * SecondsPerDay);
    var u := GetUsageStats(rs, now, days);
    var c := CountAll(Days(window));
    assert u.days == c.order;
    forall d | d in u.days
      ensures d in c.counts && Total(u.daily[d]) == c.counts[d]
    {
      assert u.daily[d] == CountAll(Models(Filter(window, OnDay(d))));
      DayTotal(window, d);
    }
    DailySumIsSumOver(u.days, u.daily, c.counts);
    TotalIsLength(Days(window));
  }

  /** Summing the day totals is summing a count map that agrees with them. */
  lemma {:induction false} DailySumIsSumOver(ds: seq<int>, daily: map<int, Counter<string>>, cs: map<int, nat>)
    requires forall d :: d in ds ==> d in daily && Wf(daily[d]) && d in cs && Total(daily[d]) == cs[d]
    ensures DailySum(ds, daily) == SumOver(ds, cs)
    decreases |ds|
  {
    if ds != [] {
      var init := ds[..|ds| - 1];
      assert forall d :: d in init ==> d in ds;
      DailySumIsSumOver(init, daily, cs);
      assert ds[|ds| - 1] in ds;
    }
  }

  /** A day number occurs exactly when some request falls on that day. */
  lemma DayListed(window: seq<HistoryRecord>, d: int)
    ensures d in Days(window) <==> exists r :: r in window && Day(r.createdAt) == d
  {
    var ds := Days(window);
    if exists r :: r in window && Day(r.createdAt) == d {
      var r :| r in window && Day(r.createdAt) == d;
      var j :| 0 <= j < |window| && window[j] == r;
      assert ds[j] == d;
    }
    if d in ds {
      var j :| 0 <= j < |ds| && ds[j] == d;
      assert window[j] in window;
    }
  }

  /** The per-model counts of a day add up to the requests of that day. */
  lemma DayTotal(window: seq<HistoryRecord>, d: int)
    ensures Total(CountAll(Models(Filter(window, OnDay(d))))) == multiset(Days(window))[d]
  {
    TotalIsLength(Models(Filter(window, OnDay(d))));
    DayCount(window, d);
  }

  /** The records of a day number as many as the day's occurrences among the day numbers. */
  lemma {:induction false} DayCount(rs: seq<HistoryRecord>, d: int)
    ensures |Filter(rs, OnDay(d))| == multiset(Days(rs))[d]
    decreases |rs|
  {
    if rs != [] {
      var init := rs[..|rs| - 1];
      var last := rs[|rs| - 1];
      DayCount(init, d);
      var one := if Day(last.createdAt) == d then 1 else 0;
      var f := Filter(init, OnDay(d));
      assert Filter(rs, OnDay(d)) == if OnDay(d)(last) then f + [last] else f;
      DaysSnoc(rs, d);
    }
  }

  /** The occurrences of a day number grow by one exactly when the last request falls on it. */
  lemma DaysSnoc(rs: seq<HistoryRecord>, d: int)
    requires rs != []
    ensures multiset(Days(rs))[d]
            == multiset(Days(rs[..|rs| - 1]))[d] + (if Day(rs[|rs| - 1].createdAt) == d then 1 else 0)
  {
    var init := rs[..|rs| - 1];
    assert Days(rs) == Days(init) + [Day(rs[|rs| - 1].createdAt)];
  }
}

=== FILE: priority_order.dfy ===
/**
  The waiting list's ordering (`_insert_by_priority` in app/models/queue.py):
  HIGH before NORMAL before LOW, first come first served within a class.
 */
module PriorityOrder {
  import opened QueuedRequests

  /** `priority_order`: HIGH 0, NORMAL 1, LOW 2; smaller goes first. */
  function Rank(p: Priority): nat {
    match p
    case High => 0
    case Normal => 1
    case Low => 2
  }

  /** The waiting list is ordered HIGH < NORMAL < LOW. */
  predicate SortedByPriority(w: seq<Request>) {
    forall i, j :: 0 <= i < j < |w| ==> Rank(w[i].priority) <= Rank(w[j].priority)
  }

  /**
    Inserts `x` in front of the first element of strictly lower priority, or appends
    it when there is none: the scan-then-insert loop of `_insert_by_priority`.
   */
  function InsertByPriority(w: seq<Request>, x: Request): (r: seq<Request>)
    ensures multiset(r) == multiset(w) + multiset{x}
    ensures |r| == |w| + 1
    decreases |w|
  {
    if |w| == 0 then [x]
    else if Rank(x.priority) < Rank(w[0].priority) then [x] + w
    else
      var rest := InsertByPriority(w[1..], x);
      assert w == [w[0]] + w[1..];
      [w[0]] + rest
  }

  /**
    The index the scan stops at: every element before it has equal or higher
    priority than `x`, and the element at it (if any) strictly lower priority.
   */
  function InsertionIndex(w: seq<Request>, x: Request): (k: nat)
    ensures k <= |w|
    ensures forall j :: 0 <= j < k ==> Rank(w[j].priority) <= Rank(x.priority)
    ensures k < |w| ==> Rank(x.priority) < Rank(w[k].priority)
    decreases |w|
  {
    if |w| == 0 || Rank(x.priority) < Rank(w[0].priority) then 0
    else
      var k' := InsertionIndex(w[1..], x);
      assert forall j :: 1 <= j < k' + 1 ==> w[j] == w[1..][j - 1];
      k' + 1
  }

  /** `x` sits at index `k` of `r`, which is `w` with `x` spliced in there. */
  predicate SplicedAt(w: seq<Request>, x: Request, r: seq<Request>, k: nat) {
    && k < |r| == |w| + 1
    && r[k] == x
    && (forall j :: 0 <= j < k ==> r[j] == w[j])
    && (forall j :: k < j < |r| ==> r[j] == w[j - 1])
  }

  /** The new request lands exactly at the index the scan stops at; nothing else moves. */
  lemma {:induction false} InsertByPriorityPlacement(w: seq<Request>, x: Request)
    ensures SplicedAt(w, x, InsertByPriority(w, x), InsertionIndex(w, x))
    decreases |w|
  {
    if |w| == 0 {
      assert InsertByPriority(w, x) == [x];
    } else if Rank(x.priority) < Rank(w[0].priority) {
      assert InsertionIndex(w, x) == 0;
      SplicedAtFront(w, x);
    } else {
      InsertByPriorityPlacement(w[1..], x);
      SplicedAfterHead(w, x, InsertByPriority(w[1..], x), InsertionIndex(w[1..], x));
    }
  }

  lemma SplicedAtFront(w: seq<Request>, x: Request)
    ensures SplicedAt(w, x, [x] + w, 0)
  {}

  /** Splicing into the tail is splicing one place further into the whole list. */
  lemma SplicedAfterHead(w: seq<Request>, x: Request, rest: seq<Request>, k: nat)
    requires |w| > 0 && SplicedAt(w[1..], x, rest, k)
    ensures SplicedAt(w, x, [w[0]] + rest, k + 1)
  {
    var r := [w[0]] + rest;
    forall j | 0 < j < k + 1
      ensures r[j] == w[j]
    {
      assert r[j] == rest[j - 1] == w[1..][j - 1];
    }
    forall j | k + 1 < j < |r|
      ensures r[j] == w[j - 1]
    {
      assert r[j] == rest[j - 1] == w[1..][j - 2];
    }
  }

  /** Exactly the old requests plus the new one, by membership. */
  lemma InsertByPriorityMembers(w: seq<Request>, x: Request)
    ensures forall y :: y in InsertByPriority(w, x) <==> y in w || y == x
  {
    var r := InsertByPriority(w, x);
    forall y
      ensures y in r <==> y in w || y == x
    {
      assert y in r <==> y in multiset(r);
      assert y in w <==> y in multiset(w);
    }
  }

  /**
    Insertion keeps the list ordered, and it is first come first served within a
    class: the new request follows every request of equal or higher priority and
    precedes every request of lower priority.
   */
  lemma {:induction false} InsertByPriorityKeepsOrder(w: seq<Request>, x: Request)
    requires SortedByPriority(w)
    ensures SortedByPriority(InsertByPriority(w, x))
    decreases |w|
  {
    if |w| > 0 && Rank(x.priority) >= Rank(w[0].priority) {
      var rest := InsertByPriority(w[1..], x);
      InsertByPriorityKeepsOrder(w[1..], x);
      InsertByPriorityMembers(w[1..], x);
      var r := InsertByPriority(w, x);
      assert r == [w[0]] + rest;
      forall i, j | 0 <= i < j < |r|
        ensures Rank(r[i].priority) <= Rank(r[j].priority)
      {
        if i == 0 {
          assert r[j] == rest[j - 1] && rest[j - 1] in rest;
          if rest[j - 1] != x {
            var m :| 0 <= m < |w[1..]| && w[1..][m] == rest[j - 1];
            assert w[m + 1] == rest[j - 1];
          }
        } else {
          assert r[i] == rest[i - 1] && r[j] == rest[j - 1];
        }
      }
    }
  }

  /**
    First come first served within a class: in an ordered list the new request
    follows every request of equal or higher priority and precedes every request of
    lower priority.
   */
  lemma InsertByPriorityFifo(w: seq<Request>, x: Request) returns (k: nat)
    requires SortedByPriority(w)
    ensures k <= |w| && InsertByPriority(w, x)[k] == x
    ensures forall j :: 0 <= j < k ==> Rank(InsertByPriority(w, x)[j].priority) <= Rank(x.priority)
    ensures forall j :: k < j <= |w| ==> Rank(x.priority) < Rank(InsertByPriority(w, x)[j].priority)
  {
    k := InsertionIndex(w, x);
    InsertByPriorityPlacement(w, x);
    var r := InsertByPriority(w, x);
    forall j | k < j <= |w|
      ensures Rank(x.priority) < Rank(r[j].priority)
    {
      assert r[j] == w[j - 1];
    }
  }
}

=== FILE: queue_recovery.dfy ===
/**
  Crash recovery of the admission queue (`recover_from_crash` in app/models/queue.py):
  the pending documents of the model are read back from `queue_state`, interrupted
  requests are re-queued with one more retry counted, and those out of retries are
  marked FAILED.

  The cursor's documents are an input, in the order the driver yields them; each
  carries the `_id` key Mongo adds to every stored document.
 */
module QueueRecovery {
  import opened Wrappers
  import opened QueuedRequests
  import opened PriorityOrder
  import opened RequestQueue

  /** The recovery query: this model's documents whose status is QUEUED or PROCESSING. */
  predicate Pending(d: Doc, model: string) {
    && d.modelName == Some(FStr(model))
    && (d.status == Some(FStr(StatusName(Queued))) || d.status == Some(FStr(StatusName(Processing))))
  }

  /** The document without Mongo's `_id`. */
  function StripMongoId(d: Doc): Doc {
    d.(extra := d.extra - {MongoId})
  }

  /**
    Decoding of one fetched document. As written (`stripId == false`) the document is
    handed to `from_dict` unchanged, `_id` included; the corrected decoding drops
    `_id` first.
   */
  function Decode(d: Doc, stripId: bool): Option<Request> {
    if stripId then FromDict(StripMongoId(d)) else FromDict(d)
  }

  /** A request that was PROCESSING at the crash goes back to QUEUED, unstarted, with one more retry. */
  function Reset(r: Request): (r': Request)
    ensures r'.status == (if r.status == Processing then Queued else r.status)
    ensures r.status == Processing ==> r'.startedAt == None && r'.retryCount == r.retryCount + 1
    ensures r.status != Processing ==> r' == r
    ensures r'.id == r.id && r'.priority == r.priority && r'.createdAt == r.createdAt
    ensures r'.maxRetries == r.maxRetries && r'.payload == r.payload
  {
    if r.status == Processing then r.(status := Queued, startedAt := None, retryCount := r.retryCount + 1)
    else r
  }

  /** What recovery does with one document. */
  datatype Outcome = Skipped | Readmit(request: Request) | GiveUp(request: Request)

  /**
    Documents outside the query, or that fail to decode (the exception is logged and
    swallowed), are skipped; a decoded request still below `max_retries` after the
    reset is re-admitted, any other is given up as FAILED.
   */
  function OutcomeOf(d: Doc, model: string, stripId: bool): (o: Outcome)
    ensures o.Readmit? ==> o.request.status == Queued && o.request.retryCount < o.request.maxRetries
    ensures o.Readmit? ==> o.request.model == model
    ensures o.GiveUp? ==> o.request.status == Failed && o.request.retryCount >= o.request.maxRetries
    ensures o.Skipped? <==> !Pending(d, model) || Decode(d, stripId).None?
    ensures !o.Skipped? ==>
      var r := Decode(d, stripId).value;
      && o.request.id == r.id && o.request.priority == r.priority && o.request.createdAt == r.createdAt
      && o.request.payload == r.payload && o.request.maxRetries == r.maxRetries
      && o.request.retryCount == r.retryCount + (if r.status == Processing then 1 else 0)
      && (o.Readmit? <==> o.request.retryCount < r.maxRetries)
      && (o.Readmit? ==> o.request == Reset(r))
      && (o.GiveUp? ==> o.request == Reset(r).(status := Failed))
  {
    if !Pending(d, model) then Skipped
    else match Decode(d, stripId)
      case None => Skipped
      case Some(r) =>
        DecodedPendingIsQueuedOrProcessing(d, model, stripId);
        var r' := Reset(r);
        if r'.retryCount < r'.maxRetries then Readmit(r')
        else GiveUp(r'.(status := Failed))
  }

  /** A pending document decodes to a request of the model whose status is QUEUED or PROCESSING. */
  lemma DecodedPendingIsQueuedOrProcessing(d: Doc, model: string, stripId: bool)
    requires Pending(d, model) && Decode(d, stripId).Some?
    ensures Decode(d, stripId).value.status in {Queued, Processing}
    ensures Decode(d, stripId).value.model == model
  {
    var d' := if stripId then StripMongoId(d) else d;
    assert d'.status == d.status && d'.modelName == d.modelName;
  }

  /** One iteration of the recovery loop. */
  function RecoverOne(q: Queue, d: Doc, stripId: bool): (q': Queue)
    ensures q'.(waiting := q.waiting, store := q.store) == q
    ensures OutcomeOf(d, q.model, stripId).Skipped? ==> q' == q
    ensures OutcomeOf(d, q.model, stripId).Readmit? ==>
      q'.waiting == InsertByPriority(q.waiting, OutcomeOf(d, q.model, stripId).request) && q'.store == q.store
    ensures OutcomeOf(d, q.model, stripId).GiveUp? ==>
      q'.waiting == q.waiting && q'.store == Persist(q.store, OutcomeOf(d, q.model, stripId).request)
  {
    match OutcomeOf(d, q.model, stripId)
    case Skipped => q
    case Readmit(r) => q.(waiting := InsertByPriority(q.waiting, r))
    case GiveUp(r) => q.(store := Persist(q.store, r))
  }

  /** The whole loop over the cursor, in cursor order. */
  function RecoverWith(q: Queue, cursor: seq<Doc>, stripId: bool): (q': Queue)
    ensures q'.(waiting := q.waiting, store := q.store) == q
    decreases |cursor|
  {
    if cursor == [] then q
    else RecoverOne(RecoverWith(q, cursor[..|cursor| - 1], stripId), cursor[|cursor| - 1], stripId)
  }

  /**
    `recover_from_crash` as written: `_id` is passed on to `from_dict`, so a cursor of
    documents the driver returned (every one carrying `_id`) leaves the queue as it was.
   */
  function RecoverFromCrashAsWritten(q: Queue, cursor: seq<Doc>): (q': Queue)
    ensures (forall i :: 0 <= i < |cursor| ==> MongoId in cursor[i].extra) ==> q' == q
  {
    if forall i :: 0 <= i < |cursor| ==> MongoId in cursor[i].extra then
      RecoverFromCrashAsWrittenIsNoOp(q, cursor);
      RecoverWith(q, cursor, false)
    else RecoverWith(q, cursor, false)
  }

  /**
    `recover_from_crash` with `_id` dropped before decoding: the waiting list gains
    exactly the re-admitted requests and stays in priority order, the collection
    receives exactly the given-up ones, and nothing else changes.
   */
  function RecoverFromCrash(q: Queue, cursor: seq<Doc>): (q': Queue)
    ensures multiset(q'.waiting) == multiset(q.waiting) + multiset(Readmitted(cursor, q.model, true))
    ensures SortedByPriority(q.waiting) ==> SortedByPriority(q'.waiting)
    ensures q'.store == PersistAll(q.store, GivenUp(cursor, q.model, true))
    ensures q'.(waiting := q.waiting, store := q.store) == q
  {
    RecoverWaitingContents(q, cursor, true);
    RecoverStore(q, cursor, true);
    if SortedByPriority(q.waiting) then
      RecoverKeepsOrder(q, cursor, true);
      RecoverWith(q, cursor, true)
    else RecoverWith(q, cursor, true)
  }

  // ---------------------------------------------------------------------
  // Reference definitions: what the loop re-admits and what it gives up
  // ---------------------------------------------------------------------

  /** The requests the cursor's documents re-admit, in cursor order. */
  function Readmitted(cursor: seq<Doc>, model: string, stripId: bool): seq<Request>
    decreases |cursor|
  {
    if cursor == [] then []
    else
      var o := OutcomeOf(cursor[|cursor| - 1], model, stripId);
      Readmitted(cursor[..|cursor| - 1], model, stripId) + (if o.Readmit? then [o.request] else [])
  }

  /** The requests the cursor's documents give up, in cursor order. */
  function GivenUp(cursor: seq<Doc>, model: string, stripId: bool): seq<Request>
    decreases |cursor|
  {
    if cursor == [] then []
    else
      var o := OutcomeOf(cursor[|cursor| - 1], model, stripId);
      GivenUp(cursor[..|cursor| - 1], model, stripId) + (if o.GiveUp? then [o.request] else [])
  }

  /** Upserts of the given requests, in order. */
  function PersistAll(store: map<string, Doc>, rs: seq<Request>): map<string, Doc>
    decreases |rs|
  {
    if rs == [] then store else Persist(PersistAll(store, rs[..|rs| - 1]), rs[|rs| - 1])
  }

  /** Recovery adds exactly the re-admitted requests to the waiting list. */
  lemma {:induction false} RecoverWaitingContents(q: Queue, cursor: seq<Doc>, stripId: bool)
    ensures multiset(RecoverWith(q, cursor, stripId).waiting)
         == multiset(q.waiting) + multiset(Readmitted(cursor, q.model, stripId))
    decreases |cursor|
  {
    if cursor != [] {
      var init := cursor[..|cursor| - 1];
      RecoverWaitingContents(q, init, stripId);
    }
  }

  /** Recovery writes to the collection only the given-up requests, in cursor order. */
  lemma {:induction false} RecoverStore(q: Queue, cursor: seq<Doc>, stripId: bool)
    ensures RecoverWith(q, cursor, stripId).store == PersistAll(q.store, GivenUp(cursor, q.model, stripId))
    decreases |cursor|
  {
    if cursor != [] {
      var init := cursor[..|cursor| - 1];
      RecoverStore(q, init, stripId);
      var o := OutcomeOf(cursor[|cursor| - 1], q.model, stripId);
      var g := GivenUp(init, q.model, stripId);
      if o.GiveUp? {
        assert (g + [o.request])[..|g|] == g;
      } else {
        assert g + [] == g;
      }
    }
  }

  /** Recovery keeps the waiting list in priority order. */
  lemma {:induction false} RecoverKeepsOrder(q: Queue, cursor: seq<Doc>, stripId: bool)
    requires SortedByPriority(q.waiting)
    ensures SortedByPriority(RecoverWith(q, cursor, stripId).waiting)
    decreases |cursor|
  {
    if cursor != [] {
      var init := cursor[..|cursor| - 1];
      var q1 := RecoverWith(q, init, stripId);
      RecoverKeepsOrder(q, init, stripId);
      var o := OutcomeOf(cursor[|cursor| - 1], q1.model, stripId);
      if o.Readmit? {
        InsertByPriorityKeepsOrder(q1.waiting, o.request);
      }
    }
  }

  predicate AllQueued(w: seq<Request>) {
    forall i :: 0 <= i < |w| ==> w[i].status == Queued
  }

  /** Everything in the waiting list after recovery is QUEUED, when it was before. */
  lemma {:induction false} RecoverWaitingAllQueued(q: Queue, cursor: seq<Doc>, stripId: bool)
    requires AllQueued(q.waiting)
    ensures AllQueued(RecoverWith(q, cursor, stripId).waiting)
    decreases |cursor|
  {
    if cursor != [] {
      var init := cursor[..|cursor| - 1];
      var q1 := RecoverWith(q, init, stripId);
      RecoverWaitingAllQueued(q, init, stripId);
      var o := OutcomeOf(cursor[|cursor| - 1], q1.model, stripId);
      if o.Readmit? {
        var w := InsertByPriority(q1.waiting, o.request);
        assert RecoverWith(q, cursor, stripId).waiting == w;
        InsertByPriorityMembers(q1.waiting, o.request);
        forall i | 0 <= i < |w|
          ensures w[i].status == Queued
        {
          assert w[i] in w;
          if w[i] != o.request {
            assert w[i] in q1.waiting;
            var j :| 0 <= j < |q1.waiting| && q1.waiting[j] == w[i];
          } else {
            assert o.request.status == Queued;
          }
        }
      }
    }
  }

  // ---------------------------------------------------------------------
  // The `_id` defect
  // ---------------------------------------------------------------------

  /**
    As written, recovery re-admits nothing and gives up nothing: every document the
    driver returns carries `_id`, which `from_dict` passes to the dataclass
    constructor as an unexpected keyword.
   */
  lemma {:induction false} RecoverFromCrashAsWrittenIsNoOp(q: Queue, cursor: seq<Doc>)
    requires forall i :: 0 <= i < |cursor| ==> MongoId in cursor[i].extra
    ensures RecoverWith(q, cursor, false) == q
    decreases |cursor|
  {
    if cursor != [] {
      var init := cursor[..|cursor| - 1];
      RecoverFromCrashAsWrittenIsNoOp(q, init);
      FromDictRejectsMongoId(cursor[|cursor| - 1]);
    }
  }

  /** The document of `r` as the driver returns it, `_id` added. */
  function Fetched(r: Request, oid: Field): Doc {
    ToDict(r).(extra := map[MongoId := oid])
  }

  /**
    A request that was processing at the crash, fetched back with its `_id`: the
    corrected recovery re-queues it in priority order with one more retry and its
    priority and creation time kept; the recovery as written leaves the queue as it was.
   */
  lemma InterruptedRequestIsReadmitted(q: Queue, r: Request, oid: Field)
    requires r.model == q.model && r.status == Processing && r.retryCount + 1 < r.maxRetries
    ensures var again := r.(status := Queued, startedAt := None, retryCount := r.retryCount + 1);
      && RecoverFromCrash(q, [Fetched(r, oid)]).waiting == InsertByPriority(q.waiting, again)
      && RecoverFromCrash(q, [Fetched(r, oid)]).store == q.store
      && again.priority == r.priority && again.createdAt == r.createdAt
    ensures RecoverFromCrashAsWritten(q, [Fetched(r, oid)]) == q
  {
    var d := Fetched(r, oid);
    var again := r.(status := Queued, startedAt := None, retryCount := r.retryCount + 1);
    assert StripMongoId(d).extra == map[];
    assert StripMongoId(d) == ToDict(r);
    FromDictToDict(r);
    assert Pending(d, q.model);
    assert Decode(d, true) == Some(r);
    assert OutcomeOf(d, q.model, true) == Readmit(again);
    assert [d][..0] == [];
    assert RecoverWith(q, [d][..0], true) == q;
    assert RecoverWith(q, [d], true) == RecoverOne(q, d, true);
    RecoverFromCrashAsWrittenIsNoOp(q, [d]);
  }

  // ---------------------------------------------------------------------
  // From the collection back to the queue
  // ---------------------------------------------------------------------

  /** A stored document as the driver returns it: `_id` added. */
  function WithMongoId(d: Doc, oid: Field): Doc {
    d.(extra := d.extra[MongoId := oid])
  }

  /** The cursor over the collection's documents under `keys`, in that order, each with its `_id`. */
  function Fetch(store: map<string, Doc>, keys: seq<string>, oids: seq<Field>): (c: seq<Doc>)
    requires |keys| == |oids| && forall i :: 0 <= i < |keys| ==> keys[i] in store
    ensures |c| == |keys|
  {
    seq(|keys|, i requires 0 <= i < |keys| => WithMongoId(store[keys[i]], oids[i]))
  }

  /** The documents under `keys` are those `_persist_request` wrote for `rs`, key by key. */
  predicate StoredAs(store: map<string, Doc>, keys: seq<string>, rs: seq<Request>) {
    && |keys| == |rs|
    && forall i :: 0 <= i < |keys| ==> keys[i] in store && store[keys[i]] == ToDict(rs[i])
  }

  /** A request recovery picks up: of the model, and QUEUED or PROCESSING. */
  predicate PendingFor(r: Request, model: string) {
    r.model == model && (r.status == Queued || r.status == Processing)
  }

  /** Reference definition: the pending requests still below `max_retries` after the reset, reset, in order. */
  function Revived(rs: seq<Request>, model: string): (out: seq<Request>)
    ensures forall i :: 0 <= i < |out| ==> out[i].status == Queued && out[i].retryCount < out[i].maxRetries
    decreases |rs|
  {
    if rs == [] then []
    else
      var r := rs[|rs| - 1];
      Revived(rs[..|rs| - 1], model)
        + (if PendingFor(r, model) && Reset(r).retryCount < r.maxRetries then [Reset(r)] else [])
  }

  /** The outcome of one persisted request, fetched back with its `_id`. */
  lemma FetchedOutcome(r: Request, oid: Field, model: string)
    ensures OutcomeOf(Fetched(r, oid), model, true)
         == if !PendingFor(r, model) then Skipped
            else if Reset(r).retryCount < r.maxRetries then Readmit(Reset(r))
            else GiveUp(Reset(r).(status := Failed))
    ensures OutcomeOf(Fetched(r, oid), model, false) == Skipped
  {
    var d := Fetched(r, oid);
    assert StripMongoId(d) == ToDict(r);
    FromDictToDict(r);
    FromDictRejectsMongoId(d);
    assert Pending(d, model) <==> PendingFor(r, model) by {
      StatusNameRoundTrip(r.status);
      StatusNameRoundTrip(Queued);
      StatusNameRoundTrip(Processing);
    }
  }

  /** Each fetched document is a stored request's document with its `_id`. */
  lemma FetchedRequests(store: map<string, Doc>, keys: seq<string>, oids: seq<Field>, rs: seq<Request>, i: nat)
    requires StoredAs(store, keys, rs) && |oids| == |keys| && i < |keys|
    ensures Fetch(store, keys, oids)[i] == Fetched(rs[i], oids[i])
  {
    assert store[keys[i]] == ToDict(rs[i]);
    assert ToDict(rs[i]).extra == map[];
  }

  /** Over a cursor of fetched documents, the re-admitted requests are the revived stored ones. */
  lemma {:induction false} ReadmittedFetched(store: map<string, Doc>, keys: seq<string>, oids: seq<Field>,
                                             rs: seq<Request>, model: string)
    requires StoredAs(store, keys, rs) && |oids| == |keys|
    ensures Readmitted(Fetch(store, keys, oids), model, true) == Revived(rs, model)
    decreases |keys|
  {
    if keys != [] {
      var n := |keys| - 1;
      var c := Fetch(store, keys, oids);
      assert StoredAs(store, keys[..n], rs[..n]);
      ReadmittedFetched(store, keys[..n], oids[..n], rs[..n], model);
      assert c[..n] == Fetch(store, keys[..n], oids[..n]);
      FetchedRequests(store, keys, oids, rs, n);
      ReadmittedStep(c, rs, oids[n], model);
    }
  }

  /** One more fetched document extends both sides of the correspondence alike. */
  lemma ReadmittedStep(c: seq<Doc>, rs: seq<Request>, oid: Field, model: string)
    requires |c| == |rs| > 0
    requires Readmitted(c[..|c| - 1], model, true) == Revived(rs[..|rs| - 1], model)
    requires c[|c| - 1] == Fetched(rs[|rs| - 1], oid)
    ensures Readmitted(c, model, true) == Revived(rs, model)
  {
    FetchedOutcome(rs[|rs| - 1], oid, model);
  }

  /**
    What the queue persisted comes back: over the collection's documents under `keys`
    as the driver yields them, written for the requests `rs`, the corrected recovery
    adds to the waiting list exactly those of the model that were QUEUED or PROCESSING
    and are still below `max_retries` after the reset, reset; the recovery as written
    adds nothing.
   */
  lemma RecoveryRevivesPersistedRequests(q: Queue, keys: seq<string>, oids: seq<Field>, rs: seq<Request>)
    requires StoredAs(q.store, keys, rs) && |oids| == |keys|
    ensures multiset(RecoverFromCrash(q, Fetch(q.store, keys, oids)).waiting)
         == multiset(q.waiting) + multiset(Revived(rs, q.model))
    ensures RecoverFromCrashAsWritten(q, Fetch(q.store, keys, oids)) == q
  {
    var c := Fetch(q.store, keys, oids);
    ReadmittedFetched(q.store, keys, oids, rs, q.model);
    forall i | 0 <= i < |c|
      ensures MongoId in c[i].extra
    {
      FetchedRequests(q.store, keys, oids, rs, i);
    }
  }
}

=== FILE: queue_scenarios.dfy ===
/**
  Multi-step behaviour of the admission queue: the retry bound of a request that
  always fails, and the dispatch order of mixed priorities.
 */
module QueueScenarios {
  import opened Wrappers
  import opened QueuedRequests
  import opened PriorityOrder
  import opened RequestQueue
  import opened Iso

  /** One failure of request `id` followed by the next `dequeue`. */
  function FailAndRedispatch(q: Queue, id: string, error: string, now: Time): Queue {
    Dequeue(Fail(q, id, error, now), now).queue
  }

  function Step(id: string, error: string, now: Time): Queue -> Queue {
    q => FailAndRedispatch(q, id, error, now)
  }

  /** `f` applied `n` times. */
  function Iterate<S>(s: S, f: S -> S, n: nat): S
    decreases n
  {
    if n == 0 then s else f(Iterate(s, f, n - 1))
  }

  /** `n` such rounds. */
  function Rounds(q: Queue, id: string, error: string, now: Time, n: nat): Queue {
    Iterate(q, Step(id, error, now), n)
  }

  /** `id` is the only request in the queue, processing, after `k` failures, with retry budget `m`. */
  predicate Alone(q: Queue, id: string, k: int, m: int) {
    && q.waiting == []
    && q.processing.Keys == {id}
    && q.processing[id].id == id
    && q.processing[id].retryCount == k
    && q.processing[id].maxRetries == m
    && q.maxConcurrent >= 1
  }

  lemma FailAndRedispatchAlone(q: Queue, id: string, error: string, now: Time, k: int, m: int)
    requires Alone(q, id, k, m) && k + 1 < m
    ensures Alone(FailAndRedispatch(q, id, error, now), id, k + 1, m)
    ensures FailAndRedispatch(q, id, error, now).totalFailed == q.totalFailed
  {
    var r := q.processing[id];
    var f := Fail(q, id, error, now);
    assert f.processing == map[];
    assert f.waiting == [Retried(r, error)];
    var d := Dequeue(f, now);
    assert d.request == Some(Started(Retried(r, error), now));
    assert d.queue.processing == map[id := Started(Retried(r, error), now)];
  }

  lemma RoundsUnfold(q: Queue, id: string, error: string, now: Time, n: nat)
    requires n > 0
    ensures Rounds(q, id, error, now, n) == FailAndRedispatch(Rounds(q, id, error, now, n - 1), id, error, now)
  {
  }

  /** While retries remain, each round leaves the request alone and processing with one more failure counted. */
  lemma {:induction false} RoundsAloneFrom(q: Queue, id: string, error: string, now: Time, n: nat, k: int, m: int)
    requires Alone(q, id, k, m) && k + n < m
    ensures Alone(Rounds(q, id, error, now, n), id, k + n, m)
    ensures Rounds(q, id, error, now, n).totalFailed == q.totalFailed
    decreases n
  {
    if n > 0 {
      RoundsAloneFrom(q, id, error, now, n - 1, k, m);
      var p := Rounds(q, id, error, now, n - 1);
      RoundsUnfold(q, id, error, now, n);
      FailAndRedispatchAlone(p, id, error, now, k + n - 1, m);
    }
  }

  /**
    How a lone request's last failure leaves the queue: empty, with one more failure
    counted on top of `failedBefore`, and the request stored as FAILED with
    `retry_count == m`.
   */
  predicate GaveUpAlone(last: Queue, final: Queue, failedBefore: nat, id: string, error: string, now: Time, m: int) {
    && id in last.processing
    && final.processing == map[] && final.waiting == []
    && final.totalFailed == failedBefore + 1
    && id in final.store && final.store[id] == ToDict(GaveUp(last.processing[id], error, now))
    && GaveUp(last.processing[id], error, now).retryCount == m
    && GaveUp(last.processing[id], error, now).status == Failed
  }

  /**
    The retry bound: a request that fails every time it is dispatched is dispatched
    `max_retries` times in all (the first dispatch and `max_retries - 1` re-dispatches);
    its last failure makes it FAILED with `retry_count == max_retries`, removes it
    from the queue and adds one to `total_failed`.
   */
  lemma AlwaysFailingRequestIsDispatchedMaxRetriesTimes(q: Queue, id: string, error: string, now: Time, m: int)
    requires Alone(q, id, 0, m) && m >= 1
    ensures var last := Rounds(q, id, error, now, m - 1);
      && Alone(last, id, m - 1, m)
      && GaveUpAlone(last, Fail(last, id, error, now), q.totalFailed, id, error, now, m)
  {
    RetriesExhausted(q, id, error, now, m);
    LastFailure(Rounds(q, id, error, now, m - 1), q.totalFailed, id, error, now, m);
  }

  /** The first `m - 1` rounds leave the request alone with `m - 1` failures and nothing counted. */
  lemma RetriesExhausted(q: Queue, id: string, error: string, now: Time, m: int)
    requires Alone(q, id, 0, m) && m >= 1
    ensures Alone(Rounds(q, id, error, now, m - 1), id, m - 1, m)
    ensures Rounds(q, id, error, now, m - 1).totalFailed == q.totalFailed
  {
    RoundsAloneFrom(q, id, error, now, m - 1, 0, m);
  }

  /** The failure of a lone request on its last allowed attempt. */
  lemma LastFailure(last: Queue, failedBefore: nat, id: string, error: string, now: Time, m: int)
    requires Alone(last, id, m - 1, m) && last.totalFailed == failedBefore
    ensures GaveUpAlone(last, Fail(last, id, error, now), failedBefore, id, error, now, m)
  {
    assert Fail(last, id, error, now).processing.Keys == {};
  }

  /**
    Priority order across classes: LOW `a`, then HIGH `b`, then NORMAL `c` enqueued
    into an empty queue are dispatched `b`, `c`, `a`.
   */
  lemma HighThenNormalThenLow(model: string, store: map<string, Doc>, now: Time)
    ensures
      var q0 := Init(model, 3, 3, store);
      var q1 := Enqueue(q0, "a", "", "chat", "client", Low, 300, now);
      var q2 := Enqueue(q1.value, "b", "", "chat", "client", High, 300, now + 1);
      var q3 := Enqueue(q2.value, "c", "", "chat", "client", Normal, 300, now + 2);
      var d1 := Dequeue(q3.value, now + 3);
      var d2 := Dequeue(d1.queue, now + 3);
      var d3 := Dequeue(d2.queue, now + 3);
      && d1.request.Some? && d1.request.value.id == "b"
      && d2.request.Some? && d2.request.value.id == "c"
      && d3.request.Some? && d3.request.value.id == "a"
  {
    var q0 := Init(model, 3, 3, store);
    var a := NewRequest("a", model, "chat", "client", "", Low, 300, now);
    var b := NewRequest("b", model, "chat", "client", "", High, 300, now + 1);
    var c := NewRequest("c", model, "chat", "client", "", Normal, 300, now + 2);
    var q1 := Enqueue(q0, "a", "", "chat", "client", Low, 300, now);
    assert q1.value.waiting == [a];
    var q2 := Enqueue(q1.value, "b", "", "chat", "client", High, 300, now + 1);
    assert q2.value.waiting == [b, a];
    var q3 := Enqueue(q2.value, "c", "", "chat", "client", Normal, 300, now + 2);
    assert InsertByPriority([a], c) == [c, a];
    assert q3.value.waiting == [b, c, a];
  }
}

=== FILE: queued_request.dfy ===
/**
  One unit of queued work (`QueuedRequest` in app/models/queue.py) and its
  document form in the `queue_state` collection (`to_dict` / `from_dict`).
 */
module QueuedRequests {
  import opened Wrappers
  import opened Iso

  datatype Priority = Low | Normal | High

  datatype RequestStatus = Queued | Processing | Completed | Failed | TimedOut | Cancelled

  /** The string value of each `Priority` member. */
  function PriorityName(p: Priority): string {
    match p
    case Low => "low"
    case Normal => "normal"
    case High => "high"
  }

  /** `Priority(s)`: the member whose value is `s`, or the ValueError it raises. */
  function ParsePriority(s: string): (r: Option<Priority>)
    ensures r.Some? <==> s in {"low", "normal", "high"}
    ensures r.Some? ==> PriorityName(r.value) == s
  {
    if s == "low" then Some(Low)
    else if s == "normal" then Some(Normal)
    else if s == "high" then Some(High)
    else None
  }

  /** The string value of each `RequestStatus` member. */
  function StatusName(s: RequestStatus): string {
    match s
    case Queued => "queued"
    case Processing => "processing"
    case Completed => "completed"
    case Failed => "failed"
    case TimedOut => "timeout"
    case Cancelled => "cancelled"
  }

  /** `RequestStatus(s)`: the member whose value is `s`, or the ValueError it raises. */
  function ParseStatus(s: string): (r: Option<RequestStatus>)
    ensures r.Some? <==> s in {"queued", "processing", "completed", "failed", "timeout", "cancelled"}
    ensures r.Some? ==> StatusName(r.value) == s
  {
    if s == "queued" then Some(Queued)
    else if s == "processing" then Some(Processing)
    else if s == "completed" then Some(Completed)
    else if s == "failed" then Some(Failed)
    else if s == "timeout" then Some(TimedOut)
    else if s == "cancelled" then Some(Cancelled)
    else None
  }

  lemma PriorityNameRoundTrip(p: Priority)
    ensures ParsePriority(PriorityName(p)) == Some(p)
  {}

  lemma StatusNameRoundTrip(s: RequestStatus)
    ensures ParseStatus(StatusName(s)) == Some(s)
  {}

  /** The dataclass fields. The payload and result are opaque to the gateway. */
  datatype Request = Request(
    id: string,
    model: string,
    taskType: string,
    clientId: string,
    payload: string,
    priority: Priority,
    status: RequestStatus,
    createdAt: Time,
    startedAt: Option<Time>,
    completedAt: Option<Time>,
    timeoutSeconds: int,
    retryCount: int,
    maxRetries: int,
    error: Option<string>,
    result: Option<string>)

  const DefaultTimeoutSeconds: int := 300
  const DefaultRetryCount: int := 0
  const DefaultMaxRetries: int := 3

  /** A freshly submitted request: the dataclass defaults for every field the caller does not pass. */
  function NewRequest(id: string, model: string, taskType: string, clientId: string,
                      payload: string, priority: Priority, timeout: int, now: Time): (r: Request)
    ensures r.id == id && r.model == model && r.priority == priority
    ensures r.status == Queued && r.retryCount == 0 && r.maxRetries == 3
    ensures r.createdAt == now && r.startedAt == None && r.completedAt == None
    ensures r.timeoutSeconds == timeout && r.error == None && r.result == None
  {
    Request(id, model, taskType, clientId, payload, priority, Queued, now, None, None,
            timeout, DefaultRetryCount, DefaultMaxRetries, None, None)
  }

  /** `is_timeout`: only a started request can time out, strictly after its timeout elapses. */
  function IsTimeout(r: Request, now: Time): (b: bool)
    ensures b ==> r.startedAt.Some? && now > r.startedAt.value + r.timeoutSeconds
    ensures r.startedAt.Some? && now > r.startedAt.value + r.timeoutSeconds ==> b
  {
    match r.startedAt
    case None => false
    case Some(s) => now - s > r.timeoutSeconds
  }

  /** A started request is not timed out at its deadline, is one second later, and stays so. */
  lemma TimeoutIsStrictAndLasting(r: Request, now: Time, later: Time)
    requires r.startedAt.Some?
    ensures var deadline := r.startedAt.value + r.timeoutSeconds;
      !IsTimeout(r, deadline) && IsTimeout(r, deadline + 1)
    ensures IsTimeout(r, now) && now <= later ==> IsTimeout(r, later)
  {}

  // ---------------------------------------------------------------------
  // Document form
  // ---------------------------------------------------------------------

  /** A BSON field value as far as this model needs one. */
  datatype Field = FStr(s: string) | FInt(i: int) | FNull | FDate(t: Time)

  /**
    A stored document: each dataclass field's key, present (`Some`) or absent (`None`),
    and `extra`, the keys that are not dataclass fields (Mongo adds `_id`).
   */
  datatype Doc = Doc(
    requestId: Option<Field>,
    modelName: Option<Field>,
    taskType: Option<Field>,
    clientId: Option<Field>,
    payload: Option<Field>,
    priority: Option<Field>,
    status: Option<Field>,
    createdAt: Option<Field>,
    startedAt: Option<Field>,
    completedAt: Option<Field>,
    timeoutSeconds: Option<Field>,
    retryCount: Option<Field>,
    maxRetries: Option<Field>,
    error: Option<Field>,
    result: Option<Field>,
    extra: map<string, Field>)

  /** Mongo's own key, added to every stored document. */
  const MongoId: string := "_id"

  /** The keys `from_dict` indexes directly; absent, they raise KeyError. */
  predicate HasRequiredKeys(d: Doc) {
    && d.requestId.Some? && d.modelName.Some? && d.taskType.Some? && d.clientId.Some?
    && d.payload.Some? && d.priority.Some? && d.status.Some? && d.createdAt.Some?
    && d.startedAt.Some? && d.completedAt.Some?
  }

  function TimeField(t: Option<Time>): Field {
    match t
    case None => FNull
    case Some(v) => FStr(Iso.Format(v))
  }

  function TextField(t: Option<string>): Field {
    match t
    case None => FNull
    case Some(v) => FStr(v)
  }

  /** `to_dict`: every dataclass field, timestamps as text, enums as their string values. */
  function ToDict(r: Request): (d: Doc)
    ensures HasRequiredKeys(d) && d.extra == map[]
    ensures d.requestId == Some(FStr(r.id)) && d.modelName == Some(FStr(r.model))
    ensures d.status == Some(FStr(StatusName(r.status)))
    ensures d.completedAt == Some(TimeField(r.completedAt))
  {
    Doc(
      requestId := Some(FStr(r.id)),
      modelName := Some(FStr(r.model)),
      taskType := Some(FStr(r.taskType)),
      clientId := Some(FStr(r.clientId)),
      payload := Some(FStr(r.payload)),
      priority := Some(FStr(PriorityName(r.priority))),
      status := Some(FStr(StatusName(r.status))),
      createdAt := Some(FStr(Iso.Format(r.createdAt))),
      startedAt := Some(TimeField(r.startedAt)),
      completedAt := Some(TimeField(r.completedAt)),
      timeoutSeconds := Some(FInt(r.timeoutSeconds)),
      retryCount := Some(FInt(r.retryCount)),
      maxRetries := Some(FInt(r.maxRetries)),
      error := Some(TextField(r.error)),
      result := Some(TextField(r.result)),
      extra := map[])
  }

  /** Python truthiness of a field value, as the `if data['started_at']` test sees it. */
  predicate Falsy(f: Field) {
    f == FNull || f == FStr("") || f == FInt(0)
  }

  function TextOf(f: Field): Option<string> {
    if f.FStr? then Some(f.s) else None
  }

  function TimeOf(f: Field): Option<Time> {
    if f.FStr? then Iso.Parse(f.s) else None
  }

  /** `datetime.fromisoformat(x) if x else None`: the outer None is the exception. */
  function OptionalTimeOf(f: Field): Option<Option<Time>> {
    if Falsy(f) then Some(None)
    else match TimeOf(f)
      case None => None
      case Some(t) => Some(Some(t))
  }

  function PriorityOf(f: Field): Option<Priority> {
    if f.FStr? then ParsePriority(f.s) else None
  }

  function StatusOf(f: Field): Option<RequestStatus> {
    if f.FStr? then ParseStatus(f.s) else None
  }

  /** An optional integer keyword: its default when absent. */
  function IntOr(f: Option<Field>, default: int): Option<int> {
    match f
    case None => Some(default)
    case Some(v) => if v.FInt? then Some(v.i) else None
  }

  /** An optional text keyword (`error`, `result`): None when absent or null. */
  function OptionalTextOr(f: Option<Field>): Option<Option<string>> {
    match f
    case None => Some(None)
    case Some(v) => if v == FNull then Some(None) else if v.FStr? then Some(Some(v.s)) else None
  }

  /**
    Each field of a document that has the indexed keys converts: text where the
    request holds text, a parseable timestamp, a known enum value, an integer count.
   */
  predicate FieldsDecode(d: Doc)
    requires HasRequiredKeys(d)
  {
    && d.requestId.value.FStr? && d.modelName.value.FStr? && d.taskType.value.FStr?
    && d.clientId.value.FStr? && d.payload.value.FStr?
    && PriorityOf(d.priority.value).Some? && StatusOf(d.status.value).Some?
    && TimeOf(d.createdAt.value).Some?
    && OptionalTimeOf(d.startedAt.value).Some? && OptionalTimeOf(d.completedAt.value).Some?
    && IntOr(d.timeoutSeconds, DefaultTimeoutSeconds).Some?
    && IntOr(d.retryCount, DefaultRetryCount).Some?
    && IntOr(d.maxRetries, DefaultMaxRetries).Some?
    && OptionalTextOr(d.error).Some? && OptionalTextOr(d.result).Some?
  }

  /**
    `from_dict`: partial. It fails (the exception `recover_from_crash` catches) when a
    key the function indexes is missing, a timestamp or enum value does not parse, a
    field does not hold the type the request's field has, or the document holds a key
    the dataclass constructor does not accept.
   */
  function FromDict(d: Doc): (r: Option<Request>)
    ensures r.Some? <==> HasRequiredKeys(d) && d.extra == map[] && FieldsDecode(d)
    ensures r.Some? ==>
      && d.requestId == Some(FStr(r.value.id)) && d.modelName == Some(FStr(r.value.model))
      && d.taskType == Some(FStr(r.value.taskType)) && d.clientId == Some(FStr(r.value.clientId))
      && d.payload == Some(FStr(r.value.payload))
      && d.priority == Some(FStr(PriorityName(r.value.priority)))
      && d.status == Some(FStr(StatusName(r.value.status)))
    ensures r.Some? ==>
      && d.createdAt.value.FStr? && Iso.Parse(d.createdAt.value.s) == Some(r.value.createdAt)
      && (r.value.startedAt.None? <==> Falsy(d.startedAt.value))
      && (r.value.completedAt.None? <==> Falsy(d.completedAt.value))
      && (r.value.startedAt.Some? ==>
            d.startedAt.value.FStr? && Iso.Parse(d.startedAt.value.s) == r.value.startedAt)
      && (r.value.completedAt.Some? ==>
            d.completedAt.value.FStr? && Iso.Parse(d.completedAt.value.s) == r.value.completedAt)
    ensures r.Some? ==>
      && r.value.timeoutSeconds == (if d.timeoutSeconds.None? then DefaultTimeoutSeconds else d.timeoutSeconds.value.i)
      && r.value.retryCount == (if d.retryCount.None? then DefaultRetryCount else d.retryCount.value.i)
      && r.value.maxRetries == (if d.maxRetries.None? then DefaultMaxRetries else d.maxRetries.value.i)
      && (r.value.error.None? <==> d.error == None || d.error == Some(FNull))
      && (r.value.result.None? <==> d.result == None || d.result == Some(FNull))
      && (r.value.error.Some? ==> d.error == Some(FStr(r.value.error.value)))
      && (r.value.result.Some? ==> d.result == Some(FStr(r.value.result.value)))
  {
    if HasRequiredKeys(d) && d.extra == map[] && FieldsDecode(d) then Some(Decoded(d)) else None
  }

  /** The request a decodable document converts to; absent counts take their defaults. */
  function Decoded(d: Doc): Request
    requires HasRequiredKeys(d) && FieldsDecode(d)
  {
    Request(d.requestId.value.s, d.modelName.value.s, d.taskType.value.s, d.clientId.value.s,
            d.payload.value.s, PriorityOf(d.priority.value).value, StatusOf(d.status.value).value,
            TimeOf(d.createdAt.value).value,
            OptionalTimeOf(d.startedAt.value).value, OptionalTimeOf(d.completedAt.value).value,
            IntOr(d.timeoutSeconds, DefaultTimeoutSeconds).value,
            IntOr(d.retryCount, DefaultRetryCount).value,
            IntOr(d.maxRetries, DefaultMaxRetries).value,
            OptionalTextOr(d.error).value, OptionalTextOr(d.result).value)
  }

  lemma TimeFieldRoundTrip(t: Option<Time>)
    ensures OptionalTimeOf(TimeField(t)) == Some(t)
  {
    if t.Some? {
      Iso.ParseFormat(t.value);
      var s := Iso.Format(t.value);
      assert s != "" by { assert |s| > 0; }
    }
  }

  lemma TextFieldRoundTrip(t: Option<string>)
    ensures OptionalTextOr(Some(TextField(t))) == Some(t)
  {}

  /** `from_dict(to_dict(r)) == r`: timestamps and enum values survive their string forms. */
  lemma FromDictToDict(r: Request)
    ensures FromDict(ToDict(r)) == Some(r)
  {
    var d := ToDict(r);
    assert TimeOf(d.createdAt.value) == Some(r.createdAt) by {
      Iso.ParseFormat(r.createdAt);
    }
    assert OptionalTimeOf(d.startedAt.value) == Some(r.startedAt) by {
      TimeFieldRoundTrip(r.startedAt);
    }
    assert OptionalTimeOf(d.completedAt.value) == Some(r.completedAt) by {
      TimeFieldRoundTrip(r.completedAt);
    }
    assert PriorityOf(d.priority.value) == Some(r.priority) by {
      PriorityNameRoundTrip(r.priority);
    }
    assert StatusOf(d.status.value) == Some(r.status) by {
      StatusNameRoundTrip(r.status);
    }
    assert OptionalTextOr(d.error) == Some(r.error) by {
      TextFieldRoundTrip(r.error);
    }
    assert OptionalTextOr(d.result) == Some(r.result) by {
      TextFieldRoundTrip(r.result);
    }
  }

  /** A document carrying Mongo's `_id` never decodes: the constructor rejects the keyword. */
  lemma FromDictRejectsMongoId(d: Doc)
    requires MongoId in d.extra
    ensures FromDict(d) == None
  {}
}

=== FILE: request_queue.dfy ===
/**
  The per-model admission queue (`CrashProofQueue` in app/models/queue.py): an
  ordered waiting list, a map of requests being processed, three counters and the
  durable `queue_state` collection every transition writes through to.
 */
module RequestQueue {
  import opened Wrappers
  import opened QueuedRequests
  import opened PriorityOrder
  import opened Iso

  datatype Queue = Queue(
    model: string,
    maxConcurrent: int,
    maxWaiting: int,
    waiting: seq<Request>,
    processing: map<string, Request>,
    totalProcessed: nat,
    totalFailed: nat,
    totalTimeout: nat,
    /** The `queue_state` collection: the last document upserted per request id. */
    store: map<string, Doc>)

  /** `QueueFullError`. */
  datatype QueueFull = QueueFull(model: string)

  /** A freshly constructed queue over an existing collection. */
  function Init(model: string, maxConcurrent: int, maxWaiting: int, store: map<string, Doc>): (q: Queue)
    ensures q.model == model && q.maxConcurrent == maxConcurrent && q.maxWaiting == maxWaiting
    ensures q.waiting == [] && q.processing == map[] && q.store == store
    ensures q.totalProcessed == 0 && q.totalFailed == 0 && q.totalTimeout == 0
    ensures maxConcurrent >= 0 ==> Valid(q)
  {
    Queue(model, maxConcurrent, maxWaiting, [], map[], 0, 0, 0, store)
  }

  /**
    The collection holds only documents `_persist_request` wrote: each decodes, and
    encodes back to itself.
   */
  predicate Persisted(store: map<string, Doc>) {
    forall k :: k in store ==> FromDict(store[k]).Some? && ToDict(FromDict(store[k]).value) == store[k]
  }

  /** `_persist_request`: upsert of the request's document under its id. */
  function Persist(store: map<string, Doc>, r: Request): map<string, Doc> {
    store[r.id := ToDict(r)]
  }

  /**
    The document `_persist_request` stores decodes back to the request, no other
    document changes, and a collection of written documents stays one.
   */
  lemma PersistRoundTrip(store: map<string, Doc>, r: Request)
    ensures var s := Persist(store, r);
      && s.Keys == store.Keys + {r.id}
      && FromDict(s[r.id]) == Some(r)
      && (forall k :: k in store && k != r.id ==> s[k] == store[k])
      && (Persisted(store) ==> Persisted(s))
  {
    FromDictToDict(r);
  }

  // ---------------------------------------------------------------------
  // Well-formedness of the in-memory state
  // ---------------------------------------------------------------------

  predicate WaitingOk(q: Queue) {
    && SortedByPriority(q.waiting)
    && (forall i :: 0 <= i < |q.waiting| ==> q.waiting[i].status == Queued)
    && (forall i :: 0 <= i < |q.waiting| ==> q.waiting[i].id !in q.processing)
    && (forall i, j :: 0 <= i < j < |q.waiting| ==> q.waiting[i].id != q.waiting[j].id)
  }

  predicate ProcessingOk(q: Queue) {
    && |q.processing| <= q.maxConcurrent
    && (forall k :: k in q.processing ==> q.processing[k].id == k)
    && (forall k :: k in q.processing ==> q.processing[k].status == Processing)
    && (forall k :: k in q.processing ==> q.processing[k].startedAt.Some?)
  }

  /**
    The queue's invariant: waiting is ordered and holds QUEUED requests only,
    processing is bounded by `max_concurrent` and holds PROCESSING requests only,
    and no request id is in both or twice in waiting.
   */
  predicate Valid(q: Queue) {
    WaitingOk(q) && ProcessingOk(q)
  }

  predicate IdIsLive(q: Queue, id: string) {
    id in q.processing || exists i :: 0 <= i < |q.waiting| && q.waiting[i].id == id
  }

  // ---------------------------------------------------------------------
  // enqueue
  // ---------------------------------------------------------------------

  /**
    `enqueue`: refused with QueueFull exactly when the waiting list already holds
    `max_waiting` requests; otherwise the new QUEUED request joins the waiting list
    in priority order and is persisted. The request id (a fresh uuid4 in the source)
    and the clock are inputs.
   */
  function Enqueue(q: Queue, id: string, payload: string, taskType: string, clientId: string,
                   priority: Priority, timeout: int, now: Time): (res: Result<Queue, QueueFull>)
    ensures res.Failure? <==> |q.waiting| >= q.maxWaiting
    ensures res.Failure? ==> res.error == QueueFull(q.model)
    ensures res.Success? ==>
      var x := NewRequest(id, q.model, taskType, clientId, payload, priority, timeout, now);
      && multiset(res.value.waiting) == multiset(q.waiting) + multiset{x}
      && |res.value.waiting| == |q.waiting| + 1 <= q.maxWaiting
      && res.value.processing == q.processing
      && res.value.store == q.store[id := ToDict(x)]
      && res.value.(waiting := q.waiting, store := q.store) == q
  {
    if |q.waiting| >= q.maxWaiting then Failure(QueueFull(q.model))
    else
      var x := NewRequest(id, q.model, taskType, clientId, payload, priority, timeout, now);
      Success(q.(waiting := InsertByPriority(q.waiting, x), store := Persist(q.store, x)))
  }

  /** Insertion of a QUEUED request under a fresh id keeps the waiting list well formed. */
  lemma InsertKeepsWaitingOk(q: Queue, x: Request)
    requires WaitingOk(q) && x.status == Queued && !IdIsLive(q, x.id)
    ensures WaitingOk(q.(waiting := InsertByPriority(q.waiting, x)))
  {
    var w := q.waiting;
    var r := InsertByPriority(w, x);
    var k := InsertionIndex(w, x);
    InsertByPriorityKeepsOrder(w, x);
    InsertByPriorityPlacement(w, x);
    assert forall i :: 0 <= i < |w| ==> w[i].id != x.id;
    SplicedFrom(w, x, r, k);
    forall i | 0 <= i < |r|
      ensures r[i].status == Queued && r[i].id !in q.processing
    {
      if r[i] != x {
        assert r[i] == w[if i < k then i else i - 1];
      }
    }
    SplicedDistinct(w, x, r, k);
  }

  /** Every element of a splice is the new one or an old one. */
  lemma SplicedFrom(w: seq<Request>, x: Request, r: seq<Request>, k: nat)
    requires SplicedAt(w, x, r, k)
    ensures forall i :: 0 <= i < |r| ==> r[i] == x || r[i] == w[if i < k then i else i - 1]
  {}

  /** Splicing a request with an unused id into a list of distinct ids keeps them distinct. */
  lemma SplicedDistinct(w: seq<Request>, x: Request, r: seq<Request>, k: nat)
    requires SplicedAt(w, x, r, k)
    requires forall i, j :: 0 <= i < j < |w| ==> w[i].id != w[j].id
    requires forall i :: 0 <= i < |w| ==> w[i].id != x.id
    ensures forall i, j :: 0 <= i < j < |r| ==> r[i].id != r[j].id
  {
    forall i, j | 0 <= i < j < |r|
      ensures r[i].id != r[j].id
    {
      if i == k {
        assert r[j] == w[j - 1];
      } else if j == k {
        assert r[i] == w[i];
      } else {
        var i', j' := if i < k then i else i - 1, if j < k then j else j - 1;
        assert r[i] == w[i'] && r[j] == w[j'] && i' < j';
      }
    }
  }

  lemma EnqueuePreservesValid(q: Queue, id: string, payload: string, taskType: string, clientId: string,
                              priority: Priority, timeout: int, now: Time)
    requires Valid(q) && !IdIsLive(q, id)
    requires Enqueue(q, id, payload, taskType, clientId, priority, timeout, now).Success?
    ensures Valid(Enqueue(q, id, payload, taskType, clientId, priority, timeout, now).value)
  {
    var x := NewRequest(id, q.model, taskType, clientId, payload, priority, timeout, now);
    InsertKeepsWaitingOk(q, x);
  }

  // ---------------------------------------------------------------------
  // dequeue
  // ---------------------------------------------------------------------

  datatype Dispatch = Dispatch(queue: Queue, request: Option<Request>)

  /** The head of the waiting list as it is handed to processing. */
  function Started(r: Request, now: Time): Request {
    r.(status := Processing, startedAt := Some(now))
  }

  /**
    `dequeue`: nothing when `max_concurrent` requests are already processing or
    nothing waits; otherwise the head of the waiting list becomes PROCESSING,
    started now, and moves into the processing map.
   */
  function Dequeue(q: Queue, now: Time): (d: Dispatch)
    ensures d.request.None? <==> |q.processing| >= q.maxConcurrent || |q.waiting| == 0
    ensures d.request.None? ==> d.queue == q
    ensures d.request.Some? ==>
      && d.request.value == Started(q.waiting[0], now)
      && d.queue.waiting == q.waiting[1..]
      && d.queue.processing == q.processing[q.waiting[0].id := d.request.value]
      && |d.queue.processing| <= q.maxConcurrent
      && d.queue.store == q.store[q.waiting[0].id := ToDict(d.request.value)]
      && d.queue.(waiting := q.waiting, processing := q.processing, store := q.store) == q
  {
    if |q.processing| >= q.maxConcurrent || |q.waiting| == 0 then Dispatch(q, None)
    else
      var r := Started(q.waiting[0], now);
      assert |q.processing[r.id := r]| <= |q.processing| + 1 by {
        assert q.processing[r.id := r].Keys == q.processing.Keys + {r.id};
      }
      Dispatch(q.(waiting := q.waiting[1..], processing := q.processing[r.id := r],
                  store := Persist(q.store, r)), Some(r))
  }

  lemma DequeuePreservesValid(q: Queue, now: Time)
    requires Valid(q)
    ensures Valid(Dequeue(q, now).queue)
  {
    var d := Dequeue(q, now);
    if d.request.Some? {
      var q' := d.queue;
      var h := q.waiting[0];
      forall i | 0 <= i < |q'.waiting|
        ensures q'.waiting[i].id !in q'.processing
      {
        assert q'.waiting[i] == q.waiting[i + 1];
      }
      assert forall i, j :: 0 <= i < j < |q'.waiting| ==> q'.waiting[i] == q.waiting[i + 1] && q'.waiting[j] == q.waiting[j + 1];
    }
  }

  // ---------------------------------------------------------------------
  // complete / fail
  // ---------------------------------------------------------------------

  function Finished(r: Request, result: Option<string>, now: Time): Request {
    r.(status := Completed, completedAt := Some(now), result := result)
  }

  /**
    `complete`: an id that is not processing changes nothing; otherwise the request
    leaves processing as COMPLETED, `total_processed` grows by one and the outcome is
    persisted.
   */
  function Complete(q: Queue, id: string, result: Option<string>, now: Time): (q': Queue)
    ensures q'.model == q.model && q'.maxConcurrent == q.maxConcurrent && q'.maxWaiting == q.maxWaiting
    ensures id !in q.processing ==> q' == q
    ensures id in q.processing ==>
      var done := Finished(q.processing[id], result, now);
      && id !in q'.processing
      && q'.processing == q.processing - {id}
      && q'.waiting == q.waiting
      && q'.totalProcessed == q.totalProcessed + 1
      && q'.totalFailed == q.totalFailed && q'.totalTimeout == q.totalTimeout
      && q'.store == q.store[done.id := ToDict(done)]
  {
    if id !in q.processing then q
    else
      var done := Finished(q.processing[id], result, now);
      q.(processing := q.processing - {id}, totalProcessed := q.totalProcessed + 1,
         store := Persist(q.store, done))
  }

  lemma CompletePreservesValid(q: Queue, id: string, result: Option<string>, now: Time)
    requires Valid(q)
    ensures Valid(Complete(q, id, result, now))
  {
    if id in q.processing {
      var q' := Complete(q, id, result, now);
      assert q'.processing.Keys == q.processing.Keys - {id};
    }
  }

  /** A failed request that still has retries left: back to QUEUED, no longer started. */
  function Retried(r: Request, error: string): Request {
    r.(error := Some(error), retryCount := r.retryCount + 1, status := Queued, startedAt := None)
  }

  /** A failed request out of retries. */
  function GaveUp(r: Request, error: string, now: Time): Request {
    r.(error := Some(error), retryCount := r.retryCount + 1, status := Failed, completedAt := Some(now))
  }

  /**
    `fail`: an id that is not processing changes nothing. Otherwise the retry count
    grows by one; below `max_retries` the request re-enters the waiting list as
    QUEUED by the same priority insertion as `enqueue`, without the `max_waiting`
    check; at or above it the request is FAILED and `total_failed` grows by one.
   */
  function Fail(q: Queue, id: string, error: string, now: Time): (q': Queue)
    ensures q'.model == q.model && q'.maxConcurrent == q.maxConcurrent && q'.maxWaiting == q.maxWaiting
    ensures id !in q.processing ==> q' == q
    ensures id in q.processing ==>
      var r := q.processing[id];
      && q'.processing == q.processing - {id}
      && q'.totalProcessed == q.totalProcessed && q'.totalTimeout == q.totalTimeout
      && (r.retryCount + 1 < r.maxRetries ==>
            && q'.waiting == InsertByPriority(q.waiting, Retried(r, error))
            && q'.totalFailed == q.totalFailed
            && q'.store == q.store[r.id := ToDict(Retried(r, error))])
      && (r.retryCount + 1 >= r.maxRetries ==>
            && q'.waiting == q.waiting
            && q'.totalFailed == q.totalFailed + 1
            && q'.store == q.store[r.id := ToDict(GaveUp(r, error, now))])
  {
    if id !in q.processing then q
    else
      var r := q.processing[id];
      var rest := q.(processing := q.processing - {id});
      if r.retryCount + 1 < r.maxRetries then
        var again := Retried(r, error);
        rest.(waiting := InsertByPriority(q.waiting, again), store := Persist(q.store, again))
      else
        var dead := GaveUp(r, error, now);
        rest.(totalFailed := q.totalFailed + 1, store := Persist(q.store, dead))
  }

  lemma FailPreservesValid(q: Queue, id: string, error: string, now: Time)
    requires Valid(q)
    ensures Valid(Fail(q, id, error, now))
  {
    if id in q.processing {
      var r := q.processing[id];
      var rest := q.(processing := q.processing - {id});
      assert rest.processing.Keys == q.processing.Keys - {id};
      assert WaitingOk(rest);
      if r.retryCount + 1 < r.maxRetries {
        assert !IdIsLive(rest, Retried(r, error).id);
        InsertKeepsWaitingOk(rest, Retried(r, error));
      }
    }
  }

  /**
    A re-queued request goes to the back of its priority class: behind every waiting
    request of equal or higher priority and ahead of every lower-priority one.
   */
  lemma FailRequeuesBehindItsClass(q: Queue, id: string, error: string, now: Time) returns (k: nat)
    requires Valid(q) && id in q.processing
    requires q.processing[id].retryCount + 1 < q.processing[id].maxRetries
    ensures var w := Fail(q, id, error, now).waiting; var p := q.processing[id].priority;
      && k < |w| && w[k] == Retried(q.processing[id], error)
      && (forall j :: 0 <= j < k ==> Rank(w[j].priority) <= Rank(p))
      && (forall j :: k < j < |w| ==> Rank(p) < Rank(w[j].priority))
  {
    k := InsertByPriorityFifo(q.waiting, Retried(q.processing[id], error));
  }

  /** The re-insert skips the `max_waiting` check: a retry can overfill a full waiting list. */
  lemma FailCanOverfillWaiting(q: Queue, id: string, error: string, now: Time)
    requires id in q.processing && |q.waiting| == q.maxWaiting
    requires q.processing[id].retryCount + 1 < q.processing[id].maxRetries
    ensures |Fail(q, id, error, now).waiting| == q.maxWaiting + 1
  {}

  // ---------------------------------------------------------------------
  // timeout sweep
  // ---------------------------------------------------------------------

  /** The processing requests one sweep of `_recovery_loop` finds timed out. */
  function Expired(q: Queue, now: Time): set<string> {
    set k | k in q.processing && IsTimeout(q.processing[k], now)
  }

  function TimedOutAt(r: Request, now: Time): Request {
    r.(status := TimedOut, completedAt := Some(now))
  }

  /**
    One sweep of `_recovery_loop`: every processing request whose elapsed time since
    `started_at` exceeds its timeout leaves processing as TIMEOUT and is persisted;
    `total_timeout` grows by their number. Waiting requests are never looked at.
   */
  function TimeoutSweep(q: Queue, now: Time): (q': Queue)
    ensures q'.model == q.model && q'.maxConcurrent == q.maxConcurrent && q'.maxWaiting == q.maxWaiting
    ensures q'.processing.Keys == set k | k in q.processing && !IsTimeout(q.processing[k], now)
    ensures forall k :: k in q'.processing ==> q'.processing[k] == q.processing[k]
    ensures q'.totalTimeout == q.totalTimeout + |Expired(q, now)|
    ensures q'.store.Keys == q.store.Keys + Expired(q, now)
    ensures forall k :: k in Expired(q, now) ==> q'.store[k] == ToDict(TimedOutAt(q.processing[k], now))
    ensures forall k :: k in q.store && k !in Expired(q, now) ==> q'.store[k] == q.store[k]
    ensures q'.waiting == q.waiting
    ensures q'.totalProcessed == q.totalProcessed && q'.totalFailed == q.totalFailed
  {
    var gone := Expired(q, now);
    var kept := map k | k in q.processing && k !in gone :: q.processing[k];
    var store' := map k | k in q.store.Keys + gone ::
      if k in gone then ToDict(TimedOutAt(q.processing[k], now)) else q.store[k];
    q.(processing := kept, totalTimeout := q.totalTimeout + |gone|, store := store')
  }

  /** A request that was never started cannot time out, however long it waits. */
  lemma UnstartedNeverTimesOut(q: Queue, now: Time, k: string)
    requires k in q.processing && q.processing[k].startedAt.None?
    ensures k in TimeoutSweep(q, now).processing
  {}

  /** After a sweep nothing left in processing is timed out at that instant. */
  lemma TimeoutSweepLeavesNoneExpired(q: Queue, now: Time)
    ensures Expired(TimeoutSweep(q, now), now) == {}
  {
    var q1 := TimeoutSweep(q, now);
    forall k | k in q1.processing
      ensures !IsTimeout(q1.processing[k], now)
    {
      assert q1.processing[k] == q.processing[k];
    }
  }

  /** A sweep that finds nothing expired changes nothing. */
  lemma TimeoutSweepOfNothingExpired(q: Queue, now: Time)
    requires Expired(q, now) == {}
    ensures TimeoutSweep(q, now) == q
  {
    var q1 := TimeoutSweep(q, now);
    assert q1.processing.Keys == q.processing.Keys;
    assert q1.store.Keys == q.store.Keys;
  }

  /** So a second sweep at the same instant changes nothing. */
  lemma TimeoutSweepIdempotent(q: Queue, now: Time)
    ensures TimeoutSweep(TimeoutSweep(q, now), now) == TimeoutSweep(q, now)
  {
    TimeoutSweepLeavesNoneExpired(q, now);
    TimeoutSweepOfNothingExpired(TimeoutSweep(q, now), now);
  }

  lemma TimeoutSweepPreservesValid(q: Queue, now: Time)
    requires Valid(q)
    ensures Valid(TimeoutSweep(q, now))
  {
    var q' := TimeoutSweep(q, now);
    assert q'.processing.Keys <= q.processing.Keys;
    assert |q'.processing| <= |q.processing| by {
      assert |q'.processing.Keys| <= |q.processing.Keys| by {
        SubsetCardinality(q'.processing.Keys, q.processing.Keys);
      }
    }
  }

  lemma SubsetCardinality<T>(a: set<T>, b: set<T>)
    requires a <= b
    ensures |a| <= |b|
  {
    assert b == a + (b - a);
  }

  // ---------------------------------------------------------------------
  // metrics
  // ---------------------------------------------------------------------

  datatype Metrics = Metrics(
    model: string, processing: nat, waiting: nat, maxConcurrent: int, maxWaiting: int,
    totalProcessed: nat, totalFailed: nat, totalTimeout: nat, utilization: real)

  /** `get_metrics`, with utilization as an exact ratio (0 when `max_concurrent` is not positive). */
  function GetMetrics(q: Queue): (m: Metrics)
    ensures m.processing == |q.processing| && m.waiting == |q.waiting|
    ensures m.totalProcessed == q.totalProcessed && m.totalFailed == q.totalFailed
    ensures m.totalTimeout == q.totalTimeout
    ensures q.maxConcurrent > 0 ==> m.utilization * q.maxConcurrent as real == |q.processing| as real
    ensures q.maxConcurrent <= 0 ==> m.utilization == 0.0
    ensures Valid(q) && q.maxConcurrent > 0 ==> 0.0 <= m.utilization <= 1.0
  {
    var u := if q.maxConcurrent > 0 then |q.processing| as real / q.maxConcurrent as real else 0.0;
    Metrics(q.model, |q.processing|, |q.waiting|, q.maxConcurrent, q.maxWaiting,
            q.totalProcessed, q.totalFailed, q.totalTimeout, u)
  }
}

=== FILE: store.dfy ===
/**
  The store layer (`MongoDB` in app/database/mongodb.py) over collections held as
  sequences of records, with `queue_state` as the map the admission queue writes:
  the retention cleanup, the listings and the stamping of new records.
 */
module Store {
  import opened Wrappers
  import opened QueuedRequests
  import opened Iso
  import opened Listing
  import RequestQueue

  /** A `request_history` record, as far as the listings and the analyzer read it. */
  datatype HistoryRecord = HistoryRecord(clientId: string, model: string, createdAt: Time)

  /** A `crash_logs` or `metrics` record: its content and its `timestamp`. */
  datatype Stamped = Stamped(data: string, timestamp: Time)

  /** A `missing_model_requests` record. */
  datatype MissingModel = MissingModel(model: string, clientId: string, timestamp: Time)

  datatype Database = Database(
    history: seq<HistoryRecord>,
    crashes: seq<Stamped>,
    metrics: seq<Stamped>,
    missing: seq<MissingModel>,
    queueState: map<string, Doc>)

  // ---------------------------------------------------------------------
  // cleanup_old_data
  // ---------------------------------------------------------------------

  /** `now - timedelta(days=retention_days)`. */
  function Cutoff(now: Time, retentionDays: int): Time {
    now - retentionDays * SecondsPerDay
  }

  /** The statuses whose records the cleanup may prune. */
  predicate Finished(d: Doc) {
    d.status == Some(FStr("completed")) || d.status == Some(FStr("failed")) || d.status == Some(FStr("timeout"))
  }

  /**
    The queue-state filter as written: `{"completed_at": {"$lt": cutoff}}` with a
    datetime cutoff matches only date-typed values, while `to_dict` stores
    `completed_at` as text.
   */
  predicate PrunableAsWritten(d: Doc, cutoff: Time) {
    Finished(d) && d.completedAt.Some? && d.completedAt.value.FDate? && d.completedAt.value.t < cutoff
  }

  /** The completion time a document records, whether stored as a date or as isoformat text. */
  function CompletionTime(d: Doc): Option<Time> {
    match d.completedAt
    case Some(FDate(t)) => Some(t)
    case Some(FStr(s)) => Iso.Parse(s)
    case _ => None
  }

  /** The queue-state filter as intended: finished, and completed before the cutoff. */
  predicate Prunable(d: Doc, cutoff: Time) {
    Finished(d) && CompletionTime(d).Some? && CompletionTime(d).value < cutoff
  }

  function PruneQueueState(qs: map<string, Doc>, cutoff: Time, asWritten: bool): map<string, Doc> {
    map k | k in qs && !(if asWritten then PrunableAsWritten(qs[k], cutoff) else Prunable(qs[k], cutoff)) :: qs[k]
  }

  function CreatedSince(cutoff: Time): HistoryRecord -> bool {
    (r: HistoryRecord) => r.createdAt >= cutoff
  }

  function StampedSince(cutoff: Time): Stamped -> bool {
    (r: Stamped) => r.timestamp >= cutoff
  }

  /**
    `cleanup_old_data`: deletes the request history created before the cutoff, the
    crash logs and metrics stamped before it, and the finished queue-state records
    matched by the queue-state filter. A record exactly at the cutoff is kept.
   */
  function CleanupWith(db: Database, now: Time, retentionDays: int, asWritten: bool): (c: Database)
    ensures forall r :: r in c.history <==> r in db.history && r.createdAt >= Cutoff(now, retentionDays)
    ensures forall r :: r in c.crashes <==> r in db.crashes && r.timestamp >= Cutoff(now, retentionDays)
    ensures forall r :: r in c.metrics <==> r in db.metrics && r.timestamp >= Cutoff(now, retentionDays)
    ensures c.missing == db.missing
    ensures c.queueState.Keys <= db.queueState.Keys
    ensures forall k :: k in c.queueState ==> c.queueState[k] == db.queueState[k]
    ensures forall k :: k in db.queueState && !Finished(db.queueState[k]) ==> k in c.queueState
  {
    var cutoff := Cutoff(now, retentionDays);
    Database(
      Filter(db.history, CreatedSince(cutoff)),
      Filter(db.crashes, StampedSince(cutoff)),
      Filter(db.metrics, StampedSince(cutoff)),
      db.missing,
      PruneQueueState(db.queueState, cutoff, asWritten))
  }

  /**
    The cleanup as written: a queue record goes only when finished and its
    `completed_at` is a date before the cutoff, so records whose `completed_at` is
    text, null or absent all stay.
   */
  function CleanupAsWritten(db: Database, now: Time, retentionDays: int): (c: Database)
    ensures forall k :: k in db.queueState ==>
      (k !in c.queueState <==> PrunableAsWritten(db.queueState[k], Cutoff(now, retentionDays)))
    ensures (forall k :: k in db.queueState ==> !(db.queueState[k].completedAt.Some? && db.queueState[k].completedAt.value.FDate?))
      ==> c.queueState == db.queueState
  {
    CleanupWith(db, now, retentionDays, true)
  }

  /**
    The cleanup with the completion time compared as intended: a queue record goes
    exactly when it is finished and was completed before the cutoff.
   */
  function Cleanup(db: Database, now: Time, retentionDays: int): (c: Database)
    ensures forall k :: k in db.queueState ==>
      (k !in c.queueState <==> Prunable(db.queueState[k], Cutoff(now, retentionDays)))
  {
    CleanupWith(db, now, retentionDays, false)
  }

  /** At a fixed instant a second cleanup deletes nothing more. */
  lemma CleanupIdempotent(db: Database, now: Time, retentionDays: int, asWritten: bool)
    ensures CleanupWith(CleanupWith(db, now, retentionDays, asWritten), now, retentionDays, asWritten)
         == CleanupWith(db, now, retentionDays, asWritten)
  {
    var cutoff := Cutoff(now, retentionDays);
    var c := CleanupWith(db, now, retentionDays, asWritten);
    var c2 := CleanupWith(c, now, retentionDays, asWritten);
    FilterIdempotent(db.history, CreatedSince(cutoff));
    FilterIdempotent(db.crashes, StampedSince(cutoff));
    FilterIdempotent(db.metrics, StampedSince(cutoff));
    assert c2.queueState.Keys == c.queueState.Keys;
  }

  /** `to_dict` never stores `completed_at` as a date. */
  lemma ToDictCompletionIsText(r: Request)
    ensures !ToDict(r).completedAt.value.FDate?
  {}

  /**
    As written, the cleanup never deletes a queue-state record the queue wrote:
    those hold `completed_at` as text, which the date comparison does not match.
   */
  lemma CleanupAsWrittenKeepsQueueState(db: Database, now: Time, retentionDays: int)
    requires RequestQueue.Persisted(db.queueState)
    ensures CleanupAsWritten(db, now, retentionDays).queueState == db.queueState
  {
    forall k | k in db.queueState
      ensures !db.queueState[k].completedAt.value.FDate?
    {
      ToDictCompletionIsText(FromDict(db.queueState[k]).value);
    }
  }

  /**
    A request completed before the cutoff: the corrected cleanup deletes its record,
    the cleanup as written keeps it.
   */
  lemma CompletedRecordIsPruned(db: Database, now: Time, retentionDays: int, r: Request, t: Time)
    requires r.status == Completed && r.completedAt == Some(t) && t < Cutoff(now, retentionDays)
    requires r.id in db.queueState && db.queueState[r.id] == ToDict(r)
    ensures r.id !in Cleanup(db, now, retentionDays).queueState
    ensures r.id in CleanupAsWritten(db, now, retentionDays).queueState
  {
    Iso.ParseFormat(t);
    assert CompletionTime(ToDict(r)) == Some(t);
  }

  // ---------------------------------------------------------------------
  // Listings
  // ---------------------------------------------------------------------

  /** An optional filter value; `None` and `""` are falsy and do not filter. */
  predicate Matches(filter: Option<string>, value: string) {
    filter.None? || filter.value == "" || filter.value == value
  }

  /** The query of `get_request_history`: both optional filters match. */
  function HistoryTest(clientId: Option<string>, model: Option<string>): HistoryRecord -> bool {
    (r: HistoryRecord) => Matches(clientId, r.clientId) && Matches(model, r.model)
  }

  const ByCreatedAt := (r: HistoryRecord) => r.createdAt
  const ByTimestamp := (r: Stamped) => r.timestamp
  const MissingByTimestamp := (r: MissingModel) => r.timestamp

  /**
    `get_request_history`: at most `limit` of the records matching both filters,
    newest `created_at` first; a matching record left out is no newer than any
    returned, and with at most `limit` matches all are returned.
   */
  function GetRequestHistory(db: Database, clientId: Option<string>, model: Option<string>, limit: nat)
    : (r: seq<HistoryRecord>)
    ensures |r| <= limit
    ensures forall i :: 0 <= i < |r| ==> r[i] in db.history && Matches(clientId, r[i].clientId) && Matches(model, r[i].model)
    ensures forall i, j :: 0 <= i < j < |r| ==> r[i].createdAt >= r[j].createdAt
    ensures forall x, y ::
      x in db.history && Matches(clientId, x.clientId) && Matches(model, x.model) && x !in r && y in r
      ==> x.createdAt <= y.createdAt
    ensures |Filter(db.history, HistoryTest(clientId, model))| <= limit ==>
      forall x :: x in db.history && Matches(clientId, x.clientId) && Matches(model, x.model) ==> x in r
  {
    var m := Filter(db.history, HistoryTest(clientId, model));
    NewestContract(m, ByCreatedAt, limit);
    Newest(m, ByCreatedAt, limit)
  }

  /**
    `get_crash_logs`: at most `limit` crash records, newest `timestamp` first; one
    left out is no newer than any returned, and with at most `limit` all are returned.
   */
  function GetCrashLogs(db: Database, limit: nat): (r: seq<Stamped>)
    ensures |r| <= limit
    ensures forall i :: 0 <= i < |r| ==> r[i] in db.crashes
    ensures forall i, j :: 0 <= i < j < |r| ==> r[i].timestamp >= r[j].timestamp
    ensures forall x, y :: x in db.crashes && x !in r && y in r ==> x.timestamp <= y.timestamp
    ensures |db.crashes| <= limit ==> forall x :: x in db.crashes ==> x in r
  {
    NewestContract(db.crashes, ByTimestamp, limit);
    Newest(db.crashes, ByTimestamp, limit)
  }

  /**
    `get_missing_model_requests`: at most `limit` records, newest `timestamp` first;
    one left out is no newer than any returned, and with at most `limit` all are returned.
   */
  function GetMissingModelRequests(db: Database, limit: nat): (r: seq<MissingModel>)
    ensures |r| <= limit
    ensures forall i :: 0 <= i < |r| ==> r[i] in db.missing
    ensures forall i, j :: 0 <= i < j < |r| ==> r[i].timestamp >= r[j].timestamp
    ensures forall x, y :: x in db.missing && x !in r && y in r ==> x.timestamp <= y.timestamp
    ensures |db.missing| <= limit ==> forall x :: x in db.missing ==> x in r
  {
    NewestContract(db.missing, MissingByTimestamp, limit);
    Newest(db.missing, MissingByTimestamp, limit)
  }

  /** Inside the given bounds of `get_metrics`, both inclusive; a missing bound does not limit. */
  predicate InRange(t: Time, start: Option<Time>, end: Option<Time>) {
    (start.None? || start.value <= t) && (end.None? || t <= end.value)
  }

  function RangeTest(start: Option<Time>, end: Option<Time>): Stamped -> bool {
    (r: Stamped) => InRange(r.timestamp, start, end)
  }

  /**
    `get_metrics`: at most `limit` snapshots within the bounds, newest first; one in
    the bounds left out is no newer than any returned, and with at most `limit` in the
    bounds all are returned.
   */
  function GetMetrics(db: Database, start: Option<Time>, end: Option<Time>, limit: nat): (r: seq<Stamped>)
    ensures |r| <= limit
    ensures forall i :: 0 <= i < |r| ==> r[i] in db.metrics && InRange(r[i].timestamp, start, end)
    ensures forall i, j :: 0 <= i < j < |r| ==> r[i].timestamp >= r[j].timestamp
    ensures forall x, y ::
      x in db.metrics && InRange(x.timestamp, start, end) && x !in r && y in r
      ==> x.timestamp <= y.timestamp
    ensures |Filter(db.metrics, RangeTest(start, end))| <= limit ==>
      forall x :: x in db.metrics && InRange(x.timestamp, start, end) ==> x in r
  {
    var m := Filter(db.metrics, RangeTest(start, end));
    InRangeMembers(db.metrics, start, end);
    NewestContract(m, ByTimestamp, limit);
    Newest(m, ByTimestamp, limit)
  }

  /** The snapshots the range filter keeps are those of the collection within the bounds. */
  lemma InRangeMembers(xs: seq<Stamped>, start: Option<Time>, end: Option<Time>)
    ensures forall x :: x in Filter(xs, RangeTest(start, end)) <==> x in xs && InRange(x.timestamp, start, end)
  {
    forall x
      ensures x in Filter(xs, RangeTest(start, end)) <==> x in xs && InRange(x.timestamp, start, end)
    {
      assert RangeTest(start, end)(x) == InRange(x.timestamp, start, end);
    }
  }

  // ---------------------------------------------------------------------
  // Stamping new records
  // ---------------------------------------------------------------------

  /** A record as the caller hands it over, possibly with a `timestamp` of its own. */
  datatype Submitted = Submitted(data: string, timestamp: Option<Time>)

  /** `log_crash`: the record is stored with the current time, whatever timestamp it carried. */
  function LogCrash(db: Database, crash: Submitted, now: Time): (db': Database)
    ensures |db'.crashes| == |db.crashes| + 1 && db'.crashes[..|db.crashes|] == db.crashes
    ensures db'.crashes[|db.crashes|] == Stamped(crash.data, now)
    ensures db'.(crashes := db.crashes) == db
  {
    db.(crashes := db.crashes + [Stamped(crash.data, now)])
  }

  /** `save_metrics`: the snapshot is stored with the current time, whatever timestamp it carried. */
  function SaveMetrics(db: Database, metrics: Submitted, now: Time): (db': Database)
    ensures |db'.metrics| == |db.metrics| + 1 && db'.metrics[..|db.metrics|] == db.metrics
    ensures db'.metrics[|db.metrics|] == Stamped(metrics.data, now)
    ensures db'.(metrics := db.metrics) == db
  {
    db.(metrics := db.metrics + [Stamped(metrics.data, now)])
  }

  /** `log_missing_model`: a record of the model asked for and the client, stamped with the current time. */
  function LogMissingModel(db: Database, model: string, clientId: string, now: Time): (db': Database)
    ensures |db'.missing| == |db.missing| + 1 && db'.missing[..|db.missing|] == db.missing
    ensures db'.missing[|db.missing|] == MissingModel(model, clientId, now)
    ensures db'.(missing := db.missing) == db
  {
    db.(missing := db.missing + [MissingModel(model, clientId, now)])
  }

  /** `save_request`: the history record is stored as given. */
  function SaveRequest(db: Database, r: HistoryRecord): (db': Database)
    ensures |db'.history| == |db.history| + 1 && db'.history[..|db.history|] == db.history
    ensures db'.history[|db.history|] == r
    ensures db'.(history := db.history) == db
  {
    db.(history := db.history + [r])
  }

  /** A saved request shows up in the listing for its own client and model when it is the newest. */
  lemma SavedRequestIsListed(db: Database, r: HistoryRecord, limit: nat)
    requires limit >= 1
    requires forall i :: 0 <= i < |db.history| ==> db.history[i].createdAt < r.createdAt
    ensures GetRequestHistory(SaveRequest(db, r), Some(r.clientId), Some(r.model), limit)[0] == r
  {
    var h := SaveRequest(db, r).history;
    var m := Filter(h, HistoryTest(Some(r.clientId), Some(r.model)));
    assert forall i :: 0 <= i < |h| ==> h[i] == r || h[i].createdAt < r.createdAt;
    assert r in m by {
      assert h[|db.history|] == r;
    }
    NewestHead(m, ByCreatedAt, limit, r);
  }

  /**
    A crash logged at an instant no earlier than every logged crash heads the crash
    listing.
   */
  lemma LoggedCrashHeadsListing(db: Database, crash: Submitted, now: Time, limit: nat)
    requires limit >= 1
    requires forall i :: 0 <= i < |db.crashes| ==> db.crashes[i].timestamp <= now
    ensures var r := GetCrashLogs(LogCrash(db, crash, now), limit);
      |r| >= 1 && r[0].timestamp == now
  {
    var xs := LogCrash(db, crash, now).crashes;
    var x := Stamped(crash.data, now);
    assert x in xs by {
      assert xs[|db.crashes|] == x;
    }
    assert forall i :: 0 <= i < |xs| ==> xs[i].timestamp <= now;
    NewestHead(xs, ByTimestamp, limit, x);
  }

  /**
    A snapshot saved now, when every earlier one is older and now lies within the
    bounds asked for, is the first record `get_metrics` returns.
   */
  lemma SavedMetricsHeadsListing(db: Database, metrics: Submitted, now: Time,
                                 start: Option<Time>, end: Option<Time>, limit: nat)
    requires limit >= 1 && InRange(now, start, end)
    requires forall i :: 0 <= i < |db.metrics| ==> db.metrics[i].timestamp < now
    ensures var r := GetMetrics(SaveMetrics(db, metrics, now), start, end, limit);
      |r| >= 1 && r[0] == Stamped(metrics.data, now)
  {
    var xs := SaveMetrics(db, metrics, now).metrics;
    var x := Stamped(metrics.data, now);
    var m := Filter(xs, RangeTest(start, end));
    assert x in xs by {
      assert xs[|db.metrics|] == x;
    }
    assert x in m;
    assert forall y :: y in xs && y != x ==> y.timestamp < now;
    NewestHead(m, ByTimestamp, limit, x);
  }

  /**
    A missing model logged now, when every earlier record is older, is the first
    record `get_missing_model_requests` returns.
   */
  lemma LoggedMissingModelHeadsListing(db: Database, model: string, clientId: string, now: Time, limit: nat)
    requires limit >= 1
    requires forall i :: 0 <= i < |db.missing| ==> db.missing[i].timestamp < now
    ensures var r := GetMissingModelRequests(LogMissingModel(db, model, clientId, now), limit);
      |r| >= 1 && r[0] == MissingModel(model, clientId, now)
  {
    var xs := LogMissingModel(db, model, clientId, now).missing;
    var x := MissingModel(model, clientId, now);
    assert x in xs by {
      assert xs[|db.missing|] == x;
    }
    assert forall y :: y in xs && y != x ==> y.timestamp < now;
    NewestHead(xs, MissingByTimestamp, limit, x);
  }
}

=== FILE: tally.dfy ===
/**
  Counting keys in first-seen order: the `defaultdict(int)` tallies of
  app/monitoring/pattern_analyzer.py, whose iteration order is the order in which
  keys were first counted, and the `max(..., key=...)` scan over them.
 */
module Tally {

  /** The keys in first-seen order, and each key's count. */
  datatype Counter<K(==)> = Counter(order: seq<K>, counts: map<K, nat>)

  predicate Distinct<K(==,!new)>(s: seq<K>) {
    forall i, j :: 0 <= i < j < |s| ==> s[i] != s[j]
  }

  /** `order` lists each counted key once, and every counted key has a count of at least one. */
  ghost predicate Wf<K(!new)>(c: Counter<K>) {
    && Distinct(c.order)
    && (forall k :: k in c.counts <==> k in c.order)
    && (forall k :: k in c.counts ==> c.counts[k] >= 1)
  }

  /** `counts[k] += 1`: a new key is appended to the order. */
  function Bump<K(==,!new)>(c: Counter<K>, k: K): Counter<K> {
    if k in c.counts then c.(counts := c.counts[k := c.counts[k] + 1])
    else Counter(c.order + [k], c.counts[k := 1])
  }

  /** The tally of `ks`, counted left to right. */
  function CountAll<K(==,!new)>(ks: seq<K>): (c: Counter<K>)
    ensures Wf(c)
    ensures forall k :: k in c.counts <==> k in ks
    ensures forall k :: k in c.counts ==> c.counts[k] == multiset(ks)[k]
    decreases |ks|
  {
    if ks == [] then Counter([], map[])
    else
      var init := ks[..|ks| - 1];
      var k := ks[|ks| - 1];
      assert ks == init + [k];
      var c := CountAll(init);
      BumpKeepsWf(c, k);
      Bump(c, k)
  }

  /** Counting one more key keeps a tally well formed and adds exactly that key once. */
  lemma BumpKeepsWf<K(!new)>(c: Counter<K>, k: K)
    requires Wf(c)
    ensures var c' := Bump(c, k);
      && Wf(c')
      && (forall j :: j in c'.counts <==> j in c.counts || j == k)
      && c'.counts[k] == (if k in c.counts then c.counts[k] else 0) + 1
      && (forall j :: j in c.counts && j != k ==> c'.counts[j] == c.counts[j])
  {
    var c' := Bump(c, k);
    if k !in c.counts {
      assert forall i :: 0 <= i < |c.order| ==> c.order[i] in c.counts;
      assert forall j :: j in c'.order <==> j in c.order || j == k;
    }
  }

  /** One more key extends the order only when it is new. */
  lemma CountAllStep<K(!new)>(ks: seq<K>)
    requires ks != []
    ensures var c := CountAll(ks[..|ks| - 1]); var k := ks[|ks| - 1];
      CountAll(ks).order == if k in c.counts then c.order else c.order + [k]
  {}

  /** `k` sits at position `p` of `order`, and every key listed before it occurs in `prefix`. */
  predicate FirstSeenAt<K(==)>(order: seq<K>, k: K, prefix: seq<K>, p: int) {
    0 <= p < |order| && order[p] == k && forall q :: 0 <= q < p ==> order[q] in prefix
  }

  /**
    `order` lists the keys by first occurrence in `ks`: every key ahead of the
    first occurrence of `ks[i]` occurs before position `i`.
   */
  lemma {:induction false} CountAllFirstSeen<K(!new)>(ks: seq<K>, i: nat) returns (p: nat)
    requires i < |ks|
    requires forall j :: 0 <= j < i ==> ks[j] != ks[i]
    ensures FirstSeenAt(CountAll(ks).order, ks[i], ks[..i], p)
    decreases |ks|
  {
    if i == |ks| - 1 {
      FirstSeenAtEnd(ks);
      p := |CountAll(ks[..i]).order|;
    } else {
      var init := ks[..|ks| - 1];
      var ci := CountAll(init);
      var c := CountAll(ks);
      assert init[i] == ks[i] && init[..i] == ks[..i];
      assert forall j :: 0 <= j < i ==> init[j] != init[i];
      p := CountAllFirstSeen(init, i);
      assert |ci.order| <= |c.order| && c.order[..|ci.order|] == ci.order by {
        CountAllStep(ks);
      }
      FirstSeenInExtension(ci.order, c.order, ks[i], ks[..i], p);
    }
  }

  /** A position that shows first sight in a list shows it in any extension of the list. */
  lemma FirstSeenInExtension<K>(order: seq<K>, order': seq<K>, k: K, prefix: seq<K>, p: int)
    requires FirstSeenAt(order, k, prefix, p)
    requires |order| <= |order'| && order'[..|order|] == order
    ensures FirstSeenAt(order', k, prefix, p)
  {
    assert forall q :: 0 <= q < |order| ==> order'[q] == order[q];
  }

  lemma FirstSeenAtEnd<K(!new)>(ks: seq<K>)
    requires ks != []
    requires forall j :: 0 <= j < |ks| - 1 ==> ks[j] != ks[|ks| - 1]
    ensures FirstSeenAt(CountAll(ks).order, ks[|ks| - 1], ks[..|ks| - 1], |CountAll(ks[..|ks| - 1]).order|)
  {
    var i := |ks| - 1;
    var init := ks[..i];
    var ci := CountAll(init);
    var c := CountAll(ks);
    assert ks[i] !in ci.counts by {
      assert forall j :: 0 <= j < |init| ==> init[j] != ks[i];
    }
    assert c.order == ci.order + [ks[i]] by {
      CountAllStep(ks);
    }
    assert forall q :: 0 <= q < |ci.order| ==> ci.order[q] in init by {
      assert forall q :: 0 <= q < |ci.order| ==> ci.order[q] in ci.counts;
    }
    assert init == ks[..i];
    assert FirstSeenAt(c.order, ks[i], ks[..i], |ci.order|);
  }

  /** The position of the first occurrence of `k` in `ks`. */
  function FirstIndex<K(==)>(ks: seq<K>, k: K): (i: nat)
    requires k in ks
    ensures i < |ks| && ks[i] == k
    ensures forall j :: 0 <= j < i ==> ks[j] != k
  {
    if ks[0] == k then 0 else 1 + FirstIndex(ks[1..], k)
  }

  /**
    Keys listed earlier in `order` were first seen earlier in `ks`: the order of a
    tally is the order of first occurrence.
   */
  lemma OrderIsFirstSeen<K(!new)>(ks: seq<K>, p: nat, p': nat)
    requires var c := CountAll(ks); p < p' < |c.order|
    ensures var c := CountAll(ks); FirstIndex(ks, c.order[p]) < FirstIndex(ks, c.order[p'])
  {
    var c := CountAll(ks);
    var j := FirstIndex(ks, c.order[p']);
    var q := CountAllFirstSeen(ks, j);
    assert q == p';
    assert c.order[p] in ks[..j];
    var t :| 0 <= t < j && ks[..j][t] == c.order[p];
    assert ks[t] == c.order[p];
  }

  // ---------------------------------------------------------------------
  // Sums
  // ---------------------------------------------------------------------

  /** `sum(counts.values())`, over the keys in `order`. */
  function SumOver<K(==,!new)>(order: seq<K>, counts: map<K, nat>): nat
    requires forall k :: k in order ==> k in counts
    decreases |order|
  {
    if order == [] then 0
    else SumOver(order[..|order| - 1], counts) + counts[order[|order| - 1]]
  }

  function Total<K(==,!new)>(c: Counter<K>): nat
    requires Wf(c)
  {
    SumOver(c.order, c.counts)
  }

  /** A tally adds up to zero exactly when it has counted nothing. */
  lemma TotalZero<K(!new)>(c: Counter<K>)
    requires Wf(c)
    ensures Total(c) == 0 <==> c.order == []
  {
    if c.order != [] {
      assert c.order[|c.order| - 1] in c.counts;
    }
  }

  /** Two count maps that agree on the keys of `order` give the same sum. */
  lemma {:induction false} SumOverAgree<K(!new)>(order: seq<K>, a: map<K, nat>, b: map<K, nat>)
    requires forall j :: j in order ==> j in a && j in b && a[j] == b[j]
    ensures SumOver(order, a) == SumOver(order, b)
    decreases |order|
  {
    if order != [] {
      var init := order[..|order| - 1];
      assert forall j :: j in init ==> j in order;
      SumOverAgree(init, a, b);
    }
  }

  /** One more count for a key listed once in `order` adds one to the sum. */
  lemma {:induction false} SumOverBumped<K(!new)>(order: seq<K>, a: map<K, nat>, b: map<K, nat>, k: K)
    requires forall j :: j in order ==> j in a
    requires Distinct(order) && k in order
    requires k in b && b[k] == a[k] + 1
    requires forall j :: j in order && j != k ==> j in b && b[j] == a[j]
    ensures SumOver(order, b) == SumOver(order, a) + 1
    decreases |order|
  {
    var init := order[..|order| - 1];
    var last := order[|order| - 1];
    assert forall j :: j in init ==> j in order;
    if last == k {
      assert forall j :: 0 <= j < |init| ==> init[j] == order[j] != order[|order| - 1];
      SumOverAgree(init, a, b);
    } else {
      assert k in init by {
        var j :| 0 <= j < |order| && order[j] == k;
        assert j < |order| - 1 && init[j] == k;
      }
      SumOverBumped(init, a, b, k);
    }
  }

  /** The counts of a tally add up to the number of keys counted. */
  lemma {:induction false} TotalIsLength<K(!new)>(ks: seq<K>)
    ensures Total(CountAll(ks)) == |ks|
    decreases |ks|
  {
    if ks != [] {
      var init := ks[..|ks| - 1];
      var k := ks[|ks| - 1];
      var c := CountAll(init);
      var cc := CountAll(ks);
      assert cc == Bump(c, k);
      TotalIsLength(init);
      if k in c.counts {
        assert cc.order == c.order;
        SumOverBumped(c.order, c.counts, cc.counts, k);
      } else {
        assert cc.order == c.order + [k];
        assert cc.order[..|cc.order| - 1] == c.order;
        SumOverAgree(c.order, c.counts, cc.counts);
      }
    }
  }

  /** A tally lists as many keys as there are distinct keys. */
  lemma DistinctCardinality<K(!new)>(s: seq<K>)
    requires Distinct(s)
    ensures |set x | x in s| == |s|
    decreases |s|
  {
    if s != [] {
      var init := s[..|s| - 1];
      var last := s[|s| - 1];
      assert Distinct(init);
      DistinctCardinality(init);
      assert forall j :: 0 <= j < |init| ==> init[j] == s[j] != s[|s| - 1];
      assert (set x | x in s) == (set x | x in init) + {last};
    }
  }

  // ---------------------------------------------------------------------
  // The first maximum
  // ---------------------------------------------------------------------

  /**
    `max(counts.items(), key=count)`: the index of the first key, in order, with
    the greatest count. A later key replaces the best so far only when strictly greater.
   */
  function FirstMax<K(==,!new)>(order: seq<K>, counts: map<K, nat>): (i: nat)
    requires |order| > 0 && forall k :: k in order ==> k in counts
    ensures i < |order|
    ensures forall j :: 0 <= j < |order| ==> counts[order[j]] <= counts[order[i]]
    ensures forall j :: 0 <= j < i ==> counts[order[j]] < counts[order[i]]
    decreases |order|
  {
    if |order| == 1 then 0
    else
      var init := order[..|order| - 1];
      assert forall k :: k in init ==> k in order;
      var i := FirstMax(init, counts);
      assert forall j :: 0 <= j < |init| ==> order[j] == init[j];
      if counts[order[|order| - 1]] > counts[order[i]] then |order| - 1 else i
  }

  /**
    The key `max` picks over a tally of `ks` has the greatest count, and any other
    key with as many was first seen later in `ks`.
   */
  lemma FirstMaxOfTally<K(!new)>(ks: seq<K>)
    requires ks != []
    ensures var c := CountAll(ks);
      |c.order| > 0
      && var k := c.order[FirstMax(c.order, c.counts)];
      forall k' :: k' in c.counts ==>
        (c.counts[k'] <= c.counts[k] && (c.counts[k'] == c.counts[k] && k' != k ==> FirstIndex(ks, k) < FirstIndex(ks, k')))
  {
    var c := CountAll(ks);
    assert |c.order| > 0 by {
      assert ks[0] in c.counts;
    }
    var i := FirstMax(c.order, c.counts);
    var k := c.order[i];
    FirstMaxOfCounter(c);
    forall k' | k' in c.counts && c.counts[k'] == c.counts[k] && k' != k
      ensures FirstIndex(ks, k) < FirstIndex(ks, k')
    {
      var p' :| i < p' < |c.order| && c.order[p'] == k';
      OrderIsFirstSeen(ks, i, p');
    }
  }

  /** Over a well-formed tally, the first maximum beats every key, and every tie is listed after it. */
  lemma FirstMaxOfCounter<K(!new)>(c: Counter<K>)
    requires Wf(c) && |c.order| > 0
    ensures var i := FirstMax(c.order, c.counts); var k := c.order[i];
      && (forall k' :: k' in c.counts ==> c.counts[k'] <= c.counts[k])
      && (forall k' :: k' in c.counts && c.counts[k'] == c.counts[k] && k' != k ==>
            exists p' :: i < p' < |c.order| && c.order[p'] == k')
  {
    var i := FirstMax(c.order, c.counts);
    var k := c.order[i];
    forall k' | k' in c.counts
      ensures c.counts[k'] <= c.counts[k]
      ensures c.counts[k'] == c.counts[k] && k' != k ==> exists p' :: i < p' < |c.order| && c.order[p'] == k'
    {
      var p' :| 0 <= p' < |c.order| && c.order[p'] == k';
      if c.counts[k'] == c.counts[k] && k' != k {
        assert i < p';
      }
    }
  }
}

=== FILE: wrappers.dfy ===
/** Failure-carrying result types shared by every module of the gateway model. */
module Wrappers {

  /** An optional value: Python's `Optional[...]` / `None`. */
  datatype Option<+T> = None | Some(value: T)

  /** The outcome of an operation that can raise: `Success` or the error it raised. */
  datatype Result<+R, +E> = Success(value: R) | Failure(error: E)
}
